=== FILE: README.md ===
# gdbwire core, modelled in Dafny

gdbwire is a C library that sits between a GDB front end and GDB. It frames
the text GDB writes into lines of GDB/MI output or into GDB annotations, and
turns some GDB/MI result records into typed commands. A Python script,
`mkgdbwire.py`, merges the library into a single-header and single-source
amalgamation. This project models the core of all of these and proves what
each part promises:

- **The amalgamation engine** (`amalgamation.dfy`, `amalgamation_properties.dfy`).
  - `copy_file` becomes `Amalgamator.CopyFile`, a method over a class that holds the staging directory, the output written so far and the registry of headers still available for inlining. It is proved equal to the recursive function `FileCopy`.
  - Termination comes from the number of headers still available.
  - Each artifact starts with a fresh registry, and a header is inlined at most once per artifact. Its flag is cleared exactly when it is inlined.
  - `#line` directives never reach the output.
  - The boundary comments nest like brackets, and the top-level files are the manifest, in order.
  - A file with nothing to expand or drop is copied verbatim. In a file of any kind, the lines that are neither an include nor `#line` are written as they are and in order, at the file's own level.
  - Each line follows copy_file's rule, stated on the line's layout: a line laid out as a quoted include of a manifest header still available is expanded; any other quoted include is commented out; a line with no such layout that starts with `#line` is dropped; every other line is kept.
  - A commented-out include is written as the script writes it: `/* `, the line without trailing white space, ` */`. A `*/` inside the line is left as it is and ends the comment early (see Findings, which also gives a corrected form that defuses both `/*` and `*/`).
  - Staging takes each manifest file from the source root, else from the build root. It fails, naming the first file found in neither, exactly when such a file exists.
  - The include pattern matches exactly the quoted includes, so `#include <...>` is kept as it is.
  - The `#line` pattern is anchored at column 0, so an indented `#line` is copied like any other line.
- **The growable string** (`gdbwire_string.dfy`). `GdbString` is a class over an `array<char>`. The C functions that take a possibly-null string become methods that take `GdbString?`.
  - The capacity follows the schedule 0, 128, 256, ..., 4096, 8192, ... and always lands on the least scheduled capacity that fits.
  - Appends keep embedded NULs.
  - `find_first_of` and `erase` are stated on the contents.
- **The annotation parser** (`annotation_parser.dfy`, `annotation_properties.dfy`).
  - The four-state machine of `gdbwire_annotation_parser_parse` is a class holding the state and two `GdbString`s. It is proved equal, byte by byte, to the step function `Step`.
  - For NUL-free input, no byte is lost: the events plus what is held back spell the input without its carriage returns.
  - For NUL-free input, a console event is never empty. Input holding a NUL is cut at that NUL when the event is made.
  - `\n\032\032text\n` comes out as exactly one annotation, after the console output before it.
  - The annotation's kind is the table entry of its first word, or Unknown.
- **The GDB/MI framer** (`mi_parser.dfy`, `mi_parser_properties.dfy`).
  - Pushed bytes are buffered, and every complete line ended by `\n`, `\r` or `\r\n` is cut off and parsed.
  - For NUL-free input, each output carries exactly one line, and the lines put back together are the bytes pushed. A line holding a NUL reaches the grammar cut at that NUL.
  - How the input is cut into pushes does not matter, unless a cut falls between the `\r` and the `\n` of a `\r\n`. The two `CrLf` lemmas show that this proviso is needed.
  - The flex/bison grammar is a function parameter.
- **The legacy framer** (`gdbmi_parser.dfy`). It parses at most one line per push and does not report a failed parse.
- **MI command extraction** (`mi_command.dfy` over the parse tree of `mi_tree.dfy`). It holds the shape rules of `-file-list-exec-source-file` and `-file-list-exec-source-files`, with round trips from the records GDB prints. `GetMiCommand` and the files loop are modelled as written: a key-less field or an empty tuple where a handler expects a field is read through a NULL pointer (see Findings). The NULL-checked handlers are the corrected forms, and lemmas state that the two agree wherever the code as written returns.
- **The list-append helpers** (`chain.dfy`). These are one generic `Append` over heap nodes with a `next` field, for the four copies in the C sources.

A C string argument is a `seq<char>`. What C sees of it is `CStr.CPrefix`, the part before the first NUL. A NULL `char *` is `None`.

## Model

| member | source | states |
|---|---|---|
| Amalgamation.Stars | src/amalgamation/mkgdbwire.py:76 | `'*' * n`: exactly n stars, and none when n is not positive (Python's repetition by a non-positive count). |
| Amalgamation.Comment | src/amalgamation/mkgdbwire.py:75-77 | A boundary comment is 80 characters long when the text has at most 70, otherwise the text length plus 10. |
| AmalgamationProperties.CommentLayout | src/amalgamation/mkgdbwire.py:75-77 | A boundary comment is `/***** `, the text, a space, only stars, then `/` and a newline. |
| AmalgamationProperties.CommentInjective | src/amalgamation/mkgdbwire.py:75-77 | Different texts give different boundary comments. |
| Amalgamation.SkipBlanks | src/amalgamation/mkgdbwire.py:80 | The `\s*` run: every character skipped is Python white space and the next one is not. |
| Amalgamation.RStrip | src/amalgamation/mkgdbwire.py:118 | str.rstrip: a prefix of the line that does not end in white space, with only white space removed. |
| Amalgamation.NextQuote | src/amalgamation/mkgdbwire.py:80 | The `[^"]+` run ends at the first quote after the opening one, or at the end of the line. |
| Amalgamation.IncludeTarget | src/amalgamation/mkgdbwire.py:80 | The captured header name is non-empty and holds no quote. |
| Amalgamation.AfterHash | src/amalgamation/mkgdbwire.py:80 | The pattern after `#`: a match names a non-empty, quote-free header. |
| Amalgamation.AfterKeyword | src/amalgamation/mkgdbwire.py:80 | The pattern after `include`: a match names a non-empty, quote-free header. |
| Amalgamation.QuotedName | src/amalgamation/mkgdbwire.py:80 | The pattern after the opening quote: a match names a non-empty, quote-free header. |
| AmalgamationProperties.QuotedIncludeMatches | src/amalgamation/mkgdbwire.py:80 | Every line laid out as a quoted include is matched, and the match is the text between the quotes. |
| AmalgamationProperties.IncludeMatchIsQuoted | src/amalgamation/mkgdbwire.py:80 | Every matched line is laid out as a quoted include: blanks, `#`, blanks, `include`, blanks, a quoted non-empty name. |
| AmalgamationProperties.AngleIncludeKept | src/amalgamation/mkgdbwire.py:80-81 | `#include <...>` is matched by neither pattern, so it is written as it is. |
| Amalgamation.IsLineDirective | src/amalgamation/mkgdbwire.py:81 | `re.match` anchors the `#line` pattern at column 0: a directive starts with `#l`, and a line that starts with a blank is none. |
| AmalgamationProperties.HashIsNotDirective | src/amalgamation/mkgdbwire.py:81 | A line that starts with blanks, or with `#` and then not `l`, is no `#line` directive. |
| Amalgamation.Render | src/amalgamation/mkgdbwire.py:77-123 | Every write other than a kept line (a boundary comment or a commented-out include, as the script writes it) starts with `/*` and ends the line. |
| Amalgamation.RenderAll | src/amalgamation/mkgdbwire.py:102-124 | Writes one string per piece, in order, each the text of that piece as the script writes it. |
| Amalgamation.CommentedOutAsWritten | src/amalgamation/mkgdbwire.py:118 | `/* `, the line without trailing white space, then ` */` and a newline. |
| Amalgamation.DefuseOpeners | src/amalgamation/mkgdbwire.py:115-116 | Corrected form, first pass: keeps the length, turns only a `/` into `*`, leaves no `/*`, and changes nothing in a line without markers. |
| Amalgamation.DefuseClosers | src/amalgamation/mkgdbwire.py:115-116 | Corrected form, second pass: keeps the length, turns only a `/` that follows a `*` into `*`, leaves no `*/`, and changes nothing in a line without markers. |
| Amalgamation.Defuse | src/amalgamation/mkgdbwire.py:115-116 | Corrected form: keeps the length, turns only some `/` into `*`, leaves neither `/*` nor `*/`, and leaves a line without markers unchanged. |
| Amalgamation.CommentedOut | src/amalgamation/mkgdbwire.py:115-118 | Corrected form: `/* `, the defused line without trailing white space, ` */` and a newline; its only `/*` is the opening one and its only `*/` the closing one. |
| Amalgamation.CommentedOutMarkers | src/amalgamation/mkgdbwire.py:115-118 | A marker-free text wrapped in `/* ` and ` */` has exactly one `/*`, at the start, and one `*/`, three characters before the end. |
| Amalgamation.CloseFile | src/amalgamation/mkgdbwire.py:124 | The `End of` comment is written only when no file was missing; the registry is left alone. |
| Amalgamation.FileCopy | src/amalgamation/mkgdbwire.py:102-124 | Copying a file only ever clears registry flags. |
| Amalgamation.LinesCopy | src/amalgamation/mkgdbwire.py:106-123 | The line loop only ever clears registry flags. That the other lines are kept, in order, is LinesKept. |
| Amalgamation.LineCopy | src/amalgamation/mkgdbwire.py:107-123 | One line only ever clears registry flags. The rule on the line's layout is IncludeLineRule and OtherLineRule. |
| Amalgamation.Expand | src/amalgamation/mkgdbwire.py:110-114 | An expansion clears the flag of the header it inlines (and perhaps others). |
| Amalgamation.ManifestCopy | src/amalgamation/mkgdbwire.py:160-161 | Copying the manifest only ever clears registry flags. |
| Amalgamation.Amalgamator.Init | src/amalgamation/mkgdbwire.py:152-154 | Nothing is written yet, and every header is available. |
| Amalgamation.Amalgamator.Emit | src/amalgamation/mkgdbwire.py:77 | Appends the text of one piece (a comment, a commented-out include as the script writes it, or a line) and leaves the registry alone. |
| Amalgamation.Amalgamator.CopyFile | src/amalgamation/mkgdbwire.py:102-124 | Writes exactly the rendering of FileCopy after what was there, and the registry and the missing file are FileCopy's. |
| Amalgamation.Amalgamator.CopyLine | src/amalgamation/mkgdbwire.py:107-123 | Writes exactly what LineCopy says for the line, with LineCopy's registry. |
| Amalgamation.Amalgamator.Expansion | src/amalgamation/mkgdbwire.py:110-114 | Clears the header's flag, then writes the `Include` comment, the header's copy and the `Continuing` comment, as Expand says. |
| Amalgamation.Amalgamator.WriteArtifact | src/amalgamation/mkgdbwire.py:163-173 | A fresh registry, then every manifest file in order: the output is the rendering of ManifestCopy. |
| Amalgamation.Amalgamator.WriteGdbwireHeader | src/amalgamation/mkgdbwire.py:163-173 | gdbwire.h after the banner is ManifestCopy of the header list from a fresh registry. |
| Amalgamation.Amalgamator.WriteGdbwireSource | src/amalgamation/mkgdbwire.py:151-161 | gdbwire.c after the banner is ManifestCopy of the source list from its own fresh registry. |
| AmalgamationProperties.LineRegistry | src/amalgamation/mkgdbwire.py:107-123 | One line expands only available headers, each once, and clears exactly their flags. A line written as it is was no include and no `#line`; a commented-out line was an include. |
| AmalgamationProperties.ExpandRegistry | src/amalgamation/mkgdbwire.py:110-113 | An expansion clears exactly the flags of the headers it inlines, each inlined once. |
| AmalgamationProperties.LinesRegistry | src/amalgamation/mkgdbwire.py:106-123 | The same registry facts for the whole line loop. |
| AmalgamationProperties.FileRegistry | src/amalgamation/mkgdbwire.py:102-124 | The same registry facts for a copied file. |
| AmalgamationProperties.ManifestRegistry | src/amalgamation/mkgdbwire.py:160-161 | Over a whole artifact, each header is expanded at most once, and a flag flips to False exactly when its header is expanded and never flips back. |
| AmalgamationProperties.NoLineDirectiveWritten | src/amalgamation/mkgdbwire.py:119-121 | No string written to an artifact is a `#line` directive. |
| AmalgamationProperties.RenderedNotDirective | src/amalgamation/mkgdbwire.py:115-123 | Comments and commented-out includes never start with `#line`, nor does a kept line that was not one. |
| AmalgamationProperties.CommentOpens | src/amalgamation/mkgdbwire.py:75-77 | A boundary comment starts with `/` and so is no `#line` directive. |
| AmalgamationProperties.LineNests | src/amalgamation/mkgdbwire.py:107-123 | A line copied inside the file `name` leaves the stack of open files as it was. |
| AmalgamationProperties.ExpandNests | src/amalgamation/mkgdbwire.py:112-114 | An expansion leaves the stack of open files as it was: the inlined header is opened and closed inside the including file. |
| AmalgamationProperties.LinesNest | src/amalgamation/mkgdbwire.py:106-123 | The line loop leaves the stack of open files as it was. |
| AmalgamationProperties.FileNests | src/amalgamation/mkgdbwire.py:104-124 | A completed copy opens its file and closes it again, leaving the stack of open files as it was; the file counts as top level exactly when the stack was empty. |
| AmalgamationProperties.ManifestOutline | src/amalgamation/mkgdbwire.py:172-173 | A complete artifact is well bracketed, and its top-level files are the manifest, each once and in order, even a header already inlined earlier. |
| AmalgamationProperties.PlainLinesKept | src/amalgamation/mkgdbwire.py:122-123 | Lines with no include and no `#line` are all kept, in order, and the registry is untouched. |
| AmalgamationProperties.PlainFileVerbatim | src/amalgamation/mkgdbwire.py:102-124 | Such a file is written verbatim between its `Begin file` and `End of` comments. |
| AmalgamationProperties.IncludeLineRule | src/amalgamation/mkgdbwire.py:80-118 | A line laid out as a quoted include whose name is a manifest header still available is expanded, and that header is inlined. Any other quoted include is commented out, and the registry is untouched. |
| AmalgamationProperties.OtherLineRule | src/amalgamation/mkgdbwire.py:80-123 | A line with no quoted-include layout is dropped when it starts with `#line` and otherwise written as it is; either way the registry is untouched. |
| AmalgamationProperties.KeptAtConcat | src/amalgamation/mkgdbwire.py:106-123 | The lines written as they are, at a given level, over two stretches of output are those of the first stretch and then those of the second. The numbers of files opened and closed add up. |
| AmalgamationProperties.NetConcat | src/amalgamation/mkgdbwire.py:106-123 | The number of files opened minus those closed, over two stretches of output, is the sum over each. |
| AmalgamationProperties.LineKept | src/amalgamation/mkgdbwire.py:107-123 | A completed line opens and closes as many files as it leaves open. At the file's own level it writes the line itself exactly when the line is neither an include nor `#line`. |
| AmalgamationProperties.ExpandKept | src/amalgamation/mkgdbwire.py:110-114 | A completed expansion writes no line as it is at the including file's level: the header's lines stay inside its own boundary comments. |
| AmalgamationProperties.LinesKept | src/amalgamation/mkgdbwire.py:106-123 | In a completed line loop, over a file of any kind, the lines written at the file's own level are exactly its lines that are neither an include nor `#line`, in order. |
| AmalgamationProperties.KeptJoin | src/amalgamation/mkgdbwire.py:106-123 | One line's pieces followed by the rest of the loop's: the lines kept at the file's level are the line itself, when it is neither an include nor `#line`, then the rest's. |
| AmalgamationProperties.FileKept | src/amalgamation/mkgdbwire.py:102-124 | A completed file copy is bracketed: nothing of it is written as it is outside its own boundary comments. |
| AmalgamationProperties.FileKeepsPlainLines | src/amalgamation/mkgdbwire.py:102-124 | Between a completed file's `Begin file` and `End of` comments, the lines at its own level are exactly its lines that are neither an include nor `#line`, in order, however many headers it inlines. |
| AmalgamationProperties.NestedCommentClosesEarly | src/amalgamation/mkgdbwire.py:115-118 | `#include "x.h" /* why */` is commented out. Written as the script writes it, its own `*/` ends the comment three characters early. |
| AmalgamationProperties.HeadersStartWithG | src/amalgamation/mkgdbwire.py:44-55 | Every manifest header name starts with `g`. |
| AmalgamationProperties.ExampleIncludeLayout | src/amalgamation/mkgdbwire.py:80 | `#include "x.h" /* why */` is laid out as a quoted include of `x.h`. |
| AmalgamationProperties.ExampleCommentedOut | src/amalgamation/mkgdbwire.py:118 | That line, commented out as written, is 31 characters long and holds a `*/` at position 25, not at the closing position. |
| AmalgamationProperties.CorrectionOnlyTouchesMarkers | src/amalgamation/mkgdbwire.py:115-118 | The corrected and the as-written forms agree exactly on lines (after rstrip) without `/*` or `*/`. |
| AmalgamationProperties.ExampleRStrip | src/amalgamation/mkgdbwire.py:118 | rstrip removes only the final newline from `#include "x.h" /* why */`. |
| Amalgamation.FirstMissing | src/amalgamation/mkgdbwire.py:180-187 | The position of the first manifest name found in neither root (or the number of names): every name before it is found. |
| Amalgamation.Stage | src/amalgamation/mkgdbwire.py:179-187 | Each staged name comes from the source root when it is there, else from the build root. The error `Path <name> could not be found.` names the first file found in neither root, and comes exactly when such a file exists. The names before it are staged, and files outside them are untouched. |
| Amalgamation.CreateTsrc | src/amalgamation/mkgdbwire.py:176-187 | Stage over the header list, then the source list: each file comes from the source root, else from the build root. The exception names the first file found in neither, and comes exactly when one exists. |
| GdbwireString.Grow | src/gdbwire_string.c:62-78 | One growth step always increases the capacity. |
| GdbwireString.Fit | src/gdbwire_string.c:118-124 | Growing only when full gives a capacity that holds the bytes, and it changes exactly when they did not fit. |
| GdbwireString.GrowScheduled | src/gdbwire_string.c:65-77 | Growth keeps the capacity on the schedule 0, 128, 256, ..., 4096, 8192, .... |
| GdbwireString.GrowIsNext | src/gdbwire_string.c:65-77 | One growth step reaches the next capacity on the schedule, skipping none. |
| GdbwireString.FitIsLeastScheduled | src/gdbwire_string.c:111-130 | After appends the capacity is the least scheduled capacity that is at least the old one and holds the bytes. |
| GdbwireString.FitStep | src/gdbwire_string.c:118-124 | One more byte grows the capacity at most once. |
| GdbwireString.IndexOfAny | src/gdbwire_string.c:156-178 | The first position whose byte is one of `chars`, or the length when there is none. |
| GdbwireString.GdbString.Create | src/gdbwire_string.c:14-28 | A new string is empty, with capacity 128 and a NUL at index 0. |
| GdbwireString.IncreaseCapacity | src/gdbwire_string.c:62-83 | The next capacity on the schedule, with the bytes and size kept. |
| GdbwireString.AppendData | src/gdbwire_string.c:111-130 | -1 and no change for a null string or null data; otherwise the contents become the old ones plus data[0..n), NULs included, with the scheduled capacity. |
| GdbwireString.StoreNext | src/gdbwire_string.c:118-127 | One byte appended, growing first only when full. |
| GdbwireString.AppendChar | src/gdbwire_string.c:85-89 | -1 for a null string; otherwise one byte appended. |
| GdbwireString.AppendCStr | src/gdbwire_string.c:91-109 | -1 for a null string or null C string; otherwise the bytes before the first NUL are appended, and a NUL is stored just past the end but not counted. |
| GdbwireString.Clear | src/gdbwire_string.c:44-51 | Empty, NUL at index 0, capacity and allocation kept; a null string is ignored. |
| GdbwireString.FindFirstOf | src/gdbwire_string.c:156-178 | The first position whose byte is in the C string `chars` (embedded NULs in the string scanned past), the size when none is, 0 for a null argument. |
| GdbwireString.Erase | src/gdbwire_string.c:180-220 | -1 and no change for a null string or `pos >= size`; otherwise old[..pos] ++ old[min(pos+count, size)..], capacity kept. |
| GdbwireString.ShiftLeft | src/gdbwire_string.c:206-213 | The bytes from pos+count up to size move down by count, and the bytes before pos stay. |
| AnnotationParser.TableDistinct | src/gdbwire_annotation_parser.c:195-285 | No name appears twice in the annotation table. |
| AnnotationParser.KindsKnown | src/gdbwire_annotation_parser.c:195-285 | No table entry has the kind Unknown; only the NULL sentinel does. |
| AnnotationParser.LookupFromFinds | src/gdbwire_annotation_parser.c:304-312 | The table search finds a kind exactly when some entry has the name, and that entry holds the name and kind found. |
| AnnotationParser.LookupSkips | src/gdbwire_annotation_parser.c:304-312 | The search passes over other names and stops at the first entry with the name. |
| AnnotationParser.KindOfKnown | src/gdbwire_annotation_parser.c:294-312 | Exactly the names in the table have a known kind, and it is their entry's. |
| AnnotationParser.KindOfTableName | src/gdbwire_annotation_parser.c:202-285 | Every table name is looked up as its own kind. |
| AnnotationParser.LookupKind | src/gdbwire_annotation_parser.c:304-312 | The loop over the table gives KindOf(name): the entry's kind on an exact match, else Unknown. |
| AnnotationParser.Step | src/gdbwire_annotation_parser.c:335-386 | A `\r` changes nothing. TEXT is entered only from CONTROL_Z on a second `\032`, or kept on any byte but `\n`. A `\n` in TEXT ends with an annotation event, an empty text and GDB_DATA. |
| AnnotationParser.Run | src/gdbwire_annotation_parser.c:328-392 | After a push the console buffer is empty, and the state is the one the bytes lead to. |
| AnnotationParser.AnnotationParser.Init | src/gdbwire_annotation_parser.c:108-121 | A new parser is in GDB_DATA with empty console output and annotation text. |
| AnnotationParser.AnnotationParser.SendConsoleOutputIfAvailable | src/gdbwire_annotation_parser.c:149-166 | Emits one console event for a non-empty buffer and clears it (Flush). |
| AnnotationParser.AnnotationParser.ProcessChar | src/gdbwire_annotation_parser.c:316-326 | Appends the byte to the console output and sends it a line at a time (Process). |
| AnnotationParser.AnnotationParser.ParseAnnotation | src/gdbwire_annotation_parser.c:168-190 | Pending console output first, then the annotation with its kind and text (Emit). |
| AnnotationParser.TakeAnnotation | src/gdbwire_annotation_parser.c:294-313 | The kind is that of the name before the first space; the text is the annotation text as a C string. |
| AnnotationParser.AnnotationParser.Parse | src/gdbwire_annotation_parser.c:328-392 | Feeds each byte through the machine, then flushes the console: the state and events are Run's, and the result is 0. |
| AnnotationParser.AnnotationParser.ConsumeChar | src/gdbwire_annotation_parser.c:336-386 | The switch for one byte does what Step says. |
| AnnotationParser.AnnotationParser.OnGdbData | src/gdbwire_annotation_parser.c:341-347 | The GDB_DATA case does what Step says. |
| AnnotationParser.AnnotationParser.OnNewLine | src/gdbwire_annotation_parser.c:348-360 | The NEW_LINE case does what Step says. |
| AnnotationParser.AnnotationParser.OnControlZ | src/gdbwire_annotation_parser.c:361-375 | The CONTROL_Z case does what Step says. |
| AnnotationParser.AnnotationParser.OnText | src/gdbwire_annotation_parser.c:376-385 | The TEXT case does what Step says. |
| AnnotationParser.Create | src/gdbwire_annotation_parser.c:86-124 | NULL exactly when the output callback is missing; otherwise a parser in the initial state. |
| AnnotationParser.PushData | src/gdbwire_annotation_parser.c:394-406 | GDBWIRE_ASSERT for a null parser or null data; otherwise OK with Run's events and state. |
| AnnotationParser.Push | src/gdbwire_annotation_parser.c:287-292 | push_data with the bytes before the first NUL. |
| AnnotationProperties.DropCR | src/gdbwire_annotation_parser.c:336-338 | The input as the machine sees it holds no `\r`. |
| AnnotationProperties.FlushShape | src/gdbwire_annotation_parser.c:149-166 | For NUL-free input, a console event is never empty. |
| AnnotationProperties.FlushConserves | src/gdbwire_annotation_parser.c:149-166 | The event carries exactly the buffered console bytes. |
| AnnotationProperties.ProcessShape | src/gdbwire_annotation_parser.c:316-326 | Console output handed out a line at a time is well formed. |
| AnnotationProperties.ProcessConserves | src/gdbwire_annotation_parser.c:316-326 | The byte joins the console output, none lost. |
| AnnotationProperties.StepShape | src/gdbwire_annotation_parser.c:335-386 | Every reachable state has the shape (text only in TEXT, no newline in it), and every event is well formed. |
| AnnotationProperties.StepConserves | src/gdbwire_annotation_parser.c:335-386 | What one byte hands out plus what is held is what was held plus the byte; a `\r` vanishes. |
| AnnotationProperties.GdbDataConserves | src/gdbwire_annotation_parser.c:341-347 | No byte lost in GDB_DATA. |
| AnnotationProperties.NewLineConserves | src/gdbwire_annotation_parser.c:348-360 | No byte lost in NEW_LINE: a newline not followed by `\032` comes back as console output. |
| AnnotationProperties.ControlZConserves | src/gdbwire_annotation_parser.c:361-375 | No byte lost in CONTROL_Z: `\n\032` not followed by a second `\032` comes back as console output. |
| AnnotationProperties.TextConserves | src/gdbwire_annotation_parser.c:376-385 | No byte lost in TEXT. |
| AnnotationProperties.EmitConserves | src/gdbwire_annotation_parser.c:376-381 | The annotation event, with the console output before it, carries the bytes TEXT held and the `\n`. |
| AnnotationProperties.FeedShape | src/gdbwire_annotation_parser.c:335-387 | For NUL-free input, states keep their shape and events are well formed. |
| AnnotationProperties.FeedConserves | src/gdbwire_annotation_parser.c:335-387 | For NUL-free input, no byte is lost: events so far plus what is held spell the held bytes and the input without `\r`. |
| AnnotationProperties.FeedFromInitial | src/gdbwire_annotation_parser.c:335-387 | For NUL-free input from a new parser, events plus what is held are the input without `\r`. |
| AnnotationProperties.RunConserves | src/gdbwire_annotation_parser.c:328-392 | After a push of NUL-free input from a new parser, the events and the unfinished annotation prefix are the input without `\r`; console events are non-empty and the console buffer is empty. |
| AnnotationProperties.NulTruncatesConsole | src/gdbwire_annotation_parser.c:157-160 | A push of a NUL and `x` from a new parser hands out one empty console event: strndup stops at the NUL and `x` is lost. |
| AnnotationProperties.FeedNul | src/gdbwire_annotation_parser.c:335-345 | A NUL from a new parser goes into the console buffer, with no event. |
| AnnotationProperties.FeedNulX | src/gdbwire_annotation_parser.c:335-345 | A NUL and `x` from a new parser both go into the console buffer, with no event. |
| AnnotationProperties.FeedConcat | src/gdbwire_annotation_parser.c:335-387 | Feeding two pieces is feeding their concatenation. |
| AnnotationProperties.FeedText | src/gdbwire_annotation_parser.c:382-384 | Inside an annotation, bytes other than `\n` and `\r` only extend its text. |
| AnnotationProperties.FeedPrefix | src/gdbwire_annotation_parser.c:342-363 | `\n\032\032` takes GDB_DATA to TEXT and hands out nothing. |
| AnnotationProperties.AnnotationFrame | src/gdbwire_annotation_parser.c:340-386 | `\n\032\032a\n` hands out the pending console output if any, then one annotation with text `a` (no prefix, no newline) and the kind of its first word, and leaves the parser empty in GDB_DATA. |
| AnnotationProperties.FrameEnd | src/gdbwire_annotation_parser.c:185-189 | The closing newline sends pending console output before the annotation. |
| MiParser.LineLength | src/gdbwire_mi_parser.c:218-236 | The first line's length with its ending, 0 exactly when there is no line ending; the cut is one line, and a `\r` is cut alone only when no `\n` follows it yet. |
| MiParser.Drain | src/gdbwire_mi_parser.c:302-317 | OK or ASSERT; after OK no line ending is left; what is left is a suffix of the buffer; every output is the grammar's output for its line. |
| MiParser.Receive | src/gdbwire_mi_parser.c:273-320 | Lines are looked for only when the new data holds a line ending; otherwise everything is just buffered. |
| MiParser.MiParser.Init | src/gdbwire_mi_parser.c:51-56 | A new parser has an empty buffer. |
| MiParser.MiParser.ParseLine | src/gdbwire_mi_parser.c:135-191 | OK exactly for a non-null line the grammar turns into an output; that output carries the line. |
| MiParser.GetNextLine | src/gdbwire_mi_parser.c:210-265 | Without a line ending, no line and the buffer unchanged; otherwise the first line plus a NUL is copied out and the buffer becomes what followed it. |
| MiParser.CutLine | src/gdbwire_mi_parser.c:245-256 | The first n bytes are copied out with a NUL and erased from the buffer, and the erase status is 0. |
| MiParser.CopyLine | src/gdbwire_mi_parser.c:245-252 | A new string holds the line and a NUL. |
| MiParser.Create | src/gdbwire_mi_parser.c:40-86 | NULL exactly when the output callback is missing; otherwise a new, valid parser. |
| MiParser.ScanForLineEnding | src/gdbwire_mi_parser.c:293-298 | The backward scan finds a `\n` or `\r` exactly when the new bytes hold one. |
| MiParser.ParseLines | src/gdbwire_mi_parser.c:302-317 | The `for (;;)` loop gives Drain's result, outputs and leftover buffer. |
| MiParser.PushData | src/gdbwire_mi_parser.c:273-320 | GDBWIRE_ASSERT for a null parser or null data; otherwise Receive of the first `size` bytes. |
| MiParser.Push | src/gdbwire_mi_parser.c:267-271 | push_data with the bytes before the first NUL. |
| MiParserProperties.HasLineEndingIff | src/gdbwire_mi_parser.c:220-224 | A buffer holds a line ending exactly when one of its bytes is `\n` or `\r`. |
| MiParserProperties.HasLineEndingConcat | src/gdbwire_mi_parser.c:293-302 | Buffer plus new bytes hold a line ending exactly when one of them does. |
| MiParserProperties.ReceiveIsDrain | src/gdbwire_mi_parser.c:293-317 | A push onto a buffer without a line ending is the push loop run on the whole buffer. |
| MiParserProperties.DrainLines | src/gdbwire_mi_parser.c:184-188 | For a NUL-free buffer, every output's line is exactly one line, and after OK the lines followed by the leftover are the buffer. |
| MiParserProperties.JoinedCons | src/gdbwire_mi_parser.c:184-188 | The text of the outputs, one output followed by more, is that output's line followed by the text of the rest. |
| MiParserProperties.NulTruncatesLine | src/gdbwire_mi_parser.c:304-309 | The buffer `a`, NUL, `b`, newline drains to one output whose line is `a`: the line reaches the grammar as a C string. |
| MiParserProperties.NulLineLength | src/gdbwire_mi_parser.c:211-240 | That buffer's first line is all four bytes. |
| MiParserProperties.NulLinePrefix | src/gdbwire_mi_parser.c:304-309 | What C sees of that line is `a`. |
| MiParserProperties.LineLengthConcat | src/gdbwire_mi_parser.c:235-236 | Appending bytes does not change the first line, unless the buffer ended in `\r`. |
| MiParserProperties.DrainAppend | src/gdbwire_mi_parser.c:302-317 | Draining b + c is draining b, then what b left followed by c, unless b ends in `\r`. |
| MiParserProperties.ReceiveChunks | src/gdbwire_mi_parser.c:273-320 | Pushing a then c gives the same result, outputs and buffer as pushing a + c, unless a ends in `\r`. |
| MiParserProperties.ReceiveLeavesNoLine | src/gdbwire_mi_parser.c:303-317 | After a successful push the buffer holds no line ending. |
| MiParserProperties.ReceiveOneLine | src/gdbwire_mi_parser.c:185-188 | One line pushed gives exactly one output, whose line is that line with its ending, and empties the buffer. |
| MiParserProperties.CrLfInOnePush | src/gdbwire_mi_parser.c:235-236 | `t\r\n` in one push is one line. |
| MiParserProperties.CrLfAcrossPushes | src/gdbwire_mi_parser.c:235-236 | `t\r` then `\n` in two pushes are two lines. |
| GdbmiParser.Cut | src/lib/gdbmi/gdbmi_parser.c:144-176 | Result 0 and at most one output; the buffer keeps what follows the first line; it shrinks exactly when it held a line ending. |
| GdbmiParser.Receive | src/lib/gdbmi/gdbmi_parser.c:134-179 | Result 0 and at most one output per push; the buffer shrinks exactly when buffer plus C string held a line ending. |
| GdbmiParser.OneLinePerPush | src/lib/gdbmi/gdbmi_parser.c:152-174 | Two lines pushed at once give one output; the second line stays buffered. |
| GdbmiParser.GdbmiParser.Init | src/lib/gdbmi/gdbmi_parser.c:33-38 | A new parser has an empty buffer. |
| GdbmiParser.GdbmiParser.ParseLine | src/lib/gdbmi/gdbmi_parser.c:96-132 | -1 for a null line; otherwise 0, with `parse_failed` set exactly when the grammar fails. |
| GdbmiParser.Create | src/lib/gdbmi/gdbmi_parser.c:23-51 | A parser with an empty buffer. |
| GdbmiParser.Push | src/lib/gdbmi/gdbmi_parser.c:134-179 | -1 and nothing buffered for a null parser or null data; otherwise Receive of the C string. |
| GdbmiParser.CutAndParse | src/lib/gdbmi/gdbmi_parser.c:145-175 | Cuts the first line out, erases it and parses it, as Cut says. |
| MiCommand.Atoi | src/gdbwire_mi_command.c:71-79 | On a string of digits atoi is their decimal value; a negative result needs a `-` in the string. |
| MiCommand.AtoiOfNumeral | src/gdbwire_mi_command.c:71 | atoi reads back every decimal numeral. |
| MiCommand.StringField | src/gdbwire_mi_command.c:35-37 | Corrected (NULL-checked) form of the field check, see Findings: A value exactly for a CSTRING result whose variable is the name. |
| MiCommand.ParseExecSourceFile | src/gdbwire_mi_command.c:19-83 | Corrected (NULL-checked) form of file_list_exec_source_file, see Findings; ExecSourceFileAsWrittenAgrees says where the code as written agrees. OK exactly for `^done` with line, file, optional fullname and optional macro-info ("0" or "1"), in that order and nothing else; otherwise ASSERT with no command. `fullname` and `macro_info_exists` are present exactly when their fields are. |
| MiCommand.ParseSourceFileRecord | src/gdbwire_mi_command.c:30-80 | Round trip: the command is read back from the record GDB prints for it. |
| MiCommand.SourceFileOf | src/gdbwire_mi_command.c:119-136 | Corrected (NULL-checked) form of one element, see Findings: One element gives a source file exactly when it is a tuple of file and an optional fullname. |
| MiCommand.SourceFiles | src/gdbwire_mi_command.c:116-153 | Corrected (NULL-checked) form of the walk, see Findings: Every element well formed exactly when the walk succeeds; the files have the list's length and order. |
| MiCommand.SourceFilesResult | src/gdbwire_mi_command.c:97-160 | Corrected (NULL-checked) form of file_list_exec_source_files, see Findings; ExecSourceFilesAsWrittenAgrees says where the code as written agrees. OK exactly for `^done` with one LIST result `files` of file tuples; the files follow the list, and an empty list gives no files. |
| MiCommand.ParseExecSourceFiles | src/gdbwire_mi_command.c:97-160 | The while loop as written, element by element and without the NULL checks, gives ParseExecSourceFilesAsWritten: a GDBWIRE_ASSERT, a NULL dereference, or OK with the files in list order. |
| MiCommand.ParseSourceFilesRecord | src/gdbwire_mi_command.c:105-157 | Round trip: the files are read back, in order, from the record GDB prints. |
| MiCommand.StringFieldAsWritten | src/gdbwire_mi_command.c:35-36 | The comparison as written passes where StringField does and crashes exactly on a key-less string. |
| MiCommand.ParseExecSourceFileAsWritten | src/gdbwire_mi_command.c:19-83 | The handler as written, with no NULL checks: where it returns, a command is produced exactly on OK; it crashes only on a `^done` record holding a key-less result. |
| MiCommand.ExecSourceFileAsWrittenAgrees | src/gdbwire_mi_command.c:30-67 | Where the code as written returns, it agrees with ParseExecSourceFile; it crashes only on records that one rejects. |
| MiCommand.ExecSourceFileKeylessCrashes | src/gdbwire_mi_command.c:36 | `^done,"12"` reaches strcmp(NULL, "line") as written. |
| MiCommand.SourceFileAsWritten | src/gdbwire_mi_command.c:119-136 | One element as written scans exactly the well-formed tuples. |
| MiCommand.SourceFilesAsWritten | src/gdbwire_mi_command.c:116-153 | The loop as written scans exactly the lists of well-formed tuples. |
| MiCommand.ParseExecSourceFilesAsWritten | src/gdbwire_mi_command.c:97-160 | The handler as written: where it returns, a command is produced exactly on OK; it crashes only on a `^done` record whose first result is a list that is key-less or holds a malformed element. |
| MiCommand.ExecSourceFilesAsWrittenAgrees | src/gdbwire_mi_command.c:105-153 | Where the loop as written returns, it agrees with SourceFilesResult; it crashes only on records that one rejects. |
| MiCommand.ScanStep | src/gdbwire_mi_command.c:116-153 | One more turn of the loop as written: a well-formed element extends the files read so far, and a failing one (ASSERT or NULL dereference) decides the whole list. |
| MiCommand.ScanPrefix | src/gdbwire_mi_command.c:116-153 | After a stretch of the list that the loop reads through, the outcome is that of the rest, its files appended. |
| MiCommand.ScanOne | src/gdbwire_mi_command.c:116-153 | A list of one well-formed element reads as that element's source file. |
| MiCommand.ExecSourceFilesEmptyTupleCrashes | src/gdbwire_mi_command.c:120-123 | `^done,files=[{}]` dereferences the NULL member of an empty tuple as written. |
| MiCommand.ExecSourceFilesKeylessCrashes | src/gdbwire_mi_command.c:124 | `^done,files=[{"a.c"}]` reaches strcmp(NULL, "file") as written. |
| MiCommand.GetMiCommand | src/gdbwire_mi_command.c:162-184 | ASSERT for a null record or null `out`; otherwise the handler as written for the kind (so `^done,"12"` and `^done,files=[{}]` dereference NULL), and OK with no command for a kind without one; no command unless OK. Where it returns, it returns what the NULL-checked handlers return; where it dereferences NULL, they fail the record. |
| Chain.Append | src/gdbwire_mi_pt.c:6-46 | NULL for a NULL item; the item for a NULL list; otherwise the head, with the nodes old list ++ item chain. Whatever node sequence is reached from the result carries the old list's records and then the item's. Only the old tail's `next` is written. The same body is append_gdbmi_output and append_gdbmi_result (src/gdbmi_pt.c:6-44). |
| Chain.Link | src/gdbwire_mi_pt.c:16-21 | Walks to the tail of a non-empty list and links the item chain there: the nodes become old list ++ item chain, and only the old tail is written. |
| Chain.Tail | src/gdbwire_mi_pt.c:16-19 | The walk ends at the last node of the chain. |
| Chain.ChainRest | src/gdbwire_mi_pt.c:16-19 | The nodes after a chain's head form the chain that starts at the head's `next`. |
| Chain.ChainUnique | src/gdbwire_mi_pt.c:16-19 | A head determines its list: two node sequences that both start at it are equal. |

## Left out

- write_copyright and get_git_revision (src/amalgamation/mkgdbwire.py:126-149, 189-196): a text banner and a subprocess call. The top-level calls (198-201) are the script's main program.
- Amalgamation.Amalgamator.WriteGdbwireHeader: `out` holds what follows the banner, not the banner itself. The same holds for WriteGdbwireSource and WriteArtifact.
- Files, `open` and `shutil`: the staging directory, the source root and the build root are maps from bare file names to the lines Python's text-mode iteration yields. Newline translation, `os.path.basename` and creating `tsrc` are not modelled.
- Amalgamation.Amalgamator.CopyFile: a file that cannot be opened is modelled as a missing name that stops the copy. The Python traceback is not modelled.
- The flex lexer and bison grammar of both framers are a function parameter from a line to an output. Token columns and the lexer's own state are not modelled.
- Memory management is not modelled: calloc/free, destroy functions, the create cleanup paths, and the failure of `gdbwire_string_create` inside get_next_line.
- GdbwireString.IncreaseCapacity: always succeeds, because a realloc failure is not modelled.
- GdbwireString.AppendData: sizes are unbounded, so a `size_t` overflow of `size` or of `pos + count` in Erase is not modelled.
- GdbmiParser.Create: the error path that frees the parser and then reads `parser->buffer` (src/lib/gdbmi/gdbmi_parser.c:42-45) is an allocation failure and is not modelled.
- The annotation parser's `buffer` string is created and destroyed but never used, so it is not part of the class.
- `console_output.last` (src/gdbwire_annotation_pt.h:205) is never set by the parser. A console event carries only its text.
- The annotation parser's result of parse is always 0, and push_data ignores it. This is modelled as it is.
- Breakpoint and stack-frame extraction: src/gdbwire_mi_command.c has no handler for these kinds. GetMiCommand returns OK with no command for them.
- NUL bytes in the input: gdbwire's strings keep embedded NULs, but a console event, an annotation and an MI line are handed on as C strings, which end at the first NUL. The conservation and shape lemmas (FlushShape, FeedShape, FeedConserves, FeedFromInitial, RunConserves, DrainLines) are stated for NUL-free input only. NulTruncatesConsole and NulTruncatesLine show what happens otherwise: a console event can be empty, and the bytes after the NUL are lost.
- AnnotationParser.Push: the C string is a `seq<char>`, which cannot be NULL. src/gdbwire_annotation_parser.c:291 calls strlen on it before push_data's null check, so a NULL `data` crashes there instead of returning GDBWIRE_ASSERT. PushData models the null check itself.
- MiParser.Push: the same, at src/gdbwire_mi_parser.c:270. A NULL `data` crashes in strlen; PushData models the null check.
- MiCommand.Atoi: integers are unbounded. The C `int` range of the `line` field (src/gdbwire_mi_command.h:293) and atoi's undefined behaviour outside it are not modelled. AtoiOfNumeral and the line round trips hold for numerals of any size.
- The `macro_info` value is `atoi` of "0" or "1"; the model keeps it as the boolean `macroInfo == "1"`.
- Chain.Append: the lists are assumed acyclic and NULL-terminated (IsChain). On a cyclic list the C walk does not terminate, and that case is not modelled.
- The parse-tree printers and the rest of src/gdbwire_mi_pt.c and src/gdbmi_pt.c, the loggers, src/gdbwire.c and src/gdbwire_sys.c are not part of this model.

## Findings

| source | as written | input that shows it | evidently intended | confidence | as-written member | corrected member |
|---|---|---|---|---|---|---|
| src/amalgamation/mkgdbwire.py:115-118 | the comment promises to replace nested comment markers with `**`, but line 118 writes `/* %s */` with the line only right-stripped | `#include "x.h" /* why */`: its own `*/` closes the comment early and ` */` is left as code | both nested markers defused (`/*` and `*/` turned into `**`), so that the only `/*` is the opening one and the only `*/` the closing one; lines without markers come out as before | not executed | Amalgamation.CommentedOutAsWritten, AmalgamationProperties.NestedCommentClosesEarly | Amalgamation.CommentedOut, Amalgamation.Defuse, AmalgamationProperties.CorrectionOnlyTouchesMarkers |
| src/gdbwire_mi_command.c:120-123 | `tuple = mi_result->variant.result` is dereferenced (`tuple->kind`) without a NULL guard | `^done,files=[{}]`: an empty tuple, whose member list is NULL | a GDBWIRE_ASSERT, as for every other malformed element | not executed | MiCommand.ParseExecSourceFilesAsWritten, MiCommand.ParseExecSourceFiles, MiCommand.ExecSourceFilesEmptyTupleCrashes | MiCommand.SourceFilesResult |
| src/gdbwire_mi_command.c:36 | `strcmp(mi_result->variable, "line")` is called on a result whose variable may be NULL; the same holds at lines 43, 50, 60, 111, 124 and 132 | `^done,"12"`: a key-less string (the grammar's relaxed tuples allow key-less results) | a GDBWIRE_ASSERT: a key-less field is not the field expected | not executed | MiCommand.ParseExecSourceFileAsWritten, MiCommand.ExecSourceFileKeylessCrashes | MiCommand.ParseExecSourceFile |

=== FILE: amalgamation.dfy ===
/**
 * The amalgamation engine of mkgdbwire.py: it merges the library's headers
 * into gdbwire.h and its sources into gdbwire.c, inlining a header the
 * first time a quoted `#include` names it, commenting out every later
 * include of it, dropping `#line` directives and bracketing every copied
 * file with boundary comments.
 *
 * The staging directory `tsrc/` is a map from a file's bare name to the
 * lines Python's text-mode iteration yields for it (each line keeps its
 * newline); the output file is the sequence of strings written to it, one
 * `write` call each. The registry `available_hdr` is the set of headers
 * whose flag is still True.
 */
module Amalgamation {
  import opened CStr

  /** The headers, in the order they are merged into gdbwire.h. */
  const HEADER_FILES: seq<string> := [
    "gdbwire_sys.h",
    "gdbwire_string.h",
    "gdbwire_assert.h",
    "gdbwire_result.h",
    "gdbwire_logger.h",
    "gdbwire_mi_pt.h",
    "gdbwire_mi_pt_alloc.h",
    "gdbwire_mi_parser.h",
    "gdbwire_mi_command.h",
    "gdbwire_mi_grammar.h",
    "gdbwire.h"]

  /** The sources, in the order they are merged into gdbwire.c. */
  const SOURCE_FILES: seq<string> := [
    "gdbwire_sys.c",
    "gdbwire_string.c",
    "gdbwire_logger.c",
    "gdbwire_mi_parser.c",
    "gdbwire_mi_pt_alloc.c",
    "gdbwire_mi_pt.c",
    "gdbwire_mi_command.c",
    "gdbwire_mi_lexer.c",
    "gdbwire_mi_grammar.c",
    "gdbwire.c"]

  /** A fresh registry: every header still available. */
  const ALL_HEADERS: set<string> := set h | h in HEADER_FILES

  // ---------------------------------------------------------------------
  // Text helpers

  /** A run of `n` stars; Python's `'*' * n` is empty for n <= 0. */
  function Stars(n: int): (r: string)
    ensures |r| == (if n <= 0 then 0 else n)
    ensures forall i :: 0 <= i < |r| ==> r[i] == '*'
    decreases n
  {
    if n <= 0 then [] else Stars(n - 1) + "*"
  }

  /** comment(out, text): a boundary comment padded with stars to 80 columns. */
  function Comment(text: string): (c: string)
    ensures |c| == (if |text| <= 70 then 80 else |text| + 10)
  {
    "/***** " + text + " " + Stars(70 - |text|) + "/\n"
  }

  /** Python's str.isspace, which is what `\s` and rstrip() match in a str. */
  predicate IsPySpace(c: char) {
    var n := c as int;
    (9 <= n <= 13) || (28 <= n <= 32) || n == 0x85 || n == 0xA0 || n == 0x1680
    || (0x2000 <= n <= 0x200A) || n == 0x2028 || n == 0x2029 || n == 0x202F
    || n == 0x205F || n == 0x3000
  }

  /** The end of the run of white space that starts at `i`. */
  function SkipBlanks(s: string, i: nat): (n: nat)
    requires i <= |s|
    ensures i <= n <= |s| && (forall j :: i <= j < n ==> IsPySpace(s[j]))
    ensures n < |s| ==> !IsPySpace(s[n])
    decreases |s| - i
  {
    if i == |s| || !IsPySpace(s[i]) then i else SkipBlanks(s, i + 1)
  }

  /** str.rstrip(): drop the trailing white space. */
  function RStrip(s: string): (r: string)
    ensures |r| <= |s| && r == s[..|r|]
    ensures r == [] || !IsPySpace(r[|r| - 1])
    ensures forall i :: |r| <= i < |s| ==> IsPySpace(s[i])
  {
    if s == [] || !IsPySpace(s[|s| - 1]) then s else RStrip(s[..|s| - 1])
  }

  /** The index of the first `"` at or after `i`, or |s|. */
  function NextQuote(s: string, i: nat): (n: nat)
    requires i <= |s|
    ensures i <= n <= |s| && (forall j :: i <= j < n ==> s[j] != '"')
    ensures n < |s| ==> s[n] == '"'
    decreases |s| - i
  {
    if i == |s| || s[i] == '"' then i else NextQuote(s, i + 1)
  }

  /**
   * include_regex.match(line).group(1) for `\s*#\s*include\s+"([^"]+)"`:
   * the name between the quotes of a quoted include at the start of the
   * line, or None when the line does not start with one. Every part of the
   * pattern is followed by a character it cannot match, so the leftmost
   * greedy match never backtracks and is read off stage by stage.
   */
  function IncludeTarget(line: string): (r: Option<string>)
    ensures r.Some? ==> r.value != [] && '"' !in r.value
  {
    var a := SkipBlanks(line, 0);
    if a < |line| && line[a] == '#' then AfterHash(line, a + 1) else None
  }

  /** The pattern from just after the `#`, at `i`: white space, then `include`. */
  function AfterHash(line: string, i: nat): (r: Option<string>)
    requires i <= |line|
    ensures r.Some? ==> r.value != [] && '"' !in r.value
  {
    var b := SkipBlanks(line, i);
    if KeywordAt(line, b) then AfterKeyword(line, b + 7) else None
  }

  /** `s` holds the word `include` at `b`. */
  predicate KeywordAt(s: string, b: int)
    requires 0 <= b
  {
    b + 7 <= |s| && s[b] == 'i' && s[b + 1] == 'n' && s[b + 2] == 'c' && s[b + 3] == 'l'
    && s[b + 4] == 'u' && s[b + 5] == 'd' && s[b + 6] == 'e'
  }

  /** The pattern from just after `include`, at `i`: at least one white space character, then a quote. */
  function AfterKeyword(line: string, i: nat): (r: Option<string>)
    requires i <= |line|
    ensures r.Some? ==> r.value != [] && '"' !in r.value
  {
    var c := SkipBlanks(line, i);
    if i < c < |line| && line[c] == '"' then QuotedName(line, c + 1) else None
  }

  /** The pattern from just after the opening quote, at `i`: one or more non-quotes, then a quote. */
  function QuotedName(line: string, i: nat): (r: Option<string>)
    requires i <= |line|
    ensures r.Some? ==> r.value != [] && '"' !in r.value
  {
    var e := NextQuote(line, i);
    if i < e < |line| then Some(line[i..e]) else None
  }

  /** line_regex.match(line) for `#line`: the line starts with `#line`. */
  predicate IsLineDirective(line: string): (b: bool)
    ensures b ==> |line| >= 5 && line[0] == '#' && line[1] == 'l'
    ensures line != [] && (line[0] == ' ' || line[0] == '\t') ==> !b
  {
    |line| >= 5 && line[..5] == "#line"
  }

  // ---------------------------------------------------------------------
  // What copy_file writes

  /** One write of copy_file, before it is rendered as text. */
  datatype Piece =
    | BeginFile(name: string)                // "Begin file <name>"
    | IncludeHere(hdr: string, into: string) // "Include <hdr> in the middle of <into>"
    | ContinueIn(name: string)               // "Continuing where we left off in <name>"
    | EndFile(name: string)                  // "End of <name>"
    | Disabled(line: string)                 // an include not expanded, as a comment
    | Kept(line: string)                     // any other line, as it is

  // `out.write("/* %s */\n" % line.rstrip())` as the script writes it: a
  // comment marker inside the line is copied along, so a `*/` in it ends
  // the comment before the line does.
  function CommentedOutAsWritten(line: string): (r: string)
    ensures |r| == |RStrip(line)| + 7
    ensures r[3..|r| - 4] == RStrip(line)
  {
    "/* " + RStrip(line) + " */\n"
  }

  /** `s` holds neither a comment opener `/*` nor a comment closer `*/`. */
  predicate NoMarker(s: string) {
    forall k :: 0 <= k < |s| - 1 ==> !(s[k] == '/' && s[k + 1] == '*') && !(s[k] == '*' && s[k + 1] == '/')
  }

  // The first half of defusing, from the right: a `/` written just before a
  // `*` becomes `*`, so no `/*` is left.
  function DefuseOpeners(s: string): (r: string)
    ensures |r| == |s|
    ensures forall k :: 0 <= k < |s| ==> r[k] == s[k] || (s[k] == '/' && r[k] == '*')
    ensures forall k :: 0 <= k < |r| - 1 ==> !(r[k] == '/' && r[k + 1] == '*')
    ensures NoMarker(s) ==> r == s
    decreases |s|
  {
    if s == [] then []
    else
      var rest := DefuseOpeners(s[1..]);
      assert NoMarker(s) ==> NoMarker(s[1..]) by {
        if NoMarker(s) {
          forall k | 0 <= k < |s[1..]| - 1
            ensures !(s[1..][k] == '/' && s[1..][k + 1] == '*') && !(s[1..][k] == '*' && s[1..][k + 1] == '/')
          {
            assert s[1..][k] == s[k + 1] && s[1..][k + 1] == s[k + 2];
          }
        }
      }
      var c := if s[0] == '/' && rest != [] && rest[0] == '*' then '*' else s[0];
      [c] + rest
  }

  // The second half, from the left: a `/` written just after a `*` becomes
  // `*`, so no `*/` is left. `prev` is the character written just before `s`.
  function DefuseClosers(s: string, prev: char): (r: string)
    ensures |r| == |s|
    ensures forall k :: 0 <= k < |s| ==> r[k] == s[k] || (s[k] == '/' && r[k] == '*')
    ensures forall k :: 0 < k < |s| && r[k] != s[k] ==> r[k - 1] == '*'
    ensures prev == '*' && r != [] ==> r[0] != '/'
    ensures forall k :: 0 <= k < |r| - 1 ==> !(r[k] == '*' && r[k + 1] == '/')
    ensures NoMarker(s) && (s == [] || !(prev == '*' && s[0] == '/')) ==> r == s
    decreases |s|
  {
    if s == [] then []
    else
      var c := if s[0] == '/' && prev == '*' then '*' else s[0];
      assert NoMarker(s) ==> NoMarker(s[1..]) by {
        if NoMarker(s) {
          forall k | 0 <= k < |s[1..]| - 1
            ensures !(s[1..][k] == '/' && s[1..][k + 1] == '*') && !(s[1..][k] == '*' && s[1..][k + 1] == '/')
          {
            assert s[1..][k] == s[k + 1] && s[1..][k + 1] == s[k + 2];
          }
        }
      }
      [c] + DefuseClosers(s[1..], c)
  }

  // A line with its nested comment markers defused, as the comment above the
  // write intends: every `/` next to a `*` becomes `*`, so neither `/*` nor
  // `*/` is left, and a line without markers is left as it is.
  function Defuse(s: string): (r: string)
    ensures |r| == |s|
    ensures forall k :: 0 <= k < |s| ==> r[k] == s[k] || (s[k] == '/' && r[k] == '*')
    ensures NoMarker(r)
    ensures NoMarker(s) ==> r == s
  {
    var o := DefuseOpeners(s);
    var r := DefuseClosers(o, ' ');
    assert forall k :: 0 <= k < |r| - 1 ==> !(r[k] == '/' && r[k + 1] == '*') by {
      forall k | 0 <= k < |r| - 1
        ensures !(r[k] == '/' && r[k + 1] == '*')
      {
        if r[k] == '/' {
          assert o[k] == '/';
        }
      }
    }
    r
  }

  // An include that is not expanded, commented out with its nested comment
  // markers defused: the only `/*` in the written line is its opening one and
  // the only `*/` its closing one.
  function CommentedOut(line: string): (r: string)
    ensures |r| == |RStrip(line)| + 7
    ensures r[..3] == "/* " && r[|r| - 4..] == " */\n"
    ensures forall k :: 0 <= k < |r| - 1 && r[k] == '*' && r[k + 1] == '/' ==> k == |r| - 3
    ensures forall k :: 0 <= k < |r| - 1 && r[k] == '/' && r[k + 1] == '*' ==> k == 0
  {
    var d := Defuse(RStrip(line));
    var r := "/* " + d + " */\n";
    CommentedOutMarkers(d, r);
    r
  }

  /** The markers of `/* d */` when `d` holds none: the opening and closing ones. */
  lemma CommentedOutMarkers(d: string, r: string)
    requires NoMarker(d) && r == "/* " + d + " */\n"
    ensures forall k :: 0 <= k < |r| - 1 && r[k] == '*' && r[k + 1] == '/' ==> k == |r| - 3
    ensures forall k :: 0 <= k < |r| - 1 && r[k] == '/' && r[k + 1] == '*' ==> k == 0
  {
    var n := |d|;
    assert |r| == n + 7;
    assert r[0] == '/' && r[1] == '*' && r[2] == ' ';
    assert r[n + 3] == ' ' && r[n + 4] == '*' && r[n + 5] == '/' && r[n + 6] == '\n';
    assert forall k :: 3 <= k < n + 3 ==> r[k] == d[k - 3];
    forall k | 0 <= k < |r| - 1
      ensures !(r[k] == '*' && r[k + 1] == '/') || k == |r| - 3
      ensures !(r[k] == '/' && r[k + 1] == '*') || k == 0
    {
      if 3 <= k < n + 2 {
        assert r[k] == d[k - 3] && r[k + 1] == d[k - 2];
      }
    }
  }

  /** The text of one write: every write but a kept line starts a C comment and ends the line. */
  function Render(p: Piece): (r: string)
    ensures !p.Kept? ==> |r| >= 2 && r[..2] == "/*" && r[|r| - 1] == '\n'
  {
    match p
    case BeginFile(name) => Comment("Begin file " + name)
    case IncludeHere(hdr, into) => Comment("Include " + hdr + " in the middle of " + into)
    case ContinueIn(name) => Comment("Continuing where we left off in " + name)
    case EndFile(name) => Comment("End of " + name)
    case Disabled(line) => CommentedOutAsWritten(line)
    case Kept(line) => line
  }

  function RenderAll(ps: seq<Piece>): (r: seq<string>)
    ensures |r| == |ps| && forall i :: 0 <= i < |ps| ==> r[i] == Render(ps[i])
  {
    if ps == [] then [] else [Render(ps[0])] + RenderAll(ps[1..])
  }

  /**
   * The outcome of copying: what was written, the registry afterwards and,
   * when a file could not be opened, its name (Python raises and the run
   * stops with what was written so far).
   */
  datatype Copy = Copy(pieces: seq<Piece>, available: set<string>, missing: Option<string>)

  /** Pieces written before the outcome `c`. */
  function Prepend(ps: seq<Piece>, c: Copy): Copy {
    Copy(ps + c.pieces, c.available, c.missing)
  }

  /** The end of copy_file: the closing comment, unless a file could not be opened. */
  function CloseFile(name: string, c: Copy): (r: Copy)
    ensures r.available == c.available && r.missing == c.missing
    ensures c.missing.None? ==> r.pieces == c.pieces + [EndFile(name)]
    ensures c.missing.Some? ==> r.pieces == c.pieces
  {
    if c.missing.Some? then c else Copy(c.pieces + [EndFile(name)], c.available, None)
  }

  /** copy_file(out, available_hdr, name) on the staged `files`. */
  function FileCopy(files: map<string, seq<string>>, avail: set<string>, name: string): (r: Copy)
    ensures r.available <= avail
    decreases |avail|, 2, 0
  {
    if name !in files then Copy([BeginFile(name)], avail, Some(name))
    else CloseFile(name, Prepend([BeginFile(name)], LinesCopy(files, avail, name, files[name])))
  }

  /** The `for line in fd` loop of copy_file, from `lines` on. */
  function LinesCopy(files: map<string, seq<string>>, avail: set<string>, name: string, lines: seq<string>): (r: Copy)
    ensures r.available <= avail
    decreases |avail|, 1, |lines|
  {
    if lines == [] then Copy([], avail, None)
    else
      var first := LineCopy(files, avail, name, lines[0]);
      if first.missing.Some? then first
      else
        CardinalityMono(first.available, avail);
        Prepend(first.pieces, LinesCopy(files, first.available, name, lines[1..]))
  }

  /** One turn of that loop, on the line `line` of the file `name`. */
  function LineCopy(files: map<string, seq<string>>, avail: set<string>, name: string, line: string): (r: Copy)
    ensures r.available <= avail
    decreases |avail|, 0, 1
  {
    var target := IncludeTarget(line);
    if target.Some? && target.value in HEADER_FILES && target.value in avail then Expand(files, avail, name, target.value)
    else if target.Some? then Copy([Disabled(line)], avail, None)
    else if IsLineDirective(line) then Copy([], avail, None)
    else Copy([Kept(line)], avail, None)
  }

  /** The expansion of the available header `hdr` in the middle of the file `name`. */
  function Expand(files: map<string, seq<string>>, avail: set<string>, name: string, hdr: string): (r: Copy)
    requires hdr in avail
    ensures r.available <= avail - {hdr}
    decreases |avail|, 0, 0
  {
    var inner := FileCopy(files, avail - {hdr}, hdr);
    if inner.missing.Some? then Prepend([IncludeHere(hdr, name)], inner)
    else Copy([IncludeHere(hdr, name)] + inner.pieces + [ContinueIn(name)], inner.available, None)
  }

  /** The writer's loop: copy each manifest entry in turn with one shared registry. */
  function ManifestCopy(files: map<string, seq<string>>, avail: set<string>, names: seq<string>): (r: Copy)
    ensures r.available <= avail
    decreases |names|
  {
    if names == [] then Copy([], avail, None)
    else
      var first := FileCopy(files, avail, names[0]);
      if first.missing.Some? then first
      else Prepend(first.pieces, ManifestCopy(files, first.available, names[1..]))
  }

  lemma CardinalityMono<T>(a: set<T>, b: set<T>)
    requires a <= b
    ensures |a| <= |b|
  {
    if a != {} {
      var x :| x in a;
      CardinalityMono(a - {x}, b - {x});
    }
  }

  lemma CardinalityRemove<T>(s: set<T>, x: T)
    requires x in s
    ensures |s - {x}| == |s| - 1
  {
    assert s == (s - {x}) + {x};
  }

  lemma Join(a: seq<string>, b: seq<string>, c: seq<string>)
    ensures a + (b + c) == (a + b) + c
  {
  }

  lemma RenderAllConcat(a: seq<Piece>, b: seq<Piece>)
    ensures RenderAll(a + b) == RenderAll(a) + RenderAll(b)
  {
  }

  lemma PrependPrepend(a: seq<Piece>, b: seq<Piece>, c: Copy)
    ensures Prepend(a, Prepend(b, c)) == Prepend(a + b, c)
  {
    assert a + (b + c.pieces) == (a + b) + c.pieces;
  }

  // ---------------------------------------------------------------------
  // The script's state and procedures

  class Amalgamator {
    /** The staging directory tsrc/. */
    const files: map<string, seq<string>>
    /** The output file being written. */
    var out: seq<string>
    /** available_hdr: the headers whose flag is still True. */
    var available: set<string>

    constructor Init(staged: map<string, seq<string>>)
      ensures files == staged && out == [] && available == ALL_HEADERS
    {
      files := staged;
      out := [];
      available := ALL_HEADERS;
    }

    /** Write the text of `p`: comment() for the markers, out.write() for lines. */
    method Emit(p: Piece)
      modifies this
      ensures out == old(out) + [Render(p)] && available == old(available)
    {
      match p {
        case BeginFile(name) => out := out + [Comment("Begin file " + name)];
        case IncludeHere(hdr, into) => out := out + [Comment("Include " + hdr + " in the middle of " + into)];
        case ContinueIn(name) => out := out + [Comment("Continuing where we left off in " + name)];
        case EndFile(name) => out := out + [Comment("End of " + name)];
        case Disabled(line) => out := out + [CommentedOutAsWritten(line)];
        case Kept(line) => out := out + [line];
      }
    }

    /**
     * copy_file: write the file `name` from the staging directory between
     * boundary comments, expanding in place the first include of each
     * header still available.
     */
    method CopyFile(name: string) returns (missing: Option<string>)
      modifies this
      ensures var r := FileCopy(files, old(available), name);
        out == old(out) + RenderAll(r.pieces) && available == r.available && missing == r.missing
      decreases |available|, 2
    {
      Emit(BeginFile(name));
      if name !in files {
        return Some(name);
      }
      var lines := files[name];
      ghost var avail0 := available;
      ghost var done: seq<Piece> := [BeginFile(name)];
      var i := 0;
      while i < |lines|
        invariant 0 <= i <= |lines|
        invariant available <= avail0 && avail0 == old(available)
        invariant out == old(out) + RenderAll(done)
        invariant FileCopy(files, avail0, name) == CloseFile(name, Prepend(done, LinesCopy(files, available, name, lines[i..])))
        decreases |lines| - i
      {
        assert lines[i..][0] == lines[i] && lines[i..][1..] == lines[i + 1..];
        ghost var first := LineCopy(files, available, name, lines[i]);
        ghost var out1 := out;
        CardinalityMono(available, avail0);
        missing := CopyLine(name, lines[i]);
        assert out == out1 + RenderAll(first.pieces);
        RenderAllConcat(done, first.pieces);
        Join(old(out), RenderAll(done), RenderAll(first.pieces));
        if missing.Some? {
          assert FileCopy(files, avail0, name) == Copy(done + first.pieces, first.available, first.missing);
          return;
        }
        PrependPrepend(done, first.pieces, LinesCopy(files, available, name, lines[i + 1..]));
        done := done + first.pieces;
        i := i + 1;
      }
      assert Prepend(done, LinesCopy(files, available, name, [])) == Copy(done, available, None);
      Emit(EndFile(name));
      RenderAllConcat(done, [EndFile(name)]);
      Join(old(out), RenderAll(done), [Render(EndFile(name))]);
      missing := None;
    }

    /** The body of copy_file's loop for the line `line` of the file `name`. */
    method CopyLine(name: string, line: string) returns (missing: Option<string>)
      modifies this
      ensures var r := LineCopy(files, old(available), name, line);
        out == old(out) + RenderAll(r.pieces) && available == r.available && missing == r.missing
      decreases |available|, 1
    {
      var target := IncludeTarget(line);
      missing := None;
      if target.Some? && target.value in HEADER_FILES && target.value in available {
        missing := Expansion(name, target.value);
      } else if target.Some? {
        // Comment out the whole line.
        Emit(Disabled(line));
        assert RenderAll([Disabled(line)]) == [Render(Disabled(line))];
      } else if !IsLineDirective(line) {
        Emit(Kept(line));
        assert RenderAll([Kept(line)]) == [Render(Kept(line))];
      } else {
        // Skip #line directives.
        assert old(out) + RenderAll([]) == old(out);
      }
    }

    /** Clear the flag of `hdr` and copy it in place, in the middle of the file `name`. */
    method Expansion(name: string, hdr: string) returns (missing: Option<string>)
      requires hdr in available
      modifies this
      ensures var r := Expand(files, old(available), name, hdr);
        out == old(out) + RenderAll(r.pieces) && available == r.available && missing == r.missing
      decreases |available|, 0
    {
      ghost var out0 := out;
      ghost var inner := FileCopy(files, available - {hdr}, hdr);
      CardinalityRemove(available, hdr);
      available := available - {hdr};
      Emit(IncludeHere(hdr, name));
      ghost var out1 := out;
      missing := CopyFile(hdr);
      assert out == out1 + RenderAll(inner.pieces);
      ghost var head := [IncludeHere(hdr, name)] + inner.pieces;
      RenderAllConcat([IncludeHere(hdr, name)], inner.pieces);
      Join(out0, [Render(IncludeHere(hdr, name))], RenderAll(inner.pieces));
      if missing.None? {
        Emit(ContinueIn(name));
        RenderAllConcat(head, [ContinueIn(name)]);
        Join(out0, RenderAll(head), [Render(ContinueIn(name))]);
      }
    }

    /**
     * The body shared by write_gdbwire_header and write_gdbwire_source
     * after the banner: a fresh registry with every header available, then
     * copy_file for each file of the manifest in order.
     */
    method WriteArtifact(manifest: seq<string>) returns (missing: Option<string>)
      modifies this
      ensures var r := ManifestCopy(files, ALL_HEADERS, manifest);
        out == RenderAll(r.pieces) && available == r.available && missing == r.missing
    {
      available := ALL_HEADERS;
      out := [];
      ghost var done: seq<Piece> := [];
      var i := 0;
      while i < |manifest|
        invariant 0 <= i <= |manifest|
        invariant out == RenderAll(done)
        invariant ManifestCopy(files, ALL_HEADERS, manifest) == Prepend(done, ManifestCopy(files, available, manifest[i..]))
        decreases |manifest| - i
      {
        assert manifest[i..][0] == manifest[i] && manifest[i..][1..] == manifest[i + 1..];
        ghost var first := FileCopy(files, available, manifest[i]);
        missing := CopyFile(manifest[i]);
        RenderAllConcat(done, first.pieces);
        if missing.Some? {
          return;
        }
        PrependPrepend(done, first.pieces, ManifestCopy(files, available, manifest[i + 1..]));
        done := done + first.pieces;
        i := i + 1;
      }
      missing := None;
    }

    /** write_gdbwire_header after the banner: the headers, each header inlined at most once. */
    method WriteGdbwireHeader() returns (missing: Option<string>)
      modifies this
      ensures var r := ManifestCopy(files, ALL_HEADERS, HEADER_FILES);
        out == RenderAll(r.pieces) && available == r.available && missing == r.missing
    {
      missing := WriteArtifact(HEADER_FILES);
    }

    /** write_gdbwire_source after the banner: the sources, with their own fresh registry. */
    method WriteGdbwireSource() returns (missing: Option<string>)
      modifies this
      ensures var r := ManifestCopy(files, ALL_HEADERS, SOURCE_FILES);
        out == RenderAll(r.pieces) && available == r.available && missing == r.missing
    {
      missing := WriteArtifact(SOURCE_FILES);
    }
  }

  // ---------------------------------------------------------------------
  // Staging

  /** The position of the first name found under neither root, or |names| when there is none. */
  function FirstMissing(sourceRoot: map<string, seq<string>>, buildRoot: map<string, seq<string>>,
                        names: seq<string>): (k: nat)
    ensures k <= |names|
    ensures forall j :: 0 <= j < k ==> names[j] in sourceRoot || names[j] in buildRoot
    ensures k < |names| ==> names[k] !in sourceRoot && names[k] !in buildRoot
  {
    if names == [] || (names[0] !in sourceRoot && names[0] !in buildRoot) then 0
    else 1 + FirstMissing(sourceRoot, buildRoot, names[1..])
  }

  /** The copy create_tsrc stages for `f`: the one under the source root, else the one under the build root. */
  function Resolve(sourceRoot: map<string, seq<string>>, buildRoot: map<string, seq<string>>, f: string): seq<string>
    requires f in sourceRoot || f in buildRoot
  {
    if f in sourceRoot then sourceRoot[f] else buildRoot[f]
  }

  /**
   * What create_tsrc does to the staging directory `tsrc`, file by file:
   * the copy under the source root if there is one, else the copy under the
   * build root, else the exception's message and nothing more is staged.
   */
  function Stage(tsrc: map<string, seq<string>>, sourceRoot: map<string, seq<string>>,
                 buildRoot: map<string, seq<string>>, names: seq<string>): (r: (map<string, seq<string>>, Option<string>))
    ensures r.1.None? ==> forall f :: f in names ==> f in r.0
    ensures forall f :: f in tsrc && f !in names ==> f in r.0 && r.0[f] == tsrc[f]
    ensures var k := FirstMissing(sourceRoot, buildRoot, names);
      (r.1.None? <==> k == |names|)
      && (r.1.Some? ==> r.1.value == "Path " + names[k] + " could not be found.")
      && (forall f :: f in names[..k] ==> f in r.0 && r.0[f] == Resolve(sourceRoot, buildRoot, f))
      && (forall f :: f in tsrc && f !in names[..k] ==> f in r.0 && r.0[f] == tsrc[f])
    decreases |names|
  {
    if names == [] then (tsrc, None)
    else
      var f := names[0];
      if f in sourceRoot then Stage(tsrc[f := sourceRoot[f]], sourceRoot, buildRoot, names[1..])
      else if f in buildRoot then Stage(tsrc[f := buildRoot[f]], sourceRoot, buildRoot, names[1..])
      else (tsrc, Some("Path " + f + " could not be found."))
  }

  /**
   * create_tsrc: copy every manifest file into the staging directory, which
   * may already hold files from an earlier run.
   */
  method CreateTsrc(existing: map<string, seq<string>>, sourceRoot: map<string, seq<string>>,
                    buildRoot: map<string, seq<string>>) returns (tsrc: map<string, seq<string>>, error: Option<string>)
    ensures (tsrc, error) == Stage(existing, sourceRoot, buildRoot, HEADER_FILES + SOURCE_FILES)
  {
    var names := HEADER_FILES + SOURCE_FILES;
    tsrc := existing;
    var i := 0;
    while i < |names|
      invariant 0 <= i <= |names|
      invariant Stage(existing, sourceRoot, buildRoot, names) == Stage(tsrc, sourceRoot, buildRoot, names[i..])
      decreases |names| - i
    {
      var f := names[i];
      assert names[i..][0] == f && names[i..][1..] == names[i + 1..];
      if f in sourceRoot {
        tsrc := tsrc[f := sourceRoot[f]];
      } else if f in buildRoot {
        tsrc := tsrc[f := buildRoot[f]];
      } else {
        return tsrc, Some("Path " + f + " could not be found.");
      }
      i := i + 1;
    }
    error := None;
  }
}

=== FILE: amalgamation_properties.dfy ===
/**
 * What the amalgamation guarantees about each artifact it writes: a header
 * is expanded through an include at most once and its registry flag never
 * comes back, `#line` directives never reach the output, the boundary
 * comments nest like parentheses with the top-level files in manifest
 * order, and a file with nothing to expand or drop is copied as it is.
 */
module AmalgamationProperties {
  import opened CStr
  import opened Amalgamation

  // ---------------------------------------------------------------------
  // The registry: each header expanded at most once

  /** The headers expanded in `ps`. */
  function Inlined(ps: seq<Piece>): set<string> {
    set i | 0 <= i < |ps| && ps[i].IncludeHere? :: ps[i].hdr
  }

  /** No header is expanded twice in `ps`. */
  predicate OnceEach(ps: seq<Piece>) {
    forall i, j :: 0 <= i < j < |ps| && ps[i].IncludeHere? && ps[j].IncludeHere? ==> ps[i].hdr != ps[j].hdr
  }

  /**
   * Every line written as it is was neither an include nor a `#line`
   * directive, and every line commented out was an include.
   */
  predicate Filtered(ps: seq<Piece>) {
    forall i :: 0 <= i < |ps| ==>
      (ps[i].Kept? ==> IncludeTarget(ps[i].line).None? && !IsLineDirective(ps[i].line))
      && (ps[i].Disabled? ==> IncludeTarget(ps[i].line).Some?)
  }

  /**
   * Starting from the registry `avail`, the copy `r` expanded only available
   * headers, each once, and cleared exactly their flags.
   */
  predicate Registry(avail: set<string>, r: Copy) {
    Inlined(r.pieces) <= avail
    && r.available == avail - Inlined(r.pieces)
    && OnceEach(r.pieces)
    && Filtered(r.pieces)
  }

  lemma InlinedConcat(a: seq<Piece>, b: seq<Piece>)
    ensures Inlined(a + b) == Inlined(a) + Inlined(b)
  {
    var ab := a + b;
    forall h | h in Inlined(ab)
      ensures h in Inlined(a) + Inlined(b)
    {
      var i :| 0 <= i < |ab| && ab[i].IncludeHere? && ab[i].hdr == h;
      if i < |a| {
        assert a[i] == ab[i];
      } else {
        assert b[i - |a|] == ab[i];
      }
    }
    forall h | h in Inlined(a) + Inlined(b)
      ensures h in Inlined(ab)
    {
      if h in Inlined(a) {
        var i :| 0 <= i < |a| && a[i].IncludeHere? && a[i].hdr == h;
        assert ab[i] == a[i];
      } else {
        var i :| 0 <= i < |b| && b[i].IncludeHere? && b[i].hdr == h;
        assert ab[|a| + i] == b[i];
      }
    }
  }

  /** Pieces that expand nothing, written before a copy, keep its registry facts. */
  lemma RegistryPrepend(avail: set<string>, ps: seq<Piece>, c: Copy)
    requires Inlined(ps) <= avail && OnceEach(ps) && Filtered(ps)
    requires Registry(avail - Inlined(ps), c)
    ensures Registry(avail, Prepend(ps, c))
  {
    var all := ps + c.pieces;
    InlinedConcat(ps, c.pieces);
    forall i, j | 0 <= i < j < |all| && all[i].IncludeHere? && all[j].IncludeHere?
      ensures all[i].hdr != all[j].hdr
    {
      if j < |ps| {
        assert all[i] == ps[i] && all[j] == ps[j];
      } else if i >= |ps| {
        assert all[i] == c.pieces[i - |ps|] && all[j] == c.pieces[j - |ps|];
      } else {
        assert all[i] == ps[i] && all[j] == c.pieces[j - |ps|];
        assert all[i].hdr in Inlined(ps) && all[j].hdr in Inlined(c.pieces);
      }
    }
    forall i | 0 <= i < |all|
      ensures (all[i].Kept? ==> IncludeTarget(all[i].line).None? && !IsLineDirective(all[i].line))
              && (all[i].Disabled? ==> IncludeTarget(all[i].line).Some?)
    {
      if i < |ps| {
        assert all[i] == ps[i];
      } else {
        assert all[i] == c.pieces[i - |ps|];
      }
    }
  }

  /** A boundary comment written after a copy keeps its registry facts. */
  lemma RegistryAppend(avail: set<string>, c: Copy, p: Piece)
    requires Registry(avail, c)
    requires p.BeginFile? || p.EndFile? || p.ContinueIn?
    ensures Registry(avail, Copy(c.pieces + [p], c.available, c.missing))
  {
    InlinedConcat(c.pieces, [p]);
    assert Inlined([p]) == {};
  }

  /** The registry facts for one turn of copy_file's loop. */
  lemma {:induction false} LineRegistry(files: map<string, seq<string>>, avail: set<string>, name: string, line: string)
    ensures Registry(avail, LineCopy(files, avail, name, line))
    decreases |avail|, 0, 1
  {
    var target := IncludeTarget(line);
    if target.Some? && target.value in HEADER_FILES && target.value in avail {
      ExpandRegistry(files, avail, name, target.value);
    } else if target.Some? {
      assert Inlined([Disabled(line)]) == {};
    } else if !IsLineDirective(line) {
      assert Inlined([Kept(line)]) == {};
    } else {
      assert Inlined([]) == {};
    }
  }

  /** Expanding `hdr` clears its flag and those of the headers the expansion itself expands. */
  lemma {:induction false} ExpandRegistry(files: map<string, seq<string>>, avail: set<string>, name: string, hdr: string)
    requires hdr in avail
    ensures Registry(avail, Expand(files, avail, name, hdr))
    decreases |avail|, 0, 0
  {
    var inner := FileCopy(files, avail - {hdr}, hdr);
    var ih := [IncludeHere(hdr, name)];
    assert Registry(avail - {hdr}, inner) by {
      CardinalityRemove(avail, hdr);
      FileRegistry(files, avail - {hdr}, hdr);
    }
    assert Inlined(ih) == {hdr} && OnceEach(ih) && Filtered(ih) by {
      assert ih[0].IncludeHere? && ih[0].hdr == hdr;
    }
    if inner.missing.Some? {
      assert Expand(files, avail, name, hdr) == Prepend(ih, inner);
      RegistryPrepend(avail, ih, inner);
    } else {
      var tail := Copy(inner.pieces + [ContinueIn(name)], inner.available, None);
      assert Registry(avail - {hdr}, tail) by {
        RegistryAppend(avail - {hdr}, inner, ContinueIn(name));
      }
      assert Expand(files, avail, name, hdr) == Prepend(ih, tail) by {
        assert ih + (inner.pieces + [ContinueIn(name)]) == ih + inner.pieces + [ContinueIn(name)];
      }
      RegistryPrepend(avail, ih, tail);
    }
  }

  /** The registry facts for copy_file's loop. */
  lemma {:induction false} LinesRegistry(files: map<string, seq<string>>, avail: set<string>, name: string, lines: seq<string>)
    ensures Registry(avail, LinesCopy(files, avail, name, lines))
    decreases |avail|, 1, |lines|
  {
    if lines == [] {
      assert Inlined([]) == {};
    } else {
      var first := LineCopy(files, avail, name, lines[0]);
      LineRegistry(files, avail, name, lines[0]);
      if first.missing.None? {
        CardinalityMono(first.available, avail);
        LinesRegistry(files, first.available, name, lines[1..]);
        RegistryPrepend(avail, first.pieces, LinesCopy(files, first.available, name, lines[1..]));
      }
    }
  }

  /**
   * copy_file clears exactly the flags of the headers it expands, expands
   * only headers whose flag was set, and expands none of them twice.
   */
  lemma {:induction false} FileRegistry(files: map<string, seq<string>>, avail: set<string>, name: string)
    ensures Registry(avail, FileCopy(files, avail, name))
    decreases |avail|, 2, 0
  {
    if name !in files {
      assert Inlined([BeginFile(name)]) == {};
    } else {
      var body := LinesCopy(files, avail, name, files[name]);
      LinesRegistry(files, avail, name, files[name]);
      assert Inlined([BeginFile(name)]) == {};
      RegistryPrepend(avail, [BeginFile(name)], body);
      if body.missing.None? {
        RegistryAppend(avail, Prepend([BeginFile(name)], body), EndFile(name));
      }
    }
  }

  /**
   * Across a whole artifact, with one registry shared by every top-level
   * copy: each header is expanded through an include at most once, only
   * while its flag is set, and its flag is never set again.
   */
  lemma {:induction false} ManifestRegistry(files: map<string, seq<string>>, avail: set<string>, names: seq<string>)
    ensures Registry(avail, ManifestCopy(files, avail, names))
    decreases |names|
  {
    if names == [] {
      assert Inlined([]) == {};
    } else {
      var first := FileCopy(files, avail, names[0]);
      FileRegistry(files, avail, names[0]);
      if first.missing.None? {
        ManifestRegistry(files, first.available, names[1..]);
        RegistryPrepend(avail, first.pieces, ManifestCopy(files, first.available, names[1..]));
      }
    }
  }

  /** No string written to an artifact is a `#line` directive. */
  lemma NoLineDirectiveWritten(files: map<string, seq<string>>, names: seq<string>)
    ensures var out := RenderAll(ManifestCopy(files, ALL_HEADERS, names).pieces);
      forall k :: 0 <= k < |out| ==> !IsLineDirective(out[k])
  {
    var ps := ManifestCopy(files, ALL_HEADERS, names).pieces;
    ManifestRegistry(files, ALL_HEADERS, names);
    forall k | 0 <= k < |ps|
      ensures !IsLineDirective(Render(ps[k]))
    {
      RenderedNotDirective(ps[k]);
    }
  }

  /** Only a line written as it is can start with `#`: everything else starts a comment. */
  lemma RenderedNotDirective(p: Piece)
    requires p.Kept? ==> !IsLineDirective(p.line)
    ensures !IsLineDirective(Render(p))
  {
    var c := Render(p);
    match p
    case Kept(line) =>
    case Disabled(line) => assert c[0] == '/';
    case BeginFile(n) => CommentOpens("Begin file " + n);
    case EndFile(n) => CommentOpens("End of " + n);
    case IncludeHere(h, n) => CommentOpens("Include " + h + " in the middle of " + n);
    case ContinueIn(n) => CommentOpens("Continuing where we left off in " + n);
  }

  lemma CommentOpens(t: string)
    ensures Comment(t)[0] == '/' && !IsLineDirective(Comment(t))
  {
    assert Comment(t)[0] == '/';
  }

  // ---------------------------------------------------------------------
  // Nesting of the boundary comments

  /**
   * The stack of open files after the piece `p`, or None when `p` is out of
   * place: a file's end must close the innermost open file, the markers
   * around an expansion and every line must lie inside an open file.
   */
  function Step(p: Piece, stack: seq<string>): (r: Option<seq<string>>)
    ensures p.BeginFile? ==> r == Some(stack + [p.name])
    ensures r.Some? && !p.BeginFile? ==> stack != []
  {
    match p
    case BeginFile(n) => Some(stack + [n])
    case EndFile(n) => if stack != [] && stack[|stack| - 1] == n then Some(stack[..|stack| - 1]) else None
    case IncludeHere(_, into) => if stack != [] && stack[|stack| - 1] == into then Some(stack) else None
    case ContinueIn(n) => if stack != [] && stack[|stack| - 1] == n then Some(stack) else None
    case Disabled(_) => if stack != [] then Some(stack) else None
    case Kept(_) => if stack != [] then Some(stack) else None
  }

  /**
   * Reading `ps` from the open files `stack`: None when a piece is out of
   * place, otherwise the files still open at the end and the files begun
   * at the top level, in order.
   */
  function Outline(ps: seq<Piece>, stack: seq<string>): Option<(seq<string>, seq<string>)>
    decreases |ps|
  {
    if ps == [] then Some((stack, []))
    else
      match Step(ps[0], stack)
      case None => None
      case Some(next) =>
        var top := if ps[0].BeginFile? && stack == [] then [ps[0].name] else [];
        match Outline(ps[1..], next)
        case None => None
        case Some(r) => Some((r.0, top + r.1))
  }

  /** Outline of `b` continuing the outline `o` of what came before. */
  function Then(o: Option<(seq<string>, seq<string>)>, b: seq<Piece>): Option<(seq<string>, seq<string>)> {
    match o
    case None => None
    case Some(r1) =>
      match Outline(b, r1.0)
      case None => None
      case Some(r2) => Some((r2.0, r1.1 + r2.1))
  }

  lemma {:induction false} OutlineConcat(a: seq<Piece>, b: seq<Piece>, stack: seq<string>)
    ensures Outline(a + b, stack) == Then(Outline(a, stack), b)
    decreases |a|
  {
    if a == [] {
      assert a + b == b;
      match Outline(b, stack)
      case None =>
      case Some(r2) => assert [] + r2.1 == r2.1;
    } else {
      assert (a + b)[0] == a[0] && (a + b)[1..] == a[1..] + b;
      match Step(a[0], stack)
      case None =>
      case Some(next) =>
        OutlineConcat(a[1..], b, next);
        var top := if a[0].BeginFile? && stack == [] then [a[0].name] else [];
        match Outline(a[1..], next)
        case None =>
        case Some(r1) =>
          match Outline(b, r1.0)
          case None =>
          case Some(r2) => assert top + (r1.1 + r2.1) == (top + r1.1) + r2.1;
    }
  }

  /** Outline of a single piece. */
  lemma OutlineSingle(p: Piece, stack: seq<string>)
    ensures Outline([p], stack) == match Step(p, stack)
      case None => None
      case Some(next) => Some((next, if p.BeginFile? && stack == [] then [p.name] else []))
  {
    assert [p][1..] == [];
    var top := if p.BeginFile? && stack == [] then [p.name] else [];
    assert top + [] == top;
  }

  /** One turn of copy_file's loop, inside the file `name`, leaves the open files as they were. */
  lemma {:induction false} LineNests(files: map<string, seq<string>>, avail: set<string>, name: string, line: string, stack: seq<string>)
    requires stack != [] && stack[|stack| - 1] == name
    ensures LineCopy(files, avail, name, line).missing.None? ==>
      Outline(LineCopy(files, avail, name, line).pieces, stack) == Some((stack, []))
    decreases |avail|, 0, 1
  {
    var target := IncludeTarget(line);
    if target.Some? && target.value in HEADER_FILES && target.value in avail {
      ExpandNests(files, avail, name, target.value, stack);
    } else if target.Some? {
      OutlineSingle(Disabled(line), stack);
    } else if !IsLineDirective(line) {
      OutlineSingle(Kept(line), stack);
    }
  }

  /** A completed expansion inside the file `name` leaves the open files as they were. */
  lemma {:induction false} ExpandNests(files: map<string, seq<string>>, avail: set<string>, name: string, hdr: string, stack: seq<string>)
    requires hdr in avail
    requires stack != [] && stack[|stack| - 1] == name
    ensures Expand(files, avail, name, hdr).missing.None? ==>
      Outline(Expand(files, avail, name, hdr).pieces, stack) == Some((stack, []))
    decreases |avail|, 0, 0
  {
    var inner := FileCopy(files, avail - {hdr}, hdr);
    if inner.missing.None? {
      CardinalityRemove(avail, hdr);
      FileNests(files, avail - {hdr}, hdr, stack);
      OutlineSingle(IncludeHere(hdr, name), stack);
      OutlineSingle(ContinueIn(name), stack);
      OutlineConcat([IncludeHere(hdr, name)], inner.pieces, stack);
      OutlineConcat([IncludeHere(hdr, name)] + inner.pieces, [ContinueIn(name)], stack);
      var none: seq<string> := [];
      assert none + none + none == none;
    }
  }

  /** copy_file's loop, inside the file `name`, leaves the open files as they were. */
  lemma {:induction false} LinesNest(files: map<string, seq<string>>, avail: set<string>, name: string, lines: seq<string>, stack: seq<string>)
    requires stack != [] && stack[|stack| - 1] == name
    ensures LinesCopy(files, avail, name, lines).missing.None? ==>
      Outline(LinesCopy(files, avail, name, lines).pieces, stack) == Some((stack, []))
    decreases |avail|, 1, |lines|
  {
    if lines != [] {
      var first := LineCopy(files, avail, name, lines[0]);
      if first.missing.None? {
        LineNests(files, avail, name, lines[0], stack);
        CardinalityMono(first.available, avail);
        LinesNest(files, first.available, name, lines[1..], stack);
        OutlineConcat(first.pieces, LinesCopy(files, first.available, name, lines[1..]).pieces, stack);
      }
    }
  }

  /**
   * A completed copy_file opens the file, keeps everything it writes inside
   * it and closes it again; it counts as a top-level file only when no
   * file was open.
   */
  lemma {:induction false} FileNests(files: map<string, seq<string>>, avail: set<string>, name: string, stack: seq<string>)
    ensures FileCopy(files, avail, name).missing.None? ==>
      Outline(FileCopy(files, avail, name).pieces, stack) == Some((stack, if stack == [] then [name] else []))
    decreases |avail|, 2, 0
  {
    if name in files {
      var body := LinesCopy(files, avail, name, files[name]);
      if body.missing.None? {
        var inside := stack + [name];
        LinesNest(files, avail, name, files[name], inside);
        OutlineSingle(BeginFile(name), stack);
        OutlineSingle(EndFile(name), inside);
        assert inside[..|inside| - 1] == stack;
        OutlineConcat([BeginFile(name)], body.pieces, stack);
        OutlineConcat([BeginFile(name)] + body.pieces, [EndFile(name)], stack);
        var top := if stack == [] then [name] else [];
        assert top + [] + [] == top;
      }
    }
  }

  /**
   * A completed artifact is well bracketed -- every file's begin comment is
   * matched by its end comment, expansions nest inside the file that
   * includes them -- and its top-level files are the manifest, in order,
   * whatever the registry says: a header already expanded by an include is
   * copied again at its own turn.
   */
  lemma {:induction false} ManifestOutline(files: map<string, seq<string>>, avail: set<string>, names: seq<string>)
    ensures ManifestCopy(files, avail, names).missing.None? ==>
      Outline(ManifestCopy(files, avail, names).pieces, []) == Some(([], names))
    decreases |names|
  {
    if names != [] {
      var first := FileCopy(files, avail, names[0]);
      if first.missing.None? {
        FileNests(files, avail, names[0], []);
        ManifestOutline(files, first.available, names[1..]);
        OutlineConcat(first.pieces, ManifestCopy(files, first.available, names[1..]).pieces, []);
        assert [names[0]] + names[1..] == names;
      }
    }
  }

  // ---------------------------------------------------------------------
  // Plain files are copied verbatim

  /** A line copy_file writes as it is. */
  predicate PlainLine(line: string) {
    IncludeTarget(line).None? && !IsLineDirective(line)
  }

  function KeptAll(lines: seq<string>): (ps: seq<Piece>)
    ensures |ps| == |lines| && forall i :: 0 <= i < |lines| ==> ps[i] == Kept(lines[i])
  {
    if lines == [] then [] else [Kept(lines[0])] + KeptAll(lines[1..])
  }

  lemma {:induction false} PlainLinesKept(files: map<string, seq<string>>, avail: set<string>, name: string, lines: seq<string>)
    requires forall i :: 0 <= i < |lines| ==> PlainLine(lines[i])
    ensures LinesCopy(files, avail, name, lines) == Copy(KeptAll(lines), avail, None)
    decreases |lines|
  {
    if lines != [] {
      PlainLinesKept(files, avail, name, lines[1..]);
    }
  }

  /**
   * A staged file with no include and no `#line` directive is written
   * between its boundary comments exactly as it is, and the registry is
   * left alone.
   */
  lemma PlainFileVerbatim(files: map<string, seq<string>>, avail: set<string>, name: string)
    requires name in files && forall i :: 0 <= i < |files[name]| ==> PlainLine(files[name][i])
    ensures FileCopy(files, avail, name).available == avail && FileCopy(files, avail, name).missing.None?
    ensures RenderAll(FileCopy(files, avail, name).pieces)
      == [Comment("Begin file " + name)] + files[name] + [Comment("End of " + name)]
  {
    var lines := files[name];
    var ps := [BeginFile(name)] + KeptAll(lines) + [EndFile(name)];
    assert FileCopy(files, avail, name).pieces == ps
      && FileCopy(files, avail, name).available == avail && FileCopy(files, avail, name).missing.None? by {
      PlainLinesKept(files, avail, name, lines);
    }
    var out := [Comment("Begin file " + name)] + lines + [Comment("End of " + name)];
    assert |ps| == |out|;
    forall k | 0 <= k < |ps|
      ensures Render(ps[k]) == out[k]
    {
      if 0 < k < |ps| - 1 {
        assert ps[k] == KeptAll(lines)[k - 1] && out[k] == lines[k - 1];
      }
    }
    SameRendering(ps, out);
  }

  lemma SameRendering(ps: seq<Piece>, out: seq<string>)
    requires |ps| == |out| && forall k :: 0 <= k < |ps| ==> Render(ps[k]) == out[k]
    ensures RenderAll(ps) == out
  {
  }

  // ---------------------------------------------------------------------
  // What happens to each line, in a file of any kind

  /**
   * copy_file's rule for a line laid out as a quoted include of `h` (the
   * text between the quotes): a manifest header still available is expanded
   * in place, and it is the header inlined; any other header leaves the line
   * commented out and the registry as it was.
   */
  lemma IncludeLineRule(files: map<string, seq<string>>, avail: set<string>, name: string, line: string,
                        a: nat, b: nat, c: nat, e: nat)
    requires QuotedIncludeAt(line, a, b, c, e)
    ensures var h := line[c + 1..e];
      h in HEADER_FILES && h in avail ==>
        LineCopy(files, avail, name, line) == Expand(files, avail, name, h)
        && h in Inlined(LineCopy(files, avail, name, line).pieces)
    ensures var h := line[c + 1..e];
      !(h in HEADER_FILES && h in avail) ==>
        LineCopy(files, avail, name, line) == Copy([Disabled(line)], avail, None)
  {
    QuotedIncludeMatches(line, a, b, c, e);
    var h := line[c + 1..e];
    if h in HEADER_FILES && h in avail {
      var c := Expand(files, avail, name, h);
      var inner := FileCopy(files, avail - {h}, h);
      if inner.missing.Some? {
        assert c.pieces == [IncludeHere(h, name)] + inner.pieces;
      } else {
        assert c.pieces == [IncludeHere(h, name)] + inner.pieces + [ContinueIn(name)];
      }
      assert c.pieces[0] == IncludeHere(h, name);
    }
  }

  /**
   * copy_file's rule for a line with no quoted-include layout at all: a line
   * that starts with `#line` is dropped, and any other line is written as it
   * is; neither touches the registry.
   */
  lemma OtherLineRule(files: map<string, seq<string>>, avail: set<string>, name: string, line: string)
    ensures (forall a: nat, b: nat, c: nat, e: nat :: !QuotedIncludeAt(line, a, b, c, e)) ==>
      if |line| >= 5 && line[..5] == "#line" then LineCopy(files, avail, name, line) == Copy([], avail, None)
      else LineCopy(files, avail, name, line) == Copy([Kept(line)], avail, None)
  {
    if IncludeTarget(line).Some? {
      IncludeMatchIsQuoted(line);
    }
  }

  /** How a piece changes the number of open files: a begin comment opens one, an end comment closes one. */
  function Delta(p: Piece): int {
    match p
    case BeginFile(_) => 1
    case EndFile(_) => -1
    case _ => 0
  }

  /** The net change of the number of open files over `ps`. */
  function Net(ps: seq<Piece>): int {
    if ps == [] then 0 else Delta(ps[0]) + Net(ps[1..])
  }

  /**
   * The lines of `ps` written as they are while no file is open beyond the
   * one being copied, reading `ps` with `d` more files open than that.
   */
  function KeptAt(ps: seq<Piece>, d: int): seq<string> {
    if ps == [] then []
    else (if ps[0].Kept? && d == 0 then [ps[0].line] else []) + KeptAt(ps[1..], d + Delta(ps[0]))
  }

  /** The lines of a file that copy_file writes as they are: neither an include nor `#line`, in order. */
  function PlainLines(lines: seq<string>): seq<string> {
    if lines == [] then [] else (if PlainLine(lines[0]) then [lines[0]] else []) + PlainLines(lines[1..])
  }

  /** Reading two stretches of output one after the other: kept lines and open files add up. */
  lemma {:induction false} KeptAtConcat(a: seq<Piece>, b: seq<Piece>, d: int)
    ensures KeptAt(a + b, d) == KeptAt(a, d) + KeptAt(b, d + Net(a))
    ensures Net(a + b) == Net(a) + Net(b)
    decreases |a|
  {
    NetConcat(a, b);
    if a == [] {
      assert a + b == b;
    } else {
      var head := if a[0].Kept? && d == 0 then [a[0].line] else [];
      var d' := d + Delta(a[0]);
      assert KeptAt(a + b, d) == head + KeptAt(a[1..] + b, d') by {
        assert (a + b)[0] == a[0] && (a + b)[1..] == a[1..] + b;
      }
      KeptAtConcat(a[1..], b, d');
      var x, y := KeptAt(a[1..], d'), KeptAt(b, d' + Net(a[1..]));
      assert head + (x + y) == (head + x) + y;
    }
  }

  /** The net change of open files over two stretches of output is the sum of theirs. */
  lemma {:induction false} NetConcat(a: seq<Piece>, b: seq<Piece>)
    ensures Net(a + b) == Net(a) + Net(b)
    decreases |a|
  {
    if a == [] {
      assert a + b == b;
    } else {
      assert (a + b)[0] == a[0] && (a + b)[1..] == a[1..] + b;
      NetConcat(a[1..], b);
    }
  }

  /** One completed turn of the loop: the line itself if it is written as it is, nothing from an expansion. */
  lemma {:induction false} LineKept(files: map<string, seq<string>>, avail: set<string>, name: string, line: string, d: nat)
    ensures var c := LineCopy(files, avail, name, line);
      c.missing.None? ==> Net(c.pieces) == 0 && KeptAt(c.pieces, d) == (if d == 0 && PlainLine(line) then [line] else [])
    decreases |avail|, 0, 1
  {
    var target := IncludeTarget(line);
    if target.Some? && target.value in HEADER_FILES && target.value in avail {
      ExpandKept(files, avail, name, target.value, d);
    } else if target.Some? {
      assert KeptAt([Disabled(line)], d) == [] + KeptAt([], d);
    } else if !IsLineDirective(line) {
      assert KeptAt([Kept(line)], d) == (if d == 0 then [line] else []) + KeptAt([], d);
    }
  }

  /** The lines an expansion writes as they are all belong to the header it inlines. */
  lemma {:induction false} ExpandKept(files: map<string, seq<string>>, avail: set<string>, name: string, hdr: string, d: nat)
    requires hdr in avail
    ensures var c := Expand(files, avail, name, hdr);
      c.missing.None? ==> Net(c.pieces) == 0 && KeptAt(c.pieces, d) == []
    decreases |avail|, 0, 0
  {
    var inner := FileCopy(files, avail - {hdr}, hdr);
    if inner.missing.None? {
      CardinalityRemove(avail, hdr);
      FileKept(files, avail - {hdr}, hdr, d);
      var open := [IncludeHere(hdr, name)];
      assert KeptAt(open, d) == [] && Net(open) == 0;
      KeptAtConcat(open, inner.pieces, d);
      assert KeptAt([ContinueIn(name)], d) == [] && Net([ContinueIn(name)]) == 0;
      KeptAtConcat(open + inner.pieces, [ContinueIn(name)], d);
    }
  }

  /**
   * In a file of any kind -- includes and `#line` directives among its
   * lines -- copy_file's loop writes the other lines as they are and in
   * order, and the lines of the headers it inlines stay inside their own
   * boundary comments.
   */
  lemma {:induction false} LinesKept(files: map<string, seq<string>>, avail: set<string>, name: string, lines: seq<string>, d: nat)
    ensures var c := LinesCopy(files, avail, name, lines);
      c.missing.None? ==> Net(c.pieces) == 0 && KeptAt(c.pieces, d) == (if d == 0 then PlainLines(lines) else [])
    decreases |avail|, 1, |lines|
  {
    if lines != [] {
      var first := LineCopy(files, avail, name, lines[0]);
      if first.missing.None? {
        CardinalityMono(first.available, avail);
        var rest := LinesCopy(files, first.available, name, lines[1..]);
        assert LinesCopy(files, avail, name, lines) == Prepend(first.pieces, rest);
        if rest.missing.None? {
          LineKept(files, avail, name, lines[0], d);
          LinesKept(files, first.available, name, lines[1..], d);
          KeptJoin(first.pieces, rest.pieces, lines, d);
        }
      }
    }
  }

  /** One line's pieces followed by the rest of the loop's: the kept lines join up. */
  lemma KeptJoin(ps: seq<Piece>, qs: seq<Piece>, lines: seq<string>, d: nat)
    requires lines != []
    requires Net(ps) == 0 && KeptAt(ps, d) == (if d == 0 && PlainLine(lines[0]) then [lines[0]] else [])
    requires Net(qs) == 0 && KeptAt(qs, d) == (if d == 0 then PlainLines(lines[1..]) else [])
    ensures Net(ps + qs) == 0 && KeptAt(ps + qs, d) == (if d == 0 then PlainLines(lines) else [])
  {
    KeptAtConcat(ps, qs, d);
    assert PlainLines(lines) == (if PlainLine(lines[0]) then [lines[0]] else []) + PlainLines(lines[1..]);
  }

  /** A completed copy of a file writes, between its boundary comments, nothing as it is outside itself. */
  lemma {:induction false} FileKept(files: map<string, seq<string>>, avail: set<string>, name: string, d: nat)
    ensures var c := FileCopy(files, avail, name);
      c.missing.None? ==> Net(c.pieces) == 0 && KeptAt(c.pieces, d) == []
    decreases |avail|, 2, 0
  {
    if name in files {
      var body := LinesCopy(files, avail, name, files[name]);
      if body.missing.None? {
        LinesKept(files, avail, name, files[name], d + 1);
        var open := [BeginFile(name)];
        assert KeptAt(open, d) == [] + KeptAt([], d + 1) && Net(open) == 1;
        KeptAtConcat(open, body.pieces, d);
        assert KeptAt([EndFile(name)], d + 1) == [] + KeptAt([], d) && Net([EndFile(name)]) == -1;
        KeptAtConcat(open + body.pieces, [EndFile(name)], d);
      }
    }
  }

  /**
   * The lines a completed copy_file writes as they are at the file's own
   * level are exactly its lines that are neither an include nor `#line`,
   * in order.
   */
  lemma FileKeepsPlainLines(files: map<string, seq<string>>, avail: set<string>, name: string)
    requires name in files
    ensures FileCopy(files, avail, name).missing.None? ==>
      KeptAt(FileCopy(files, avail, name).pieces, -1) == PlainLines(files[name])
  {
    var body := LinesCopy(files, avail, name, files[name]);
    if body.missing.None? {
      LinesKept(files, avail, name, files[name], 0);
      var open := [BeginFile(name)];
      assert KeptAt(open, -1) == [] + KeptAt([], 0) && Net(open) == 1;
      KeptAtConcat(open, body.pieces, -1);
      assert KeptAt([EndFile(name)], 0) == [] + KeptAt([], -1);
      KeptAtConcat(open + body.pieces, [EndFile(name)], -1);
      assert PlainLines(files[name]) + [] == PlainLines(files[name]);
    }
  }

  // ---------------------------------------------------------------------
  // A comment marker in a commented-out include

  // The line `#include "x.h" /* why */` names no manifest header, so it is
  // commented out; written as the script writes it, its own `*/` at
  // position 25 closes the comment three characters before the line's end,
  // and the text after it is compiled.
  lemma NestedCommentClosesEarly(files: map<string, seq<string>>, avail: set<string>, name: string)
    ensures var line := "#include \"x.h\" /* why */\n";
      var w := CommentedOutAsWritten(line);
      LineCopy(files, avail, name, line) == Copy([Disabled(line)], avail, None)
      && |w| == 31 && w[25] == '*' && w[26] == '/' && 25 != |w| - 3
  {
    var line := "#include \"x.h\" /* why */\n";
    ExampleIncludeLayout(line);
    HeadersStartWithG();
    assert "x.h"[0] != 'g';
    IncludeLineRule(files, avail, name, line, 0, 1, 9, 13);
    ExampleCommentedOut(line);
  }

  /** The script's comment-out of that line, position by position. */
  lemma ExampleCommentedOut(line: string)
    requires line == "#include \"x.h\" /* why */\n"
    ensures var w := CommentedOutAsWritten(line);
      |w| == 31 && w[25] == '*' && w[26] == '/' && 25 != |w| - 3
  {
    ExampleRStrip(line);
    var w := CommentedOutAsWritten(line);
    assert w[3..|w| - 4] == line[..24];
    assert w[25] == line[22] && w[26] == line[23];
  }

  /**
   * The corrected comment-out writes exactly what the script writes, unless
   * the line holds a nested comment marker, and then it differs.
   */
  lemma CorrectionOnlyTouchesMarkers(line: string)
    ensures CommentedOut(line) == CommentedOutAsWritten(line) <==> NoMarker(RStrip(line))
  {
    var s := RStrip(line);
    var d := Defuse(s);
    assert CommentedOut(line) == "/* " + d + " */\n";
    assert CommentedOutAsWritten(line) == "/* " + s + " */\n";
    if CommentedOut(line) == CommentedOutAsWritten(line) {
      assert ("/* " + d + " */\n")[3..|d| + 3] == d;
      assert ("/* " + s + " */\n")[3..|s| + 3] == s;
    }
  }

  /** Every manifest header is named gdbwire...: none starts with another letter. */
  lemma HeadersStartWithG()
    ensures forall h :: h in HEADER_FILES ==> |h| > 0 && h[0] == 'g'
  {
    forall i | 0 <= i < |HEADER_FILES|
      ensures |HEADER_FILES[i]| > 0 && HEADER_FILES[i][0] == 'g'
    {
    }
  }

  /** The example line is a quoted include of `x.h`. */
  lemma ExampleIncludeLayout(line: string)
    requires line == "#include \"x.h\" /* why */\n"
    ensures QuotedIncludeAt(line, 0, 1, 9, 13) && line[10..13] == "x.h"
  {
    assert BlankBetween(line, 8, 9) by { assert IsPySpace(line[8]); }
    assert KeywordAt(line, 1);
    assert forall i :: 9 < i < 13 ==> line[i] != '"';
    assert line[10..13] == [line[10], line[11], line[12]];
  }

  /** rstrip takes only the final newline off the example line. */
  lemma ExampleRStrip(line: string)
    requires line == "#include \"x.h\" /* why */\n"
    ensures RStrip(line) == line[..24]
  {
    assert IsPySpace(line[24]) && line[..|line| - 1] == line[..24];
    assert !IsPySpace(line[..24][23]);
  }

  // ---------------------------------------------------------------------
  // The boundary comment and the two patterns

  // A boundary comment is a slash and five stars, a space, the text, a
  // space, stars up to the 79th column, then a slash and the newline.
  lemma CommentLayout(text: string)
    ensures var c := Comment(text);
      c[..7] == "/***** " && c[7..7 + |text|] == text && c[7 + |text|] == ' '
      && c[|c| - 2..] == "/\n"
      && forall i :: 8 + |text| <= i < |c| - 2 ==> c[i] == '*'
  {
    var stars := Stars(70 - |text|);
    var c := "/***** " + text + " " + stars + "/\n";
    assert c[..7] == "/***** ";
    assert c[7..7 + |text|] == text;
    assert forall i :: 8 + |text| <= i < |c| - 2 ==> c[i] == stars[i - 8 - |text|];
  }

  /** Different texts give different boundary comments. */
  lemma CommentInjective(t1: string, t2: string)
    requires Comment(t1) == Comment(t2)
    ensures t1 == t2
  {
    CommentLayout(t1);
    CommentLayout(t2);
    if |t1| == |t2| {
      assert t1 == Comment(t1)[7..7 + |t1|];
    }
  }

  /** `line[lo..hi]` is all white space. */
  predicate BlankBetween(line: string, lo: int, hi: int)
    requires 0 <= lo <= hi <= |line|
  {
    forall i :: lo <= i < hi ==> IsPySpace(line[i])
  }

  /**
   * `line` is a quoted include laid out at these positions: white space up
   * to `a`, `#` at `a`, white space up to `b`, `include` at `b`, at least
   * one white space character up to `c`, the opening quote at `c` and the
   * next quote at `e`, with at least one character between them.
   */
  predicate QuotedIncludeAt(line: string, a: nat, b: nat, c: nat, e: nat) {
    a < b && b + 7 < c && c + 1 < e < |line|
    && BlankBetween(line, 0, a) && line[a] == '#'
    && BlankBetween(line, a + 1, b) && KeywordAt(line, b)
    && BlankBetween(line, b + 7, c) && line[c] == '"'
    && (forall i :: c < i < e ==> line[i] != '"') && line[e] == '"'
  }

  /** The white space run starting at `lo` ends at `hi`. */
  lemma BlanksAt(line: string, lo: nat, hi: nat)
    requires lo <= hi <= |line| && BlankBetween(line, lo, hi)
    requires hi == |line| || !IsPySpace(line[hi])
    ensures SkipBlanks(line, lo) == hi
  {
  }

  /** The next quote at or after `lo` is at `hi`. */
  lemma QuoteAtAt(line: string, lo: nat, hi: nat)
    requires lo <= hi < |line| && line[hi] == '"'
    requires forall i :: lo <= i < hi ==> line[i] != '"'
    ensures NextQuote(line, lo) == hi
  {
  }

  /** The first stage of the matcher: white space, then `#`. */
  lemma HashStage(line: string, a: nat)
    requires a < |line| && BlankBetween(line, 0, a) && line[a] == '#'
    ensures IncludeTarget(line) == AfterHash(line, a + 1)
  {
    assert !IsPySpace(line[a]);
    BlanksAt(line, 0, a);
  }

  /** The second stage, from `off`: white space, then the word `include`. */
  lemma KeywordStage(line: string, off: nat, b: nat)
    requires off <= b && b + 7 <= |line| && BlankBetween(line, off, b) && KeywordAt(line, b)
    ensures AfterHash(line, off) == AfterKeyword(line, b + 7)
  {
    assert !IsPySpace(line[b]);
    BlanksAt(line, off, b);
  }

  /** The third stage, from `off`: at least one white space character, then the opening quote. */
  lemma QuoteStage(line: string, off: nat, c: nat)
    requires off < c < |line| && BlankBetween(line, off, c) && line[c] == '"'
    ensures AfterKeyword(line, off) == QuotedName(line, c + 1)
  {
    assert !IsPySpace(line[c]);
    BlanksAt(line, off, c);
  }

  /** The third stage fails on `<`. */
  lemma AngleStage(line: string, off: nat, c: nat)
    requires off <= c < |line| && BlankBetween(line, off, c) && line[c] == '<'
    ensures AfterKeyword(line, off) == None
  {
    assert !IsPySpace(line[c]);
    BlanksAt(line, off, c);
  }

  /** The last stage, from `off`: the name runs up to the next quote. */
  lemma NameStage(line: string, off: nat, e: nat)
    requires off < e < |line| && line[e] == '"' && forall i :: off <= i < e ==> line[i] != '"'
    ensures QuotedName(line, off) == Some(line[off..e])
  {
    QuoteAtAt(line, off, e);
  }

  /**
   * The include pattern matches exactly the quoted includes: it names the
   * file between the quotes of a line laid out as a quoted include ...
   */
  lemma QuotedIncludeMatches(line: string, a: nat, b: nat, c: nat, e: nat)
    requires QuotedIncludeAt(line, a, b, c, e)
    ensures IncludeTarget(line) == Some(line[c + 1..e])
  {
    calc {
      IncludeTarget(line);
      { HashStage(line, a); }
      AfterHash(line, a + 1);
      { KeywordStage(line, a + 1, b); }
      AfterKeyword(line, b + 7);
      { QuoteStage(line, b + 7, c); }
      QuotedName(line, c + 1);
      { NameStage(line, c + 1, e); }
      Some(line[c + 1..e]);
    }
  }

  /** ... and a line it matches is laid out as one. */
  lemma IncludeMatchIsQuoted(line: string)
    requires IncludeTarget(line).Some?
    ensures exists a: nat, b: nat, c: nat, e: nat :: QuotedIncludeAt(line, a, b, c, e)
  {
    var a := SkipBlanks(line, 0);
    assert a < |line| && line[a] == '#';
    var b := SkipBlanks(line, a + 1);
    assert KeywordAt(line, b);
    var c := SkipBlanks(line, b + 7);
    assert b + 7 < c < |line| && line[c] == '"';
    var e := NextQuote(line, c + 1);
    assert c + 1 < e < |line| && line[e] == '"';
    assert forall i :: c < i < e ==> line[i] != '"';
    assert BlankBetween(line, 0, a) && BlankBetween(line, a + 1, b) && BlankBetween(line, b + 7, c);
    assert QuotedIncludeAt(line, a, b, c, e);
  }

  /**
   * `#include <...>`, laid out like a quoted include but with `<` where the
   * quote would be (white space before it optional), is not matched and is
   * copied through as it is.
   */
  lemma AngleIncludeKept(line: string, a: nat, b: nat, c: nat)
    requires a < b && b + 7 <= c < |line|
    requires BlankBetween(line, 0, a) && line[a] == '#'
    requires BlankBetween(line, a + 1, b) && KeywordAt(line, b)
    requires BlankBetween(line, b + 7, c) && line[c] == '<'
    ensures PlainLine(line)
  {
    assert IncludeTarget(line) == None by {
      HashStage(line, a);
      KeywordStage(line, a + 1, b);
      AngleStage(line, b + 7, c);
    }
    HashIsNotDirective(line, a, b);
  }

  /** A line that starts with white space, or with `#` and then not `l`, is no `#line` directive. */
  lemma HashIsNotDirective(line: string, a: nat, b: nat)
    requires a < b < |line| && BlankBetween(line, 0, a) && line[a] == '#'
    requires BlankBetween(line, a + 1, b) && line[b] == 'i'
    ensures !IsLineDirective(line)
  {
    if |line| >= 5 {
      if a == 0 {
        assert line[..5][1] == line[1];
      } else {
        assert line[..5][0] == line[0];
      }
    }
  }
}

=== FILE: annotation_parser.dfy ===
/**
 * The GDB/Annotation stream parser (gdbwire_annotation_parser.c).
 *
 * GDB annotations are framed as "\n\032\032name args\n" inside ordinary
 * console output. A four-state character machine separates the two, handing
 * console text and annotations to the client callback in order. The callback
 * invocations are the `events` the methods return.
 */
module AnnotationParser {
  import opened CStr
  import opened Results
  import opened GdbwireString

  const CONTROL_Z: char := 26 as char

  datatype AnnotationKind =
    | BreakpointsInvalid | Source | FrameEnd | FramesInvalid
    | PreCommands | Commands | PostCommands
    | PreOverloadChoice | OverloadChoice | PostOverloadChoice
    | PreInstanceChoice | InstanceChoice | PostInstanceChoice
    | PreQuery | Query | PostQuery
    | PrePromptForContinue | PromptForContinue | PostPromptForContinue
    | PrePrompt | Prompt | PostPrompt
    | ErrorBegin | Error | Quit | Exited
    | Unknown

  /** The annotation name table searched by parse_annotation. */
  const Annotations: seq<(seq<char>, AnnotationKind)> := [
    ("breakpoints-invalid", BreakpointsInvalid),
    ("source", Source),
    ("frame-end", FrameEnd),
    ("frames-invalid", FramesInvalid),
    ("pre-commands", PreCommands),
    ("commands", Commands),
    ("post-commands", PostCommands),
    ("pre-overload-choice", PreOverloadChoice),
    ("overload-choice", OverloadChoice),
    ("post-overload-choice", PostOverloadChoice),
    ("pre-instance-choice", PreInstanceChoice),
    ("instance-choice", InstanceChoice),
    ("post-instance-choice", PostInstanceChoice),
    ("pre-query", PreQuery),
    ("query", Query),
    ("post-query", PostQuery),
    ("pre-prompt-for-continue", PrePromptForContinue),
    ("prompt-for-continue", PromptForContinue),
    ("post-prompt-for-continue", PostPromptForContinue),
    ("pre-prompt", PrePrompt),
    ("prompt", Prompt),
    ("post-prompt", PostPrompt),
    ("error-begin", ErrorBegin),
    ("error", Error),
    ("quit", Quit),
    ("exited", Exited)
  ]

  /** A name table searched from entry `i` on: the kind of the first entry named `name`, or Unknown. */
  function LookupFrom(table: seq<(seq<char>, AnnotationKind)>, name: seq<char>, i: nat): AnnotationKind
    requires i <= |table|
    decreases |table| - i
  {
    if i == |table| then Unknown
    else if table[i].0 == name then table[i].1
    else LookupFrom(table, name, i + 1)
  }

  /** The kind of an annotation name: its entry in the annotation table, or Unknown. */
  function KindOf(name: seq<char>): AnnotationKind {
    LookupFrom(Annotations, name, 0)
  }

  /** The kind of a whole annotation text: the name is the text before its first space. */
  function AnnotationKindOf(text: seq<char>): AnnotationKind {
    KindOf(text[..IndexOfAny(text, " ")])
  }

  predicate DistinctNames() {
    forall i, j :: 0 <= i < j < |Annotations| ==> Annotations[i].0 != Annotations[j].0
  }

  /** The table names each kind at most once. */
  lemma TableDistinct()
    ensures DistinctNames()
  {
    DistinctRows1();
    DistinctRows2();
    DistinctRows3();
    DistinctRows4();
    DistinctRows5();
    DistinctRows6();
    DistinctRows7();
  }

  // The blocks of rows whose names do not show up again later in the table.

  lemma DistinctRows1()
    ensures forall i, j :: 0 <= i < 2 && i < j < |Annotations| ==> Annotations[i].0 != Annotations[j].0
  {
  }

  lemma DistinctRows2()
    ensures forall i, j :: 2 <= i < 4 && i < j < |Annotations| ==> Annotations[i].0 != Annotations[j].0
  {
  }

  lemma DistinctRows3()
    ensures forall i, j :: 4 <= i < 7 && i < j < |Annotations| ==> Annotations[i].0 != Annotations[j].0
  {
  }

  lemma DistinctRows4()
    ensures forall i, j :: 7 <= i < 11 && i < j < |Annotations| ==> Annotations[i].0 != Annotations[j].0
  {
  }

  lemma DistinctRows5()
    ensures forall i, j :: 11 <= i < 15 && i < j < |Annotations| ==> Annotations[i].0 != Annotations[j].0
  {
  }

  lemma DistinctRows6()
    ensures forall i, j :: 15 <= i < 20 && i < j < |Annotations| ==> Annotations[i].0 != Annotations[j].0
  {
  }

  lemma DistinctRows7()
    ensures forall i, j :: 20 <= i < j < |Annotations| ==> Annotations[i].0 != Annotations[j].0
  {
  }

  lemma KindsKnown()
    ensures forall i :: 0 <= i < |Annotations| ==> Annotations[i].1 != Unknown
  {
  }

  /** In a table without Unknown entries, the search finds a kind exactly when some entry from `i` on has the name. */
  lemma {:induction false} LookupFromFinds(table: seq<(seq<char>, AnnotationKind)>, name: seq<char>, i: nat)
    requires i <= |table|
    requires forall k :: 0 <= k < |table| ==> table[k].1 != Unknown
    ensures LookupFrom(table, name, i) != Unknown <==> exists j :: i <= j < |table| && table[j].0 == name
    ensures LookupFrom(table, name, i) != Unknown ==> exists j :: i <= j < |table| && table[j] == (name, LookupFrom(table, name, i))
    decreases |table| - i
  {
    if i < |table| {
      if table[i].0 == name {
        assert table[i] == (name, LookupFrom(table, name, i));
      } else {
        LookupFromFinds(table, name, i + 1);
      }
    }
  }

  /** Exactly the names in the table have a known kind, and that kind is their entry's. */
  lemma KindOfKnown(name: seq<char>)
    ensures KindOf(name) != Unknown <==> exists j :: 0 <= j < |Annotations| && Annotations[j].0 == name
    ensures KindOf(name) != Unknown ==> exists j :: 0 <= j < |Annotations| && Annotations[j] == (name, KindOf(name))
  {
    KindsKnown();
    LookupFromFinds(Annotations, name, 0);
  }

  /** Every table name is looked up as its own kind (names are distinct). */
  lemma KindOfTableName(j: nat)
    requires j < |Annotations|
    ensures KindOf(Annotations[j].0) == Annotations[j].1
  {
    assert forall k :: 0 <= k < j ==> Annotations[k].0 != Annotations[j].0 by {
      TableDistinct();
    }
    LookupSkips(Annotations, Annotations[j].0, 0, j);
  }

  /** The search passes over entries with other names and stops at the first one named `name`. */
  lemma {:induction false} LookupSkips(table: seq<(seq<char>, AnnotationKind)>, name: seq<char>, i: nat, j: nat)
    requires i <= j < |table| && table[j].0 == name
    requires forall k :: i <= k < j ==> table[k].0 != name
    ensures LookupFrom(table, name, i) == table[j].1
    decreases j - i
  {
    if i < j {
      LookupSkips(table, name, i + 1, j);
    }
  }

  // ---------------------------------------------------------------------
  // The specification: the parser's abstract state and one step per byte.

  datatype State = GdbData | NewLine | ControlZ | Text

  /** The parser as its client sees it: the state and the two pending buffers. */
  datatype PState = PState(state: State, console: seq<char>, text: seq<char>)

  datatype AnnotationOutput =
    | ConsoleOutput(output: seq<char>)
    | Annotation(kind: AnnotationKind, text: seq<char>)

  const Initial: PState := PState(GdbData, [], [])

  /** send_console_output_if_available: one console event for a non-empty buffer, which is then emptied. */
  function Flush(st: PState): (PState, seq<AnnotationOutput>) {
    if |st.console| != 0 then (st.(console := []), [ConsoleOutput(CPrefix(st.console))])
    else (st, [])
  }

  /** process_char: console output is sent a line at a time. */
  function Process(st: PState, c: char): (PState, seq<AnnotationOutput>) {
    var st1 := st.(console := st.console + [c]);
    if c == '\n' then Flush(st1) else (st1, [])
  }

  /** The '\n' in TEXT: pending console output first, then the annotation. */
  function Emit(st: PState): (PState, seq<AnnotationOutput>) {
    var (st1, e1) := Flush(st);
    (st1.(state := GdbData, text := []),
     e1 + [Annotation(AnnotationKindOf(st.text), CPrefix(st.text))])
  }

  /** One byte through the machine of gdbwire_annotation_parser_parse. */
  function Step(st: PState, c: char): (r: (PState, seq<AnnotationOutput>))
    ensures c == '\r' ==> r == (st, [])
    ensures r.0.state == Text ==>
      (st.state == ControlZ && c == CONTROL_Z) || (st.state == Text && c != '\n')
    ensures st.state == Text && c == '\n' ==>
      r.0.state == GdbData && r.0.text == [] && |r.1| > 0 && r.1[|r.1| - 1].Annotation?
  {
    if c == '\r' then (st, [])
    else match st.state
      case GdbData =>
        if c == '\n' then (st.(state := NewLine), []) else Process(st, c)
      case NewLine =>
        if c == CONTROL_Z then (st.(state := ControlZ), [])
        else
          var (st1, e1) := Process(st, '\n');
          if c == '\n' then (st1, e1)
          else
            var (st2, e2) := Process(st1, c);
            (st2.(state := GdbData), e1 + e2)
      case ControlZ =>
        if c == CONTROL_Z then (st.(state := Text), [])
        else
          var (st1, e1) := Process(st, '\n');
          var (st2, e2) := Process(st1, CONTROL_Z);
          if c == '\n' then (st2.(state := NewLine), e1 + e2)
          else
            var (st3, e3) := Process(st2, c);
            (st3.(state := GdbData), e1 + e2 + e3)
      case Text =>
        if c == '\n' then Emit(st) else (st.(text := st.text + [c]), [])
  }

  /** The bytes of `s` through the machine, in order. */
  function Feed(st: PState, s: seq<char>): (PState, seq<AnnotationOutput>)
    decreases |s|
  {
    if s == [] then (st, [])
    else
      var (st1, e1) := Feed(st, s[..|s| - 1]);
      var (st2, e2) := Step(st1, s[|s| - 1]);
      (st2, e1 + e2)
  }

  /** One push: the bytes, then whatever console output is left. */
  function Run(st: PState, s: seq<char>): (r: (PState, seq<AnnotationOutput>))
    ensures r.0.console == [] && r.0.state == Feed(st, s).0.state
  {
    var (st1, e1) := Feed(st, s);
    var (st2, e2) := Flush(st1);
    (st2, e1 + e2)
  }

  // ---------------------------------------------------------------------
  // The implementation.

  class AnnotationParser {
    var state: State
    const consoleOutput: GdbString
    const annotationText: GdbString

    ghost predicate Valid()
      reads this, consoleOutput, annotationText
    {
      && consoleOutput != annotationText
      && consoleOutput.data != annotationText.data
      && consoleOutput.Valid() && consoleOutput.capacity > 0
      && annotationText.Valid() && annotationText.capacity > 0
    }

    ghost function View(): PState
      reads this, consoleOutput, consoleOutput.data, annotationText, annotationText.data
      requires Valid()
    {
      PState(state, consoleOutput.Contents(), annotationText.Contents())
    }

    /** The parser part of gdbwire_annotation_parser_create, once the callback is known to be set. */
    constructor Init()
      ensures Valid() && View() == Initial
      ensures fresh(consoleOutput) && fresh(consoleOutput.data)
      ensures fresh(annotationText) && fresh(annotationText.data)
    {
      state := GdbData;
      annotationText := new GdbString.Create();
      consoleOutput := new GdbString.Create();
    }

    /** gdbwire_send_console_output_if_available. */
    method SendConsoleOutputIfAvailable() returns (events: seq<AnnotationOutput>)
      requires Valid()
      modifies consoleOutput, consoleOutput.data
      ensures Valid()
      ensures consoleOutput.data == old(consoleOutput.data) || fresh(consoleOutput.data)
      ensures (View(), events) == Flush(old(View()))
    {
      events := [];
      if consoleOutput.size != 0 {
        ghost var pending := consoleOutput.Contents();
        var r := AppendChar(consoleOutput, NUL);
        CPrefixTerminated(pending);
        var text := CPrefix(consoleOutput.data[..consoleOutput.size]);
        events := [ConsoleOutput(text)];
        Clear(consoleOutput);
      }
    }

    /** gdbwire_annotation_parser_process_char. */
    method ProcessChar(c: char) returns (events: seq<AnnotationOutput>)
      requires Valid()
      modifies consoleOutput, consoleOutput.data
      ensures Valid()
      ensures consoleOutput.data == old(consoleOutput.data) || fresh(consoleOutput.data)
      ensures (View(), events) == Process(old(View()), c)
    {
      var r := AppendChar(consoleOutput, c);
      events := [];
      if c == '\n' {
        events := SendConsoleOutputIfAvailable();
      }
    }

    /**
     * gdbwire_annotation_parser_parse_annotation and send_callback: the kind
     * from the table, the text, pending console output first, then the annotation.
     */
    method ParseAnnotation() returns (events: seq<AnnotationOutput>)
      requires Valid()
      modifies consoleOutput, consoleOutput.data, annotationText, annotationText.data
      ensures Valid()
      ensures consoleOutput.data == old(consoleOutput.data) || fresh(consoleOutput.data)
      ensures annotationText.data == old(annotationText.data) || fresh(annotationText.data)
      ensures View().console == Flush(old(View())).0.console
      ensures events == Emit(old(View())).1
      ensures state == old(state)
    {
      var kind, text := TakeAnnotation(annotationText);
      var pending := SendConsoleOutputIfAvailable();
      events := pending + [Annotation(kind, text)];
    }

    /** gdbwire_annotation_parser_parse: each byte through the machine, then a final console flush. */
    method Parse(str: seq<char>, size: nat) returns (result: int, events: seq<AnnotationOutput>)
      requires Valid() && size <= |str|
      modifies this, consoleOutput, consoleOutput.data, annotationText, annotationText.data
      ensures Valid()
      ensures consoleOutput.data == old(consoleOutput.data) || fresh(consoleOutput.data)
      ensures annotationText.data == old(annotationText.data) || fresh(annotationText.data)
      ensures (View(), events) == Run(old(View()), str[..size])
      ensures result == 0
    {
      ghost var v0 := View();
      events := [];
      var i := 0;
      while i < size
        invariant i <= size && Valid()
        invariant consoleOutput.data == old(consoleOutput.data) || fresh(consoleOutput.data)
        invariant annotationText.data == old(annotationText.data) || fresh(annotationText.data)
        invariant (View(), events) == Feed(v0, str[..i])
      {
        var e := ConsumeChar(str[i]);
        assert str[..i + 1][..i] == str[..i];
        events := events + e;
        i := i + 1;
      }
      var e := SendConsoleOutputIfAvailable();
      events := events + e;
      result := 0;
    }

    /** The body of the parse loop: the switch on the state for one byte. */
    method ConsumeChar(c: char) returns (events: seq<AnnotationOutput>)
      requires Valid()
      modifies this, consoleOutput, consoleOutput.data, annotationText, annotationText.data
      ensures Valid()
      ensures consoleOutput.data == old(consoleOutput.data) || fresh(consoleOutput.data)
      ensures annotationText.data == old(annotationText.data) || fresh(annotationText.data)
      ensures (View(), events) == Step(old(View()), c)
    {
      events := [];
      if c == '\r' {
        return;
      }
      match state
      case GdbData => events := OnGdbData(c);
      case NewLine => events := OnNewLine(c);
      case ControlZ => events := OnControlZ(c);
      case Text => events := OnText(c);
    }

    /** The GDBWIRE_ANNOTATION_GDB_DATA case: a newline may start an annotation. */
    method OnGdbData(c: char) returns (events: seq<AnnotationOutput>)
      requires Valid() && state == GdbData && c != '\r'
      modifies this, consoleOutput, consoleOutput.data
      ensures Valid()
      ensures consoleOutput.data == old(consoleOutput.data) || fresh(consoleOutput.data)
      ensures (View(), events) == Step(old(View()), c)
    {
      events := [];
      if c == '\n' {
        state := NewLine;
      } else {
        events := ProcessChar(c);
      }
    }

    /** The GDBWIRE_ANNOTATION_NEW_LINE case: a control-Z continues the prefix, anything else releases the newline. */
    method OnNewLine(c: char) returns (events: seq<AnnotationOutput>)
      requires Valid() && state == NewLine && c != '\r'
      modifies this, consoleOutput, consoleOutput.data
      ensures Valid()
      ensures consoleOutput.data == old(consoleOutput.data) || fresh(consoleOutput.data)
      ensures (View(), events) == Step(old(View()), c)
    {
      events := [];
      if c == CONTROL_Z {
        state := ControlZ;
      } else {
        events := ProcessChar('\n');
        if c != '\n' {
          var e := ProcessChar(c);
          events := events + e;
          state := GdbData;
        }
      }
    }

    /** The GDBWIRE_ANNOTATION_CONTROL_Z case: a second control-Z starts the text, anything else releases the prefix. */
    method OnControlZ(c: char) returns (events: seq<AnnotationOutput>)
      requires Valid() && state == ControlZ && c != '\r'
      modifies this, consoleOutput, consoleOutput.data
      ensures Valid()
      ensures consoleOutput.data == old(consoleOutput.data) || fresh(consoleOutput.data)
      ensures (View(), events) == Step(old(View()), c)
    {
      events := [];
      if c == CONTROL_Z {
        state := Text;
      } else {
        events := ProcessChar('\n');
        var e := ProcessChar(CONTROL_Z);
        events := events + e;
        if c == '\n' {
          state := NewLine;
        } else {
          e := ProcessChar(c);
          events := events + e;
          state := GdbData;
        }
      }
    }

    /** The GDBWIRE_ANNOTATION_TEXT case: a newline ends the annotation. */
    method OnText(c: char) returns (events: seq<AnnotationOutput>)
      requires Valid() && state == Text && c != '\r'
      modifies this, consoleOutput, consoleOutput.data, annotationText, annotationText.data
      ensures Valid()
      ensures consoleOutput.data == old(consoleOutput.data) || fresh(consoleOutput.data)
      ensures annotationText.data == old(annotationText.data) || fresh(annotationText.data)
      ensures (View(), events) == Step(old(View()), c)
    {
      events := [];
      if c == '\n' {
        events := ParseAnnotation();
        state := GdbData;
        Clear(annotationText);
      } else {
        var r := AppendChar(annotationText, c);
      }
    }
  }

  /**
   * The annotation-text half of parse_annotation and send_callback: the kind
   * of the name before the first space, and the text as a C string.
   */
  method TakeAnnotation(annotationText: GdbString) returns (kind: AnnotationKind, text: seq<char>)
    requires annotationText.Valid()
    modifies annotationText, annotationText.data
    ensures annotationText.Valid() && annotationText.capacity >= old(annotationText.capacity)
    ensures annotationText.data == old(annotationText.data) || fresh(annotationText.data)
    ensures kind == AnnotationKindOf(old(annotationText.Contents()))
    ensures text == CPrefix(old(annotationText.Contents()))
  {
    ghost var v := annotationText.Contents();
    var nameLength := FindFirstOf(annotationText, Some(" "));
    assert CPrefix(" ") == " " by { CPrefixOfNoNul(" "); }
    kind := LookupKind(annotationText.data[..nameLength]);
    assert annotationText.data[..nameLength] == v[..IndexOfAny(v, " ")];
    var r := AppendChar(annotationText, NUL);
    CPrefixTerminated(v);
    text := CPrefix(annotationText.data[..annotationText.size]);
  }

  /** The table search of parse_annotation. */
  method LookupKind(name: seq<char>) returns (kind: AnnotationKind)
    ensures kind == KindOf(name)
  {
    kind := Unknown;
    var i := 0;
    while i < |Annotations|
      invariant i <= |Annotations|
      invariant KindOf(name) == LookupFrom(Annotations, name, i)
    {
      var entryName := Annotations[i].0;
      if |name| == |entryName| && entryName == name[..|entryName|] {
        return Annotations[i].1;
      }
      i := i + 1;
    }
  }

  /** gdbwire_annotation_parser_create: no parser without an output callback. */
  method Create(hasOutputCallback: bool) returns (parser: AnnotationParser?)
    ensures parser == null <==> !hasOutputCallback
    ensures parser != null ==> fresh(parser) && parser.Valid() && parser.View() == Initial
  {
    if !hasOutputCallback {
      return null;
    }
    parser := new AnnotationParser.Init();
  }

  /** gdbwire_annotation_parser_push_data: GDBWIRE_ASSERT on a null parser or null data. */
  method PushData(parser: AnnotationParser?, data: Option<seq<char>>, size: nat)
    returns (result: GdbwireResult, events: seq<AnnotationOutput>)
    requires parser != null ==> parser.Valid()
    requires data.Some? ==> size <= |data.value|
    modifies if parser == null then {} else
      {parser, parser.consoleOutput, parser.consoleOutput.data, parser.annotationText, parser.annotationText.data}
    ensures parser != null ==> parser.Valid()
    ensures result == (if parser != null && data.Some? then Ok else Assert)
    ensures result == Assert ==> events == []
    ensures result == Ok ==> (parser.View(), events) == Run(old(parser.View()), data.value[..size])
  {
    if parser == null || data.None? {
      return Assert, [];
    }
    var r;
    r, events := parser.Parse(data.value, size);
    result := Ok;
  }

  /** gdbwire_annotation_parser_push: pushes the C string `data` (strlen bytes). */
  method Push(parser: AnnotationParser?, data: seq<char>)
    returns (result: GdbwireResult, events: seq<AnnotationOutput>)
    requires parser != null ==> parser.Valid()
    modifies if parser == null then {} else
      {parser, parser.consoleOutput, parser.consoleOutput.data, parser.annotationText, parser.annotationText.data}
    ensures parser != null ==> parser.Valid()
    ensures result == (if parser != null then Ok else Assert)
    ensures result == Ok ==> (parser.View(), events) == Run(old(parser.View()), CPrefix(data))
  {
    result, events := PushData(parser, Some(data), |CPrefix(data)|);
  }
}

=== FILE: annotation_properties.dfy ===
/**
 * What the annotation machine promises over whole inputs: no byte of the
 * stream is lost (console output plus annotations reassemble it, minus the
 * carriage returns), console events are never empty, and a framed
 * "\n\032\032text\n" comes out as exactly one annotation, after the console
 * output that preceded it.
 */
module AnnotationProperties {
  import opened CStr
  import opened GdbwireString
  import opened AnnotationParser

  /** The input as the machine sees it: every '\r' removed. */
  function DropCR(s: seq<char>): (r: seq<char>)
    ensures |r| <= |s| && '\r' !in r
  {
    if s == [] then []
    else DropCR(s[..|s| - 1]) + (if s[|s| - 1] == '\r' then [] else [s[|s| - 1]])
  }

  lemma DropCRSnoc(s: seq<char>, c: char)
    ensures DropCR(s + [c]) == DropCR(s) + (if c == '\r' then [] else [c])
  {
    assert (s + [c])[..|s|] == s;
  }

  /** The bytes an event stands for in the stream. */
  function Bytes(e: AnnotationOutput): seq<char> {
    match e
    case ConsoleOutput(o) => o
    case Annotation(_, t) => ['\n', CONTROL_Z, CONTROL_Z] + t + ['\n']
  }

  function Flatten(es: seq<AnnotationOutput>): seq<char> {
    if es == [] then [] else Flatten(es[..|es| - 1]) + Bytes(es[|es| - 1])
  }

  /** The bytes consumed but not yet handed out: the console buffer, then the pending prefix. */
  function Pending(st: PState): seq<char> {
    match st.state
    case GdbData => []
    case NewLine => ['\n']
    case ControlZ => ['\n', CONTROL_Z]
    case Text => ['\n', CONTROL_Z, CONTROL_Z] + st.text
  }

  function Held(st: PState): seq<char> {
    st.console + Pending(st)
  }

  /** The shape every reachable state has on NUL-free input. */
  predicate Inv(st: PState) {
    && (st.state != Text ==> st.text == [])
    && NoNul(st.console) && NoNul(st.text)
    && '\n' !in st.text && '\r' !in st.text
  }

  /** Events as the client sees them: no empty console output, annotations classified by their name. */
  predicate WellFormed(es: seq<AnnotationOutput>) {
    forall i :: 0 <= i < |es| ==>
      match es[i]
      case ConsoleOutput(o) => o != [] && NoNul(o)
      case Annotation(k, t) => k == AnnotationKindOf(t) && NoNul(t) && '\n' !in t && '\r' !in t
  }

  lemma {:induction false} FlattenConcat(a: seq<AnnotationOutput>, b: seq<AnnotationOutput>)
    ensures Flatten(a + b) == Flatten(a) + Flatten(b)
    decreases |b|
  {
    if b != [] {
      var init, last := b[..|b| - 1], b[|b| - 1];
      assert (a + b)[..|a + b| - 1] == a + init && (a + b)[|a + b| - 1] == last;
      calc {
        Flatten(a + b);
        Flatten(a + init) + Bytes(last);
        { FlattenConcat(a, init); }
        Flatten(a) + Flatten(init) + Bytes(last);
      }
    } else {
      assert a + b == a;
    }
  }

  lemma WellFormedConcat(a: seq<AnnotationOutput>, b: seq<AnnotationOutput>)
    requires WellFormed(a) && WellFormed(b)
    ensures WellFormed(a + b)
  {
    forall i | 0 <= i < |a + b|
      ensures (a + b)[i] == (if i < |a| then a[i] else b[i - |a|])
    {
    }
  }

  /** Flushing keeps the shape and hands out a well-formed event. */
  lemma FlushShape(st: PState)
    requires Inv(st)
    ensures Inv(Flush(st).0) && WellFormed(Flush(st).1)
    ensures Flush(st).0.state == st.state && Flush(st).0.text == st.text
  {
    if |st.console| != 0 {
      CPrefixOfNoNul(st.console);
    }
  }

  /** Flushing the console buffer hands out exactly its bytes. */
  lemma FlushConserves(st: PState)
    requires NoNul(st.console)
    ensures Flatten(Flush(st).1) + Flush(st).0.console == st.console
  {
    if |st.console| != 0 {
      CPrefixOfNoNul(st.console);
      assert Flush(st).1[..0] == [];
    }
  }

  lemma ProcessShape(st: PState, c: char)
    requires Inv(st) && c != NUL
    ensures Inv(Process(st, c).0) && WellFormed(Process(st, c).1)
    ensures Process(st, c).0.state == st.state && Process(st, c).0.text == st.text
  {
    NoNulConcat(st.console, [c]);
    FlushShape(st.(console := st.console + [c]));
  }

  /** A console byte joins the console buffer, which may then be handed out. */
  lemma ProcessConserves(st: PState, c: char)
    requires NoNul(st.console) && c != NUL
    ensures Flatten(Process(st, c).1) + Process(st, c).0.console == st.console + [c]
  {
    NoNulConcat(st.console, [c]);
    FlushConserves(st.(console := st.console + [c]));
  }

  /** Two consecutive console bytes. */
  lemma ProcessTwice(st: PState, c: char, d: char)
    requires Inv(st) && c != NUL && d != NUL
    ensures var (st1, e1) := Process(st, c);
      Inv(Process(st1, d).0) && WellFormed(e1 + Process(st1, d).1)
      && Process(st1, d).0.state == st.state && Process(st1, d).0.text == st.text
      && Flatten(e1 + Process(st1, d).1) + Process(st1, d).0.console == st.console + [c, d]
  {
    var (st1, e1) := Process(st, c);
    var (st2, e2) := Process(st1, d);
    assert Inv(st1) && WellFormed(e1) && st1.state == st.state && st1.text == st.text
      && Flatten(e1) + st1.console == st.console + [c] by {
      ProcessShape(st, c);
      ProcessConserves(st, c);
    }
    assert Inv(st2) && WellFormed(e2) && st2.state == st.state && st2.text == st.text
      && Flatten(e2) + st2.console == st1.console + [d] by {
      ProcessShape(st1, d);
      ProcessConserves(st1, d);
    }
    assert WellFormed(e1 + e2) by {
      WellFormedConcat(e1, e2);
    }
    calc {
      Flatten(e1 + e2) + st2.console;
      { FlattenConcat(e1, e2); }
      (Flatten(e1) + Flatten(e2)) + st2.console;
      { Associate(Flatten(e1), Flatten(e2), st2.console); }
      Flatten(e1) + (st1.console + [d]);
      { Associate(Flatten(e1), st1.console, [d]); }
      (st.console + [c]) + [d];
      { Associate(st.console, [c], [d]); }
      st.console + [c, d];
    }
  }

  /** One byte keeps the shape and hands out well-formed events. */
  lemma StepShape(st: PState, c: char)
    requires Inv(st) && c != NUL
    ensures Inv(Step(st, c).0) && WellFormed(Step(st, c).1)
  {
    if c == '\r' {
      return;
    }
    match st.state
    case GdbData =>
      if c != '\n' {
        ProcessShape(st, c);
      }
    case NewLine =>
      if c == '\n' {
        ProcessShape(st, '\n');
      } else if c != CONTROL_Z {
        ProcessTwice(st, '\n', c);
      }
    case ControlZ =>
      if c != CONTROL_Z {
        var (st2, e) := (Process(Process(st, '\n').0, CONTROL_Z).0,
                         Process(st, '\n').1 + Process(Process(st, '\n').0, CONTROL_Z).1);
        ProcessTwice(st, '\n', CONTROL_Z);
        if c != '\n' {
          ProcessShape(st2, c);
          WellFormedConcat(e, Process(st2, c).1);
        }
      }
    case Text =>
      if c == '\n' {
        FlushShape(st);
        CPrefixOfNoNul(st.text);
        var a := Annotation(AnnotationKindOf(st.text), CPrefix(st.text));
        assert WellFormed([a]);
        WellFormedConcat(Flush(st).1, [a]);
      } else {
        NoNulConcat(st.text, [c]);
      }
  }

  /** One byte: what is handed out plus what is held is what was held plus the byte (a '\r' vanishes). */
  lemma StepConserves(st: PState, c: char)
    requires Inv(st) && c != NUL
    ensures Flatten(Step(st, c).1) + Held(Step(st, c).0) == Held(st) + (if c == '\r' then [] else [c])
  {
    if c == '\r' {
      assert Step(st, c) == (st, []);
      return;
    }
    match st.state
    case GdbData => GdbDataConserves(st, c);
    case NewLine => NewLineConserves(st, c);
    case ControlZ => ControlZConserves(st, c);
    case Text => TextConserves(st, c);
  }

  lemma GdbDataConserves(st: PState, c: char)
    requires Inv(st) && c != NUL && c != '\r' && st.state == GdbData
    ensures Flatten(Step(st, c).1) + Held(Step(st, c).0) == Held(st) + [c]
  {
    if c == '\n' {
      assert Step(st, c) == (st.(state := NewLine), []);
    } else {
      var (st1, e1) := Process(st, c);
      ProcessConserves(st, c);
      assert Step(st, c) == (st1, e1);
      assert st1.state == GdbData;
    }
  }

  lemma NewLineConserves(st: PState, c: char)
    requires Inv(st) && c != NUL && c != '\r' && st.state == NewLine
    ensures Flatten(Step(st, c).1) + Held(Step(st, c).0) == Held(st) + [c]
  {
    if c == CONTROL_Z {
      assert Step(st, c) == (st.(state := ControlZ), []);
    } else if c == '\n' {
      var (st1, e1) := Process(st, '\n');
      ProcessConserves(st, '\n');
      assert Step(st, c) == (st1, e1);
      assert st1.state == NewLine;
    } else {
      var (st1, e1) := Process(st, '\n');
      var (st2, e2) := Process(st1, c);
      ProcessTwice(st, '\n', c);
      assert Step(st, c) == (st2.(state := GdbData), e1 + e2);
    }
  }

  lemma ControlZConserves(st: PState, c: char)
    requires Inv(st) && c != NUL && c != '\r' && st.state == ControlZ
    ensures Flatten(Step(st, c).1) + Held(Step(st, c).0) == Held(st) + [c]
  {
    if c != CONTROL_Z {
      var (st1, e1) := Process(st, '\n');
      var (st2, e2) := Process(st1, CONTROL_Z);
      assert NoNul(st2.console) && Flatten(e1 + e2) + st2.console == Held(st) by {
        ProcessTwice(st, '\n', CONTROL_Z);
      }
      if c != '\n' {
        var (st3, e3) := Process(st2, c);
        assert Step(st, c) == (st3.(state := GdbData), e1 + e2 + e3);
        calc {
          Flatten(e1 + e2 + e3) + st3.console;
          { FlattenConcat(e1 + e2, e3); }
          (Flatten(e1 + e2) + Flatten(e3)) + st3.console;
          { Associate(Flatten(e1 + e2), Flatten(e3), st3.console); ProcessConserves(st2, c); }
          Flatten(e1 + e2) + (st2.console + [c]);
          { Associate(Flatten(e1 + e2), st2.console, [c]); }
          Held(st) + [c];
        }
      } else {
        assert Step(st, c) == (st2.(state := NewLine), e1 + e2);
      }
    }
  }

  lemma TextConserves(st: PState, c: char)
    requires Inv(st) && c != NUL && c != '\r' && st.state == Text
    ensures Flatten(Step(st, c).1) + Held(Step(st, c).0) == Held(st) + [c]
  {
    if c == '\n' {
      assert Step(st, c) == Emit(st);
      EmitConserves(st);
    } else {
      var st1 := st.(text := st.text + [c]);
      assert Step(st, c) == (st1, []);
      assert Held(st1) == st.console + (['\n', CONTROL_Z, CONTROL_Z] + (st.text + [c]));
    }
  }

  /** The annotation's bytes, with the console output flushed before it, are what TEXT held, and the `\n`. */
  lemma EmitConserves(st: PState)
    requires Inv(st) && st.state == Text
    ensures Flatten(Emit(st).1) + Held(Emit(st).0) == Held(st) + ['\n']
  {
    var (st1, e1) := Flush(st);
    assert Flatten(e1) == st.console && st1.console == [] by {
      FlushConserves(st);
    }
    var a := Annotation(AnnotationKindOf(st.text), CPrefix(st.text));
    var st2 := st1.(state := GdbData, text := []);
    assert Emit(st) == (st2, e1 + [a]);
    assert Held(st2) == [] by {
      HeldNothing(st2);
    }
    var p := ['\n', CONTROL_Z, CONTROL_Z] + st.text;
    assert Bytes(a) == p + ['\n'] by {
      CPrefixOfNoNul(st.text);
    }
    assert Flatten([a]) == Bytes(a) by {
      assert [a][..0] == [];
    }
    FlattenConcat(e1, [a]);
    assert Held(st) == st.console + p;
    assert Flatten(e1 + [a]) + [] == Flatten(e1 + [a]);
    Associate(st.console, p, ['\n']);
  }

  /** A state in GDB_DATA with an empty console buffer holds nothing back. */
  lemma HeldNothing(st: PState)
    requires st.state == GdbData && st.console == []
    ensures Held(st) == []
  {
  }

  /** Every reachable state has the shape, and every event handed out is well formed. */
  lemma {:induction false} FeedShape(st: PState, s: seq<char>)
    requires Inv(st) && NoNul(s)
    ensures Inv(Feed(st, s).0) && WellFormed(Feed(st, s).1)
    decreases |s|
  {
    if s != [] {
      var init, c := s[..|s| - 1], s[|s| - 1];
      assert s == init + [c];
      var (st1, e1) := Feed(st, init);
      FeedShape(st, init);
      FeedSnoc(st, init, c);
      StepShape(st1, c);
      WellFormedConcat(e1, Step(st1, c).1);
    }
  }

  /** The bookkeeping of one more step, over plain sequences. */
  lemma Regroup(f1: seq<char>, f2: seq<char>, h1: seq<char>, h2: seq<char>, h0: seq<char>, d1: seq<char>, d: seq<char>)
    requires f1 + h1 == h0 + d1 && f2 + h2 == h1 + d
    ensures (f1 + f2) + h2 == h0 + (d1 + d)
  {
    calc {
      (f1 + f2) + h2;
      f1 + (f2 + h2);
      (f1 + h1) + d;
    }
  }

  lemma Associate(a: seq<char>, b: seq<char>, c: seq<char>)
    ensures (a + b) + c == a + (b + c)
  {
  }

  /**
   * No byte is lost: for NUL-free input, the events handed out so far
   * followed by what the parser still holds spell the held bytes and the
   * input, carriage returns removed.
   */
  lemma {:induction false} FeedConserves(st: PState, s: seq<char>)
    requires Inv(st) && NoNul(s)
    ensures Flatten(Feed(st, s).1) + Held(Feed(st, s).0) == Held(st) + DropCR(s)
    decreases |s|
  {
    if s != [] {
      var init, c := s[..|s| - 1], s[|s| - 1];
      assert s == init + [c];
      var (st1, e1) := Feed(st, init);
      FeedShape(st, init);
      FeedConserves(st, init);
      FeedSnoc(st, init, c);
      var (st2, e2) := Step(st1, c);
      StepConserves(st1, c);
      FlattenConcat(e1, e2);
      DropCRSnoc(init, c);
      var d := if c == '\r' then [] else [c];
      Regroup(Flatten(e1), Flatten(e2), Held(st1), Held(st2), Held(st), DropCR(init), d);
    }
  }

  /**
   * A whole push from the initial state: the events and the unfinished
   * annotation prefix together are the input without its carriage returns,
   * console events are never empty, and the console buffer is left empty.
   */
  lemma RunConserves(s: seq<char>)
    requires NoNul(s)
    ensures WellFormed(Run(Initial, s).1) && Run(Initial, s).0.console == []
    ensures Flatten(Run(Initial, s).1) + Pending(Run(Initial, s).0) == DropCR(s)
  {
    var (st1, e1) := Feed(Initial, s);
    var (st2, e2) := Flush(st1);
    assert Run(Initial, s) == (st2, e1 + e2);
    FeedFromInitial(s);
    assert WellFormed(e2) && Pending(st2) == Pending(st1) by {
      FlushShape(st1);
      PendingOfShape(st2, st1);
    }
    assert Flatten(e2) == st1.console && st2.console == [] by {
      FlushConserves(st1);
    }
    assert WellFormed(e1 + e2) by {
      WellFormedConcat(e1, e2);
    }
    calc {
      Flatten(e1 + e2) + Pending(st2);
      { FlattenConcat(e1, e2); }
      (Flatten(e1) + st1.console) + Pending(st1);
      { Associate(Flatten(e1), st1.console, Pending(st1)); }
      Flatten(e1) + Held(st1);
    }
  }

  /**
   * Why the conservation lemmas ask for NUL-free input: the console event is
   * made with strndup, which stops at the first NUL, so a push of a NUL and
   * `x` hands out one empty console event and `x` is lost.
   */
  lemma NulTruncatesConsole()
    ensures Run(Initial, [NUL, 'x']).1 == [ConsoleOutput([])]
  {
    var s := [NUL, 'x'];
    FeedNulX(s);
    assert Flush(PState(GdbData, s, [])).1 == [ConsoleOutput(CPrefix(s))];
    assert CPrefix(s) == [];
  }

  /** A NUL from the initial state only goes into the console buffer. */
  lemma FeedNul(t: seq<char>)
    requires t == [NUL]
    ensures Feed(Initial, t) == (PState(GdbData, t, []), [])
  {
    var e: seq<char> := [];
    assert Feed(Initial, e) == (Initial, []);
    FeedSnoc(Initial, e, NUL);
    assert e + [NUL] == t;
    assert Step(Initial, NUL).1 == [] && Step(Initial, NUL).0 == PState(GdbData, t, []);
    assert Feed(Initial, e + [NUL]).0 == PState(GdbData, t, []);
    assert Feed(Initial, e + [NUL]).1 == [];
  }

  /** So does the `x` after it. */
  lemma FeedNulX(s: seq<char>)
    requires s == [NUL, 'x']
    ensures Feed(Initial, s) == (PState(GdbData, s, []), [])
  {
    var t := [NUL];
    FeedNul(t);
    FeedSnoc(Initial, t, 'x');
    assert t + ['x'] == s;
    var st1 := PState(GdbData, t, []);
    assert Step(st1, 'x').1 == [] && Step(st1, 'x').0 == PState(GdbData, s, []);
  }

  /** Feeding from the initial state: the events and what is held back are the input without its carriage returns. */
  lemma FeedFromInitial(s: seq<char>)
    requires NoNul(s)
    ensures Inv(Feed(Initial, s).0) && WellFormed(Feed(Initial, s).1)
    ensures Flatten(Feed(Initial, s).1) + Held(Feed(Initial, s).0) == DropCR(s)
  {
    FeedShape(Initial, s);
    FeedConserves(Initial, s);
    HeldNothing(Initial);
    assert [] + DropCR(s) == DropCR(s);
  }

  lemma PendingOfShape(a: PState, b: PState)
    requires a.state == b.state && a.text == b.text
    ensures Pending(a) == Pending(b)
  {
  }

  /** Feeding one more byte is one more step. */
  lemma FeedSnoc(st: PState, s: seq<char>, c: char)
    ensures Feed(st, s + [c]) == (Step(Feed(st, s).0, c).0, Feed(st, s).1 + Step(Feed(st, s).0, c).1)
  {
    assert (s + [c])[..|s + [c]| - 1] == s;
  }

  /** Feeding two pieces is feeding their concatenation. */
  lemma {:induction false} FeedConcat(st: PState, s: seq<char>, t: seq<char>)
    ensures Feed(st, s + t) == (Feed(Feed(st, s).0, t).0, Feed(st, s).1 + Feed(Feed(st, s).0, t).1)
    decreases |t|
  {
    if t == [] {
      assert s + t == s;
      assert Feed(st, s).1 + [] == Feed(st, s).1;
    } else {
      var init, c := t[..|t| - 1], t[|t| - 1];
      assert s + t == (s + init) + [c] && t == init + [c];
      FeedConcat(st, s, init);
      FeedConcatSnoc(st, s, init, c);
    }
  }

  lemma FeedConcatSnoc(st: PState, s: seq<char>, init: seq<char>, c: char)
    requires Feed(st, s + init) == (Feed(Feed(st, s).0, init).0, Feed(st, s).1 + Feed(Feed(st, s).0, init).1)
    ensures Feed(st, s + init + [c])
      == (Feed(Feed(st, s).0, init + [c]).0, Feed(st, s).1 + Feed(Feed(st, s).0, init + [c]).1)
  {
    var (st1, e1) := Feed(st, s);
    var (st2, e2) := Feed(st1, init);
    var (st3, e3) := Step(st2, c);
    assert Feed(st, s + init) == (st2, e1 + e2);
    FeedSnoc(st, s + init, c);
    assert Feed(st, s + init + [c]) == (st3, (e1 + e2) + e3);
    FeedSnoc(st1, init, c);
    assert Feed(st1, init + [c]) == (st3, e2 + e3);
    assert (e1 + e2) + e3 == e1 + (e2 + e3);
  }

  /** Inside an annotation, bytes other than '\n' and '\r' only extend its text. */
  lemma {:induction false} FeedText(st: PState, a: seq<char>)
    requires st.state == Text && '\n' !in a && '\r' !in a
    ensures Feed(st, a) == (st.(text := st.text + a), [])
    decreases |a|
  {
    if a == [] {
      assert st.text + a == st.text;
    } else {
      var init, c := a[..|a| - 1], a[|a| - 1];
      assert a == init + [c];
      FeedText(st, init);
      FeedSnoc(st, init, c);
      var st1 := st.(text := st.text + init);
      var none: seq<AnnotationOutput> := [];
      assert Step(st1, c) == (st1.(text := st1.text + [c]), none);
      assert none + none == none;
      assert st.text + init + [c] == st.text + a;
      assert Feed(st, a) == (st1.(text := st1.text + [c]), none);
    }
  }

  /** The prefix "\n\032\032" takes the data state to the text state, handing out nothing. */
  lemma FeedPrefix(console: seq<char>)
    ensures Feed(PState(GdbData, console, []), ['\n', CONTROL_Z, CONTROL_Z]) == (PState(Text, console, []), [])
  {
    var st := PState(GdbData, console, []);
    var none: seq<AnnotationOutput> := [];
    var empty: seq<char> := [];
    assert Feed(st, ['\n']) == (st.(state := NewLine), none) by {
      assert Feed(st, empty) == (st, none);
      FeedSnoc(st, empty, '\n');
      assert empty + ['\n'] == ['\n'] && none + none == none;
    }
    assert Feed(st, ['\n', CONTROL_Z]) == (st.(state := ControlZ), none) by {
      FeedSnoc(st, ['\n'], CONTROL_Z);
      assert ['\n'] + [CONTROL_Z] == ['\n', CONTROL_Z] && none + none == none;
    }
    FeedSnoc(st, ['\n', CONTROL_Z], CONTROL_Z);
    assert ['\n', CONTROL_Z] + [CONTROL_Z] == ['\n', CONTROL_Z, CONTROL_Z] && none + none == none;
  }

  /**
   * Framing: from the data state, "\n\032\032" + a + "\n" hands out the
   * pending console output (if any) and then one annotation whose text is
   * `a` (without the prefix or the newline) and whose kind is the table
   * entry of its first word, and leaves the parser empty in the data state.
   */
  lemma AnnotationFrame(console: seq<char>, a: seq<char>)
    requires NoNul(console) && NoNul(a) && '\n' !in a && '\r' !in a
    ensures Feed(PState(GdbData, console, []), ['\n', CONTROL_Z, CONTROL_Z] + a + ['\n'])
      == (PState(GdbData, [], []),
          (if console == [] then [] else [ConsoleOutput(console)]) + [Annotation(AnnotationKindOf(a), a)])
  {
    var st := PState(GdbData, console, []);
    var prefix := ['\n', CONTROL_Z, CONTROL_Z];
    FeedPrefix(console);
    FeedText(PState(Text, console, []), a);
    FeedConcat(st, prefix, a);
    assert [] + a == a;
    var t := PState(Text, console, a);
    assert Feed(st, prefix + a) == (t, []);
    FeedSnoc(st, prefix + a, '\n');
    FrameEnd(console, a);
    var none: seq<AnnotationOutput> := [];
    assert none + Step(t, '\n').1 == Step(t, '\n').1;
  }

  /** The closing '\n' of an annotation: pending console output, then the annotation. */
  lemma FrameEnd(console: seq<char>, a: seq<char>)
    requires NoNul(console) && NoNul(a)
    ensures Step(PState(Text, console, a), '\n')
      == (PState(GdbData, [], []),
          (if console == [] then [] else [ConsoleOutput(console)]) + [Annotation(AnnotationKindOf(a), a)])
  {
    var t := PState(Text, console, a);
    CPrefixOfNoNul(console);
    CPrefixOfNoNul(a);
    var pending: seq<AnnotationOutput> := if console == [] then [] else [ConsoleOutput(console)];
    assert Flush(t) == (t.(console := []), pending);
  }
}

=== FILE: chain.dfy ===
/**
 * The singly linked lists of the parse trees and the helper that appends
 * to them (append_gdbwire_mi_output and append_gdbwire_mi_result in
 * gdbwire_mi_pt.c, append_gdbmi_output and append_gdbmi_result in
 * gdbmi_pt.c -- four copies of one function over different node types).
 *
 * A node is a heap object with a `next` pointer; a list is given by its
 * head, and the ghost sequence of its nodes says which objects it is made
 * of, in order.
 */
module Chain {

  /** A list node: the record it carries and the pointer to the next node. */
  class Node<T> {
    const value: T
    var next: Node?<T>

    constructor Init(v: T)
      ensures value == v && next == null
    {
      value := v;
      next := null;
    }
  }

  /**
   * `head` starts a NULL-terminated list made of exactly `nodes`, each
   * once, in order (which rules out a cycle).
   */
  ghost predicate IsChain<T>(head: Node?<T>, nodes: seq<Node<T>>)
    reads set n | n in nodes
  {
    (nodes == [] <==> head == null)
    && (nodes != [] ==> head == nodes[0] && nodes[|nodes| - 1].next == null)
    && (forall i :: 0 <= i < |nodes| - 1 ==> nodes[i].next == nodes[i + 1])
    && (forall i, j :: 0 <= i < j < |nodes| ==> nodes[i] != nodes[j])
  }

  /** The records a list carries, front to back. */
  ghost function Values<T>(nodes: seq<Node<T>>): (vs: seq<T>)
    ensures |vs| == |nodes| && forall i :: 0 <= i < |nodes| ==> vs[i] == nodes[i].value
  {
    if nodes == [] then [] else [nodes[0].value] + Values(nodes[1..])
  }

  /**
   * Append the list `item` to the list `list` and return the head of the
   * result: NULL for a NULL item whatever the list, the item for a NULL
   * list, otherwise `list`, whose old tail now points at `item`. Only that
   * tail's `next` is written.
   */
  method Append<T>(list: Node?<T>, item: Node?<T>, ghost listNodes: seq<Node<T>>, ghost itemNodes: seq<Node<T>>)
    returns (r: Node?<T>)
    requires IsChain(list, listNodes) && IsChain(item, itemNodes)
    requires forall m, n :: m in listNodes && n in itemNodes ==> m != n
    modifies if item == null || list == null then {} else {listNodes[|listNodes| - 1]}
    ensures item == null ==> r == null
    ensures item != null && list == null ==> r == item
    ensures item != null ==> IsChain(r, listNodes + itemNodes)
    ensures item != null ==> forall nodes :: IsChain(r, nodes) ==> Values(nodes) == Values(listNodes) + Values(itemNodes)
  {
    if item == null {
      return null;
    }
    if list == null {
      assert listNodes + itemNodes == itemNodes;
      r := item;
    } else {
      Link(list, item, listNodes, itemNodes);
      r := list;
    }
    ValuesConcat(listNodes, itemNodes);
    forall nodes | IsChain(r, nodes)
      ensures Values(nodes) == Values(listNodes) + Values(itemNodes)
    {
      ChainUnique(r, nodes, listNodes + itemNodes);
    }
  }

  /** Both lists non-empty: walk to the list's tail and point it at the item. */
  method Link<T>(list: Node<T>, item: Node<T>, ghost listNodes: seq<Node<T>>, ghost itemNodes: seq<Node<T>>)
    requires IsChain(list, listNodes) && IsChain(item, itemNodes)
    requires forall m, n :: m in listNodes && n in itemNodes ==> m != n
    modifies listNodes[|listNodes| - 1]
    ensures IsChain(list, listNodes + itemNodes)
  {
    var cur := Tail(list, listNodes);
    ghost var last := itemNodes[|itemNodes| - 1];
    assert forall k :: 0 <= k < |listNodes| - 1 ==> listNodes[k] != cur;
    assert forall k :: 0 <= k < |itemNodes| ==> itemNodes[k] != cur by {
      forall k | 0 <= k < |itemNodes|
        ensures itemNodes[k] != cur
      {
        assert itemNodes[k] in itemNodes && cur in listNodes;
      }
    }
    cur.next := item;
    assert last.next == null;
    ChainJoin(listNodes, itemNodes);
  }

  /** The walk to the last node of a non-empty list, following `next` until it is NULL. */
  method Tail<T>(list: Node<T>, ghost nodes: seq<Node<T>>) returns (cur: Node<T>)
    requires IsChain(list, nodes)
    ensures cur == nodes[|nodes| - 1]
  {
    cur := list;
    ghost var i := 0;
    while cur.next != null
      invariant 0 <= i < |nodes| && cur == nodes[i]
      invariant i < |nodes| - 1 ==> cur.next == nodes[i + 1]
      decreases |nodes| - i
    {
      cur := cur.next;
      i := i + 1;
    }
  }

  /** The nodes after the head of a chain make the chain that starts at the head's `next`. */
  lemma ChainRest<T>(head: Node?<T>, nodes: seq<Node<T>>)
    requires IsChain(head, nodes) && nodes != []
    ensures IsChain(nodes[0].next, nodes[1..])
  {
    if |nodes| > 1 {
      assert nodes[1..][0] == nodes[1];
    }
  }

  /** A head determines its chain: two node sequences that both start at it are the same. */
  lemma {:induction false} ChainUnique<T>(head: Node?<T>, a: seq<Node<T>>, b: seq<Node<T>>)
    requires IsChain(head, a) && IsChain(head, b)
    ensures a == b
    decreases |a|
  {
    if a != [] {
      ChainRest(head, a);
      ChainRest(head, b);
      ChainUnique(a[0].next, a[1..], b[1..]);
      assert a == [a[0]] + a[1..] && b == [b[0]] + b[1..];
    }
  }

  /** Two disjoint chains, the first one's tail pointing at the second one's head, make one chain. */
  lemma ChainJoin<T>(a: seq<Node<T>>, b: seq<Node<T>>)
    requires a != [] && b != []
    requires forall k :: 0 <= k < |a| - 1 ==> a[k].next == a[k + 1]
    requires forall k :: 0 <= k < |b| - 1 ==> b[k].next == b[k + 1]
    requires a[|a| - 1].next == b[0] && b[|b| - 1].next == null
    requires forall k, l :: 0 <= k < l < |a| ==> a[k] != a[l]
    requires forall k, l :: 0 <= k < l < |b| ==> b[k] != b[l]
    requires forall m, n :: m in a && n in b ==> m != n
    ensures IsChain(a[0], a + b)
  {
    var all := a + b;
    assert all[|all| - 1] == b[|b| - 1];
    forall k, l | 0 <= k < l < |all|
      ensures all[k] != all[l]
    {
      if l < |a| {
        assert all[k] == a[k] && all[l] == a[l];
      } else if k >= |a| {
        assert all[k] == b[k - |a|] && all[l] == b[l - |a|];
      } else {
        assert all[k] in a && all[l] in b;
      }
    }
    forall k | 0 <= k < |all| - 1
      ensures all[k].next == all[k + 1]
    {
      if k < |a| - 1 {
        assert all[k] == a[k] && all[k + 1] == a[k + 1];
      } else if k >= |a| {
        assert all[k] == b[k - |a|] && all[k + 1] == b[k + 1 - |a|];
      }
    }
  }

  lemma ValuesConcat<T>(a: seq<Node<T>>, b: seq<Node<T>>)
    ensures Values(a + b) == Values(a) + Values(b)
  {
  }
}

=== FILE: cstr.dfy ===
/**
 * The C string conventions the library relies on.
 *
 * A C string argument is modelled by the bytes it points at; what C sees of
 * it (strlen, strdup, strndup, strcmp, a flex scan buffer) is the part before
 * the first NUL byte, `CPrefix`.
 */
module CStr {

  datatype Option<+T> = None | Some(value: T)

  const NUL: char := '\0'

  predicate NoNul(s: seq<char>) {
    forall i :: 0 <= i < |s| ==> s[i] != NUL
  }

  /** The bytes of `s` before its first NUL (all of `s` when it has none). */
  function CPrefix(s: seq<char>): (r: seq<char>)
    ensures |r| <= |s| && r == s[..|r|]
    ensures NoNul(r)
    ensures |r| < |s| ==> s[|r|] == NUL
  {
    if s == [] || s[0] == NUL then [] else [s[0]] + CPrefix(s[1..])
  }

  /** A NUL-free sequence is its own C string. */
  lemma {:induction false} CPrefixOfNoNul(s: seq<char>)
    requires NoNul(s)
    ensures CPrefix(s) == s
  {
    if s != [] {
      CPrefixOfNoNul(s[1..]);
    }
  }

  /** Appending a NUL terminator does not change what C sees. */
  lemma {:induction false} CPrefixTerminated(s: seq<char>)
    ensures CPrefix(s + [NUL]) == CPrefix(s)
  {
    if s != [] && s[0] != NUL {
      assert (s + [NUL])[1..] == s[1..] + [NUL];
      CPrefixTerminated(s[1..]);
    }
  }

  lemma NoNulConcat(a: seq<char>, b: seq<char>)
    requires NoNul(a) && NoNul(b)
    ensures NoNul(a + b)
  {
  }
}

=== FILE: gdbmi_parser.dfy ===
/**
 * The legacy GDB/MI framer (lib/gdbmi/gdbmi_parser.c).
 *
 * Like the current framer it buffers pushed text and cuts lines ended by
 * `\n`, `\r` or `\r\n` from the front of the buffer, but each push parses
 * at most ONE line, and a failed parse is not reported to the caller: the
 * push still returns 0.
 *
 * The generated lexer and push parser deliver their outputs to the client
 * callbacks from inside the grammar actions; here the grammar is a function
 * from a line to what it delivers, or None when the push parser stops in a
 * state other than 0 or YYPUSH_MORE (`parse_failed`).
 */
module GdbmiParser {
  import opened CStr
  import opened GdbwireString
  import MiParser
  import MiParserProperties

  /** The legacy lexer and push parser, applied to one line. */
  type Grammar<T> = seq<char> -> Option<T>

  /** What a parse delivers to the callbacks: nothing when it failed. */
  function Delivered<T>(g: Grammar<T>, line: seq<char>): (d: seq<T>)
    ensures g(line).None? ==> d == []
    ensures g(line).Some? ==> d == [g(line).value]
  {
    if g(line).Some? then [g(line).value] else []
  }

  /**
   * The step a push takes once the text is appended: cut the first line
   * out of `buf`, if there is one, and parse it. Gives the result code,
   * what the callbacks receive, and what stays buffered.
   */
  function Cut<T>(g: Grammar<T>, buf: seq<char>): (r: (int, seq<T>, seq<char>))
    ensures r.0 == 0 && |r.1| <= 1
    ensures r.2 == buf[MiParser.LineLength(buf)..]
    ensures MiParser.HasLineEnding(buf) <==> |r.2| < |buf|
  {
    var n := MiParser.LineLength(buf);
    if n == 0 then (0, [], buf) else (0, Delivered(g, CPrefix(buf[..n])), buf[n..])
  }

  /** Cutting a buffer that holds a line, in terms of the copy the push makes of that line. */
  lemma CutFirstLine<T>(g: Grammar<T>, buf: seq<char>, copy: seq<char>)
    requires MiParser.LineLength(buf) > 0 && copy == buf[..MiParser.LineLength(buf)] + [NUL]
    ensures Cut(g, buf) == (0, Delivered(g, CPrefix(copy)), buf[MiParser.LineLength(buf)..])
  {
    CPrefixTerminated(buf[..MiParser.LineLength(buf)]);
  }

  /** One successful push of the C string `data` onto a buffer holding `buf`. */
  function Receive<T>(g: Grammar<T>, buf: seq<char>, data: seq<char>): (r: (int, seq<T>, seq<char>))
    ensures r.0 == 0 && |r.1| <= 1
    ensures MiParser.HasLineEnding(buf + CPrefix(data)) <==> |r.2| < |buf| + |CPrefix(data)|
  {
    Cut(g, buf + CPrefix(data))
  }

  /** A text without line endings, then `\n`: the first line ends right after the text. */
  lemma FirstLineOf(t: seq<char>, rest: seq<char>)
    requires !MiParser.HasLineEnding(t)
    ensures MiParser.LineLength(t + "\n" + rest) == |t| + 1
  {
    MiParserProperties.NoLineEnding(t);
    var s := t + "\n" + rest;
    var r := IndexOfAny(s, MiParser.LINE_ENDINGS);
    assert s[|t|] in MiParser.LINE_ENDINGS;
    assert forall j :: 0 <= j < |t| ==> s[j] == t[j];
    assert r == |t|;
  }

  /**
   * Unlike the current framer, one push parses only the first of the lines
   * it brings: pushing `t1\n` `t2\n` at once delivers the output of `t1\n`
   * and leaves `t2\n`, a complete line, in the buffer until the next push.
   */
  lemma OneLinePerPush<T>(g: Grammar<T>, t1: seq<char>, t2: seq<char>)
    requires NoNul(t1) && NoNul(t2)
    requires !MiParser.HasLineEnding(t1) && !MiParser.HasLineEnding(t2)
    requires g(t1 + "\n").Some?
    ensures Receive(g, [], t1 + "\n" + t2 + "\n") == (0, [g(t1 + "\n").value], t2 + "\n")
    ensures MiParser.HasLineEnding(Receive(g, [], t1 + "\n" + t2 + "\n").2)
  {
    var l1, l2 := t1 + "\n", t2 + "\n";
    assert t1 + "\n" + t2 + "\n" == l1 + l2;
    assert NoNul(l1) && NoNul(l2) by {
      NoNulConcat(t1, "\n");
      NoNulConcat(t2, "\n");
    }
    FirstLineOf(t1, l2);
    NoNulConcat(l1, l2);
    CutAfterLine(g, l1, l2);
    MiParserProperties.LineEndingAt(l2, |t2|);
  }

  /** A push onto an empty buffer whose data holds a first line and more. */
  lemma CutAfterLine<T>(g: Grammar<T>, l1: seq<char>, l2: seq<char>)
    requires NoNul(l1) && NoNul(l1 + l2) && 0 < |l1| == MiParser.LineLength(l1 + l2)
    ensures Receive(g, [], l1 + l2) == (0, Delivered(g, l1), l2)
  {
    CPrefixOfNoNul(l1 + l2);
    assert [] + (l1 + l2) == l1 + l2;
    SplitConcat(l1, l2);
    CPrefixOfNoNul(l1);
  }

  lemma SplitConcat(a: seq<char>, b: seq<char>)
    ensures (a + b)[..|a|] == a && (a + b)[|a|..] == b
  {
  }

  class GdbmiParser<T> {
    /** The text pushed and not yet consumed as lines. */
    const buffer: GdbString
    const grammar: Grammar<T>

    ghost predicate Valid()
      reads this, buffer
    {
      buffer.Valid()
    }

    ghost function Repr(): set<object>
      reads this, buffer
    {
      {buffer, buffer.data}
    }

    ghost function Pending(): seq<char>
      reads this, buffer, buffer.data
      requires Valid()
    {
      buffer.Contents()
    }

    /** The parser of gdbmi_parser_create: an empty buffer. */
    constructor Init(g: Grammar<T>)
      ensures Valid() && fresh(buffer) && fresh(buffer.data)
      ensures grammar == g && Pending() == []
    {
      buffer := new GdbString.Create();
      grammar := g;
    }

    /**
     * gdbmi_parser_parse_line: -1 for a null line; otherwise 0, with
     * `parseFailed` set when the grammar stopped in an unexpected state.
     */
    method ParseLine(line: Option<seq<char>>) returns (result: int, parseFailed: bool, delivered: seq<T>)
      ensures line.None? ==> result == -1 && delivered == []
      ensures line.Some? ==> result == 0 && delivered == Delivered(grammar, CPrefix(line.value))
      ensures line.Some? ==> (parseFailed <==> grammar(CPrefix(line.value)).None?)
    {
      if line.None? {
        return -1, false, [];
      }
      var parsed := grammar(CPrefix(line.value));
      parseFailed := parsed.None?;
      delivered := if parsed.Some? then [parsed.value] else [];
      result := 0;
    }
  }

  /** gdbmi_parser_create. */
  method Create<T>(g: Grammar<T>) returns (parser: GdbmiParser<T>)
    ensures fresh(parser) && fresh(parser.Repr()) && parser.Valid()
    ensures parser.grammar == g && parser.Pending() == []
  {
    parser := new GdbmiParser.Init(g);
  }

  /**
   * gdbmi_parser_push: -1 for a null parser or null data; otherwise append
   * the C string and, if the buffer now holds a line ending, cut out the
   * first line and parse it.
   */
  method Push<T>(parser: GdbmiParser?<T>, data: Option<seq<char>>) returns (result: int, delivered: seq<T>)
    requires parser != null ==> parser.Valid()
    modifies if parser == null then {} else parser.Repr()
    ensures parser != null ==> parser.Valid()
    ensures parser == null || data.None? ==> result == -1 && delivered == []
    ensures parser != null && data.None? ==> parser.Pending() == old(parser.Pending())
    ensures parser != null && data.Some? ==>
      (result, delivered, parser.Pending()) == Receive(parser.grammar, old(parser.Pending()), data.value)
  {
    if parser == null || data.None? {
      return -1, [];
    }
    delivered := [];
    result := AppendCStr(parser.buffer, data);
    if result == 0 {
      result, delivered := CutAndParse(parser);
    }
  }

  /** The `if (pos != size)` block of gdbmi_parser_push. */
  method CutAndParse<T>(parser: GdbmiParser<T>) returns (result: int, delivered: seq<T>)
    requires parser.Valid()
    modifies parser.Repr()
    ensures parser.Valid()
    ensures (result, delivered, parser.Pending()) == Cut(parser.grammar, old(parser.Pending()))
  {
    ghost var b := parser.Pending();
    result, delivered := 0, [];
    var text := parser.buffer.data[..parser.buffer.size];
    var size := parser.buffer.size;
    CPrefixOfNoNul(MiParser.LINE_ENDINGS);
    var pos := FindFirstOf(parser.buffer, Some(MiParser.LINE_ENDINGS));
    if pos == size {
      assert MiParser.LineLength(b) == 0;
    } else {
      var endPos := pos + 1;
      if text[pos] == '\r' && endPos < size && text[endPos] == '\n' {
        endPos := endPos + 1;
      }
      assert endPos == MiParser.LineLength(b);
      var command;
      result, command := MiParser.CutLine(parser.buffer, endPos);
      if result == 0 {
        var status;
        result, status, delivered := parser.ParseLine(Some(command.data[..command.size]));
        CutFirstLine(parser.grammar, b, command.Contents());
      }
    }
  }
}

=== FILE: gdbwire_result.dfy ===
/** The status codes of gdbwire_result.h. */
module Results {
  datatype GdbwireResult =
    | Ok      // the operation succeeded
    | Assert  // a GDBWIRE_ASSERT on the caller's input or an internal step failed
    | Logic   // an internal logic error
}

=== FILE: gdbwire_string.dfy ===
/**
 * The growable byte string under both GDB/MI parsers and the annotation
 * parser (gdbwire_string.c).
 *
 * The C functions take a possibly-null `struct gdbwire_string *`; here they
 * are module-level methods taking a `GdbString?`, so their null guards are
 * part of the model. A null `data`/`chars`/`cstr` pointer is `None`.
 */
module GdbwireString {
  import opened CStr

  /** One step of the capacity schedule: 0 -> 128, doubling below 4096, then +4096. */
  function Grow(capacity: nat): (r: nat)
    ensures r > capacity
  {
    if capacity == 0 then 128
    else if capacity < 4096 then capacity * 2
    else capacity + 4096
  }

  /** The capacities the schedule passes through: 0, 128, 256, ..., 4096, 8192, 12288, ... */
  ghost predicate Scheduled(c: nat) {
    c == 0 || c == 128 || c == 256 || c == 512 || c == 1024 || c == 2048
    || (c >= 4096 && c % 4096 == 0)
  }

  /** The capacity reached from `capacity` by growing only while `need` bytes do not fit. */
  function Fit(capacity: nat, need: nat): (r: nat)
    ensures r >= need && r >= capacity
    ensures need <= capacity <==> r == capacity
    decreases need - capacity
  {
    if need <= capacity then capacity else Fit(Grow(capacity), need)
  }

  lemma GrowScheduled(c: nat)
    requires Scheduled(c)
    ensures Scheduled(Grow(c))
  {
  }

  /** From a scheduled capacity, one growth step reaches the next scheduled capacity. */
  lemma GrowIsNext(c: nat, x: nat)
    requires Scheduled(c) && Scheduled(x) && x > c
    ensures x >= Grow(c)
  {
    if c >= 4096 {
      assert x >= 4096 && x % 4096 == 0 && c % 4096 == 0;
      assert x / 4096 > c / 4096;
    }
  }

  /**
   * The capacity schedule: growing until `need` bytes fit lands on the least
   * scheduled capacity that is at least the old capacity and at least `need`.
   */
  lemma {:induction false} FitIsLeastScheduled(c: nat, need: nat)
    requires Scheduled(c)
    ensures Scheduled(Fit(c, need))
    ensures forall x: nat :: Scheduled(x) && x >= c && x >= need ==> Fit(c, need) <= x
    decreases need - c
  {
    if need > c {
      GrowScheduled(c);
      FitIsLeastScheduled(Grow(c), need);
      forall x: nat | Scheduled(x) && x >= c && x >= need
        ensures Fit(c, need) <= x
      {
        GrowIsNext(c, x);
      }
    }
  }

  /** Appending one more byte grows the capacity at most once. */
  lemma {:induction false} FitStep(c: nat, m: nat)
    ensures Fit(c, m + 1) == if m + 1 <= Fit(c, m) then Fit(c, m) else Grow(Fit(c, m))
    decreases m - c
  {
    if m + 1 <= c {
    } else if m <= c {
      assert Fit(c, m) == c == m;
      assert Fit(Grow(c), m + 1) == Grow(c);
    } else {
      FitStep(Grow(c), m);
    }
  }

  /** Index of the first element of `s` that occurs in `chars`, or |s| when there is none. */
  function IndexOfAny(s: seq<char>, chars: seq<char>): (r: nat)
    ensures r <= |s|
    ensures forall j :: 0 <= j < r ==> s[j] !in chars
    ensures r < |s| ==> s[r] in chars
  {
    if s == [] then 0
    else if s[0] in chars then 0
    else 1 + IndexOfAny(s[1..], chars)
  }

  class GdbString {
    /** The bytes; may contain NUL characters. */
    var data: array<char>
    /** The number of bytes in use. */
    var size: nat
    /** The length of the allocation behind `data`. */
    var capacity: nat

    ghost predicate Valid()
      reads this
    {
      size <= capacity && data.Length == capacity && Scheduled(capacity)
    }

    /** The string's value: the first `size` bytes. */
    ghost function Contents(): seq<char>
      reads this, data
      requires Valid()
    {
      data[..size]
    }

    /** gdbwire_string_create: the calloc'ed state, then append_cstr(""). */
    constructor Create()
      ensures Valid() && fresh(data)
      ensures Contents() == [] && capacity == 128 && data[0] == NUL
    {
      data := new char[0];
      size := 0;
      capacity := 0;
      new;
      var r := AppendCStr(this, Some([]));
    }
  }

  /** The objects a string operation may write. */
  ghost function Frame(s: GdbString?): set<object?>
    reads s
  {
    if s == null then {} else {s, s.data}
  }

  /** gdbwire_string_increase_capacity: next capacity, then realloc (which keeps the bytes). */
  method IncreaseCapacity(s: GdbString) returns (r: int)
    requires s.Valid()
    modifies s
    ensures s.Valid() && fresh(s.data) && s.size == old(s.size)
    ensures s.capacity == Grow(old(s.capacity))
    ensures s.data[..old(s.capacity)] == old(s.data[..])
    ensures r == 0
  {
    GrowScheduled(s.capacity);
    s.capacity := Grow(s.capacity);
    var grown := new char[s.capacity];
    forall i | 0 <= i < s.data.Length {
      grown[i] := s.data[i];
    }
    s.data := grown;
    r := 0;
  }

  /** gdbwire_string_append_data: appends data[0..n), embedded NULs included. */
  method AppendData(s: GdbString?, data: Option<seq<char>>, n: nat) returns (r: int)
    requires s != null ==> s.Valid()
    requires data.Some? ==> n <= |data.value|
    modifies Frame(s)
    ensures s != null ==> s.Valid() && (s.data == old(s.data) || fresh(s.data))
    ensures r == (if s != null && data.Some? then 0 else -1)
    ensures r == 0 ==> s.Contents() == old(s.Contents()) + data.value[..n]
    ensures r == 0 ==> s.capacity == Fit(old(s.capacity), old(s.size) + n)
    ensures r != 0 && s != null ==> unchanged(s) && unchanged(s.data)
  {
    if s == null || data.None? {
      return -1;
    }
    r := 0;
    ghost var capacity0, size0, contents0 := s.capacity, s.size, s.Contents();
    var i := 0;
    while i < n
      invariant 0 <= i <= n
      invariant s.Valid() && (s.data == old(s.data) || fresh(s.data))
      invariant s.size == size0 + i
      invariant s.Contents() == contents0 + data.value[..i]
      invariant s.capacity == Fit(capacity0, size0 + i)
    {
      FitStep(capacity0, size0 + i);
      StoreNext(s, data.value[i]);
      assert data.value[..i + 1] == data.value[..i] + [data.value[i]];
      i := i + 1;
    }
  }

  /** One iteration of append_data's loop: grow when full, then store the byte at `size`. */
  method StoreNext(s: GdbString, b: char)
    requires s.Valid()
    modifies s, s.data
    ensures s.Valid() && (s.data == old(s.data) || fresh(s.data))
    ensures s.Contents() == old(s.Contents()) + [b]
    ensures s.capacity == if old(s.size) < old(s.capacity) then old(s.capacity) else Grow(old(s.capacity))
  {
    if s.size >= s.capacity {
      var r := IncreaseCapacity(s);
    }
    s.data[s.size] := b;
    s.size := s.size + 1;
  }

  /** gdbwire_string_append_char. */
  method AppendChar(s: GdbString?, c: char) returns (r: int)
    requires s != null ==> s.Valid()
    modifies Frame(s)
    ensures s != null ==> s.Valid() && (s.data == old(s.data) || fresh(s.data))
    ensures r == (if s != null then 0 else -1)
    ensures r == 0 ==> s.Contents() == old(s.Contents()) + [c]
    ensures r == 0 ==> s.capacity == Fit(old(s.capacity), old(s.size) + 1)
  {
    r := AppendData(s, Some([c]), 1);
  }

  /**
   * gdbwire_string_append_cstr: appends the C string and its terminator, then
   * takes the terminator back out of the size, so it sits just past the end.
   */
  method AppendCStr(s: GdbString?, cstr: Option<seq<char>>) returns (r: int)
    requires s != null ==> s.Valid()
    modifies Frame(s)
    ensures s != null ==> s.Valid() && (s.data == old(s.data) || fresh(s.data))
    ensures r == (if s != null && cstr.Some? then 0 else -1)
    ensures r == 0 ==> s.Contents() == old(s.Contents()) + CPrefix(cstr.value)
    ensures r == 0 ==> s.size < s.capacity && s.data[s.size] == NUL
    ensures r == 0 ==> s.capacity == Fit(old(s.capacity), old(s.size) + |CPrefix(cstr.value)| + 1)
    ensures r != 0 && s != null ==> unchanged(s) && unchanged(s.data)
  {
    if s != null && cstr.Some? {
      var bytes := CPrefix(cstr.value) + [NUL];
      r := AppendData(s, Some(bytes), |bytes|);
      assert bytes[..|bytes|] == bytes;
      s.size := s.size - 1;
    } else {
      r := -1;
    }
  }

  /** gdbwire_string_clear: empty again, capacity kept; a null string is ignored. */
  method Clear(s: GdbString?)
    requires s != null ==> s.Valid() && s.capacity > 0
    modifies Frame(s)
    ensures s != null ==> s.Valid() && s.data == old(s.data) && s.capacity == old(s.capacity)
    ensures s != null ==> s.Contents() == [] && s.data[0] == NUL
  {
    if s != null {
      s.size := 0;
      s.data[0] := NUL;
    }
  }

  /**
   * gdbwire_string_find_first_of: the first position whose byte is one of the
   * bytes of the C string `chars`; the size when there is none; 0 for a null
   * string or null `chars`. Embedded NULs in the string are scanned past.
   */
  method FindFirstOf(s: GdbString?, chars: Option<seq<char>>) returns (pos: nat)
    requires s != null ==> s.Valid()
    ensures s == null || chars.None? ==> pos == 0
    ensures s != null && chars.Some? ==> pos == IndexOfAny(s.Contents(), CPrefix(chars.value))
  {
    if s == null || chars.None? {
      return 0;
    }
    ghost var cs := CPrefix(chars.value);
    pos := 0;
    while pos < s.size
      invariant pos <= s.size
      invariant forall j :: 0 <= j < pos ==> s.data[j] !in cs
    {
      var c := s.data[pos];
      var k := 0;
      while k < |chars.value| && chars.value[k] != NUL
        invariant k <= |cs|
        invariant c !in cs[..k]
      {
        if c == chars.value[k] {
          assert c == cs[k];
          return;
        }
        k := k + 1;
      }
      assert cs[..k] == cs;
      pos := pos + 1;
    }
  }

  /**
   * gdbwire_string_erase: removes `count` bytes at `pos`, clipped to the end.
   * Fails, changing nothing, for a null string or `pos` not below the size.
   */
  method Erase(s: GdbString?, pos: nat, count: nat) returns (r: int)
    requires s != null ==> s.Valid()
    modifies Frame(s)
    ensures s != null ==> s.Valid() && s.data == old(s.data) && s.capacity == old(s.capacity)
    ensures r == (if s != null && pos < old(s.size) then 0 else -1)
    ensures r != 0 && s != null ==> unchanged(s) && unchanged(s.data)
    ensures r == 0 ==>
      var was := old(s.Contents());
      s.Contents() == was[..pos] + was[(if pos + count < |was| then pos + count else |was|)..]
  {
    if s == null || pos >= s.size {
      return -1;
    }
    ghost var was := s.data[..s.size];
    if pos + count >= s.size {
      s.data[pos] := NUL;
      s.size := pos;
      assert s.data[..s.size] == was[..pos];
    } else {
      ShiftLeft(s.data, pos, count, s.size);
      s.size := s.size - count;
    }
    r := 0;
  }

  /** The copy loop of gdbwire_string_erase: the bytes from `pos + count` up to `size` move down by `count`. */
  method ShiftLeft(data: array<char>, pos: nat, count: nat, size: nat)
    requires pos + count < size <= data.Length
    modifies data
    ensures data[..size - count] == old(data[..pos]) + old(data[pos + count..size])
  {
    ghost var was := data[..];
    var fromPos := pos + count;
    var to := pos;
    while fromPos < size
      invariant pos + count <= fromPos <= size
      invariant to == fromPos - count
      invariant forall k :: 0 <= k < pos ==> data[k] == was[k]
      invariant forall k :: pos <= k < to ==> data[k] == was[k + count]
      invariant forall k :: fromPos <= k < data.Length ==> data[k] == was[k]
    {
      data[to] := data[fromPos];
      fromPos := fromPos + 1;
      to := to + 1;
    }
    Shifted(data[..], was, pos, count, size);
  }

  lemma Shifted(now: seq<char>, was: seq<char>, pos: nat, count: nat, size: nat)
    requires pos + count <= size <= |now| == |was|
    requires forall k :: 0 <= k < pos ==> now[k] == was[k]
    requires forall k :: pos <= k < size - count ==> now[k] == was[k + count]
    ensures now[..size - count] == was[..pos] + was[pos + count..size]
  {
  }
}

=== FILE: mi_command.dfy ===
/**
 * Typed GDB/MI commands from result records (gdbwire_mi_command.c).
 *
 * Each handler checks the shape of a `^done` result record field by field,
 * with a GDBWIRE_ASSERT (result `Assert`, no command) on the first
 * deviation, and builds the command record on success.
 */
module MiCommand {
  import opened CStr
  import opened Results
  import opened MiTree

  datatype CommandKind =
    | BreakInfo
    | StackInfoFrame
    | FileListExecSourceFile
    | FileListExecSourceFiles

  /** A source file; `fullname` is absent when GDB did not print it. */
  datatype SourceFile = SourceFile(file: CString, fullname: Option<CString>)

  datatype MiCommand =
    /** -file-list-exec-source-file; `macroInfo` is present exactly when GDB printed macro-info. */
    | SourceFileCommand(line: int, file: CString, fullname: Option<CString>, macroInfo: Option<bool>)
    /** -file-list-exec-source-files; no files is an empty list (NULL in C). */
    | SourceFilesCommand(files: seq<SourceFile>)

  // ---------------------------------------------------------------------
  // atoi

  predicate IsSpace(c: char) {
    c == ' ' || c == '\t' || c == '\n' || c == 11 as char || c == 12 as char || c == '\r'
  }

  predicate IsDigit(c: char) {
    '0' <= c <= '9'
  }

  /** The number of leading white-space characters. */
  function SpaceRun(s: seq<char>): (r: nat)
    ensures r <= |s| && (forall i :: 0 <= i < r ==> IsSpace(s[i]))
    ensures r < |s| ==> !IsSpace(s[r])
  {
    if s == [] || !IsSpace(s[0]) then 0 else 1 + SpaceRun(s[1..])
  }

  /** The longest prefix made of decimal digits. */
  function Digits(s: seq<char>): (r: seq<char>)
    ensures |r| <= |s| && r == s[..|r|]
    ensures forall i :: 0 <= i < |r| ==> IsDigit(r[i])
    ensures |r| < |s| ==> !IsDigit(s[|r|])
  {
    if s == [] || !IsDigit(s[0]) then [] else [s[0]] + Digits(s[1..])
  }

  /** The value of a run of decimal digits, most significant first. */
  function DigitsValue(d: seq<char>): nat
    requires forall i :: 0 <= i < |d| ==> IsDigit(d[i])
  {
    if d == [] then 0 else 10 * DigitsValue(d[..|d| - 1]) + DigitValue(d[|d| - 1])
  }

  function DigitValue(c: char): nat
    requires IsDigit(c)
  {
    c as int - '0' as int
  }

  /** C's atoi: white space, an optional sign, then as many digits as there are (the rest is ignored). */
  function Atoi(s: seq<char>): (r: int)
    ensures (forall i :: 0 <= i < |s| ==> IsDigit(s[i])) ==> r == DigitsValue(s)
    ensures r < 0 ==> '-' in s
  {
    var t := s[SpaceRun(s)..];
    var v := if t != [] && t[0] == '-' then 0 - DigitsValue(Digits(t[1..]))
      else if t != [] && t[0] == '+' then DigitsValue(Digits(t[1..]))
      else DigitsValue(Digits(t));
    assert (forall i :: 0 <= i < |s| ==> IsDigit(s[i])) ==> v == DigitsValue(s) by {
      if forall i :: 0 <= i < |s| ==> IsDigit(s[i]) {
        DigitsOfAllDigits(s);
      }
    }
    assert v < 0 ==> s[SpaceRun(s)] == '-';
    v
  }

  /** The decimal numeral of `n`, as GDB prints a line number. */
  function Decimal(n: nat): (r: CString)
    ensures r != [] && forall i :: 0 <= i < |r| ==> IsDigit(r[i])
  {
    var d := ['0' + (n % 10) as char];
    if n < 10 then d else Decimal(n / 10) + d
  }

  /** The numeral of an integer, with a '-' for a negative one. */
  function Numeral(n: int): CString {
    if n < 0 then ['-'] + Decimal(-n) else Decimal(n)
  }

  lemma {:induction false} DigitsValueOfDecimal(n: nat)
    ensures DigitsValue(Decimal(n)) == n
  {
    var d := ['0' + (n % 10) as char];
    if n >= 10 {
      DigitsValueOfDecimal(n / 10);
      assert (Decimal(n / 10) + d)[..|Decimal(n)| - 1] == Decimal(n / 10);
    }
  }

  lemma DigitsOfAllDigits(s: seq<char>)
    requires forall i :: 0 <= i < |s| ==> IsDigit(s[i])
    ensures Digits(s) == s
  {
    assert |Digits(s)| == |s|;
  }

  /** atoi reads back every numeral. */
  lemma AtoiOfNumeral(n: int)
    ensures Atoi(Numeral(n)) == n
  {
    var m: nat := if n < 0 then -n else n;
    DigitsOfAllDigits(Decimal(m));
    DigitsValueOfDecimal(m);
    assert SpaceRun(Numeral(n)) == 0;
    if n < 0 {
      assert Numeral(n)[1..] == Decimal(m);
    } else {
      assert Numeral(n)[0] != '-' && Numeral(n)[0] != '+';
    }
  }

  // ---------------------------------------------------------------------
  // -file-list-exec-source-file

  /** A CSTRING result whose variable is `name` (strcmp equal): its value. */
  function StringField(r: MiResult, name: seq<char>): (v: Option<CString>)
    ensures v.Some? <==> r.value.CStringValue? && r.variable == Some(name)
    ensures v.Some? ==> v.value == r.value.cstring
  {
    if r.value.CStringValue? && r.variable.Some? && r.variable.value == name then Some(r.value.cstring)
    else None
  }

  const SourceFileFields: seq<seq<char>> := ["line", "file", "fullname", "macro-info"]

  /**
   * The shape GDB's answer to -file-list-exec-source-file has: `^done` with
   * line, file, then optionally fullname, then optionally macro-info ("0"
   * or "1"), each a string, in that order and nothing else.
   */
  predicate SourceFileShape(rr: ResultRecord) {
    && rr.resultClass == Done
    && 2 <= |rr.results| <= 4
    && (forall i :: 0 <= i < |rr.results| ==>
          rr.results[i].value.CStringValue? && rr.results[i].variable == Some(SourceFileFields[i]))
    && (|rr.results| == 4 ==> rr.results[3].value.cstring in {"0", "1"})
  }

  /** file_list_exec_source_file. */
  function ParseExecSourceFile(rr: ResultRecord): (r: (GdbwireResult, Option<MiCommand>))
    ensures r.0 == Ok <==> SourceFileShape(rr)
    ensures r.0 != Ok ==> r == (Assert, None)
    ensures r.0 == Ok ==>
      var fields := rr.results;
      r.1 == Some(SourceFileCommand(
        Atoi(fields[0].value.cstring),
        fields[1].value.cstring,
        if |fields| >= 3 then Some(fields[2].value.cstring) else None,
        if |fields| == 4 then Some(fields[3].value.cstring == "1") else None))
  {
    if rr.resultClass != Done || rr.results == [] then (Assert, None)
    else
      var fields := rr.results;
      var line := StringField(fields[0], "line");
      if line.None? || |fields| < 2 then (Assert, None)
      else
        var file := StringField(fields[1], "file");
        if file.None? then (Assert, None)
        else if |fields| == 2 then (Ok, Some(SourceFileCommand(Atoi(line.value), file.value, None, None)))
        else
          var fullname := StringField(fields[2], "fullname");
          if fullname.None? then (Assert, None)
          else if |fields| == 3 then (Ok, Some(SourceFileCommand(Atoi(line.value), file.value, fullname, None)))
          else
            var macroInfo := StringField(fields[3], "macro-info");
            assert macroInfo.Some? && |macroInfo.value| == 1 ==> macroInfo.value == [macroInfo.value[0]];
            assert macroInfo.Some? ==> (macroInfo.value in {"0", "1"} <==>
              |macroInfo.value| == 1 && (macroInfo.value[0] == '0' || macroInfo.value[0] == '1'));
            if macroInfo.None? || |macroInfo.value| != 1 || (macroInfo.value[0] != '0' && macroInfo.value[0] != '1') then
              (Assert, None)
            else if |fields| > 4 then (Assert, None)
            else (Ok, Some(SourceFileCommand(Atoi(line.value), file.value, fullname, Some(macroInfo.value[0] == '1'))))
  }

  /** The result record GDB prints for a source-file answer (macro-info only ever follows fullname). */
  function SourceFileRecord(line: int, file: CString, fullname: Option<CString>, macroInfo: Option<bool>): ResultRecord
    requires macroInfo.Some? ==> fullname.Some?
  {
    var base := [MiResult(Some("line"), CStringValue(Numeral(line))), MiResult(Some("file"), CStringValue(file))];
    var withName := if fullname.Some? then base + [MiResult(Some("fullname"), CStringValue(fullname.value))] else base;
    var withMacro := if macroInfo.Some? then
        withName + [MiResult(Some("macro-info"), CStringValue(if macroInfo.value then "1" else "0"))]
      else withName;
    ResultRecord(None, Done, withMacro)
  }

  /** Round trip: the command is read back from the record GDB would print for it. */
  lemma ParseSourceFileRecord(line: int, file: CString, fullname: Option<CString>, macroInfo: Option<bool>)
    requires macroInfo.Some? ==> fullname.Some?
    ensures ParseExecSourceFile(SourceFileRecord(line, file, fullname, macroInfo))
      == (Ok, Some(SourceFileCommand(line, file, fullname, macroInfo)))
  {
    var rr := SourceFileRecord(line, file, fullname, macroInfo);
    assert SourceFileShape(rr);
    AtoiOfNumeral(line);
    if macroInfo.Some? {
      assert |rr.results| == 4 && rr.results[3].value.cstring == (if macroInfo.value then "1" else "0");
    } else if fullname.Some? {
      assert |rr.results| == 3;
    } else {
      assert |rr.results| == 2;
    }
  }

  // ---------------------------------------------------------------------
  // -file-list-exec-source-files

  /** One element of the files list: a tuple of file and an optional fullname. */
  predicate SourceFileTuple(r: MiResult) {
    && r.value.Tuple?
    && 1 <= |r.value.members| <= 2
    && r.value.members[0].value.CStringValue? && r.value.members[0].variable == Some("file")
    && (|r.value.members| == 2 ==>
          r.value.members[1].value.CStringValue? && r.value.members[1].variable == Some("fullname"))
  }

  function ToSourceFile(r: MiResult): SourceFile
    requires SourceFileTuple(r)
  {
    var m := r.value.members;
    SourceFile(m[0].value.cstring, if |m| == 2 then Some(m[1].value.cstring) else None)
  }

  /** The shape of GDB's answer to -file-list-exec-source-files: `^done,files=[...]` of file tuples. */
  predicate SourceFilesShape(rr: ResultRecord) {
    && rr.resultClass == Done
    && |rr.results| == 1
    && rr.results[0].value.List? && rr.results[0].variable == Some("files")
    && forall i :: 0 <= i < |rr.results[0].value.elements| ==> SourceFileTuple(rr.results[0].value.elements[i])
  }

  /** The checks of one loop iteration of file_list_exec_source_files. */
  function SourceFileOf(r: MiResult): (f: Option<SourceFile>)
    ensures f.Some? <==> SourceFileTuple(r)
    ensures f.Some? ==> f.value == ToSourceFile(r)
  {
    if !r.value.Tuple? || r.value.members == [] then None
    else
      var tuple := r.value.members;
      var file := StringField(tuple[0], "file");
      if file.None? then None
      else if |tuple| == 1 then Some(SourceFile(file.value, None))
      else
        var fullname := StringField(tuple[1], "fullname");
        if fullname.None? || |tuple| > 2 then None
        else Some(SourceFile(file.value, fullname))
  }

  /** The files of a list, element by element, or None at the first malformed element. */
  function SourceFiles(items: seq<MiResult>): (r: Option<seq<SourceFile>>)
    ensures r.Some? <==> forall i :: 0 <= i < |items| ==> SourceFileTuple(items[i])
    ensures r.Some? ==> |r.value| == |items| && forall i :: 0 <= i < |items| ==> r.value[i] == ToSourceFile(items[i])
  {
    if items == [] then Some([])
    else
      var init := SourceFiles(items[..|items| - 1]);
      var last := SourceFileOf(items[|items| - 1]);
      if init.None? || last.None? then None
      else Some(init.value + [last.value])
  }

  /** What file_list_exec_source_files computes. */
  function SourceFilesResult(rr: ResultRecord): (r: (GdbwireResult, Option<MiCommand>))
    ensures r.0 == Ok <==> SourceFilesShape(rr)
    ensures r.0 != Ok ==> r == (Assert, None)
    ensures r.0 == Ok ==>
      var items := rr.results[0].value.elements;
      r.1.Some? && r.1.value.SourceFilesCommand? && |r.1.value.files| == |items|
      && forall i :: 0 <= i < |items| ==> r.1.value.files[i] == ToSourceFile(items[i])
  {
    if rr.resultClass != Done || rr.results == [] then (Assert, None)
    else if !rr.results[0].value.List? || rr.results[0].variable != Some("files") || |rr.results| > 1 then (Assert, None)
    else
      var files := SourceFiles(rr.results[0].value.elements);
      if files.None? then (Assert, None) else (Ok, Some(SourceFilesCommand(files.value)))
  }

  /** The result record GDB prints for a list of source files. */
  function SourceFilesRecord(files: seq<SourceFile>): ResultRecord {
    ResultRecord(None, Done, [MiResult(Some("files"), List(seq(|files|, i requires 0 <= i < |files| => FileTuple(files[i]))))])
  }

  function FileTuple(f: SourceFile): MiResult {
    var file := MiResult(Some("file"), CStringValue(f.file));
    MiResult(None, Tuple(if f.fullname.Some? then [file, MiResult(Some("fullname"), CStringValue(f.fullname.value))] else [file]))
  }

  /** Round trip: the files are read back, in order, from the record GDB would print for them. */
  lemma ParseSourceFilesRecord(files: seq<SourceFile>)
    ensures SourceFilesResult(SourceFilesRecord(files)) == (Ok, Some(SourceFilesCommand(files)))
  {
    var rr := SourceFilesRecord(files);
    assert SourceFilesShape(rr);
    var r := SourceFilesResult(rr);
    assert r.1.value.files == files;
  }

  // ---------------------------------------------------------------------
  // The handlers as written: a missing variable or an empty tuple is a
  // NULL pointer the C code dereferences (strcmp(NULL, ...), tuple->kind).

  /** What a handler does as written: return, or dereference a NULL pointer. */
  datatype Outcome = Returns(result: GdbwireResult, command: Option<MiCommand>) | NullDereference

  /** One check as written: passed with a value, failed a GDBWIRE_ASSERT, or dereferenced NULL. */
  datatype Scan<T> = Scanned(value: T) | Rejected | Crashed

  /** The kind check, then strcmp(variable, name), which reads through a NULL variable. */
  function StringFieldAsWritten(r: MiResult, name: seq<char>): (v: Scan<CString>)
    ensures v.Scanned? <==> StringField(r, name).Some?
    ensures v.Scanned? ==> v.value == r.value.cstring
    ensures v.Crashed? <==> r.value.CStringValue? && r.variable.None?
  {
    if !r.value.CStringValue? then Rejected
    else if r.variable.None? then Crashed
    else if r.variable.value == name then Scanned(r.value.cstring)
    else Rejected
  }

  /** file_list_exec_source_file as written. */
  function ParseExecSourceFileAsWritten(rr: ResultRecord): (o: Outcome)
    ensures o.Returns? ==> (o.result == Ok <==> o.command.Some?)
    ensures o.NullDereference? ==>
      rr.resultClass == Done && exists i :: 0 <= i < |rr.results| && rr.results[i].variable.None?
  {
    if rr.resultClass != Done || rr.results == [] then Returns(Assert, None)
    else
      var fields := rr.results;
      var line := StringFieldAsWritten(fields[0], "line");
      if line.Crashed? then NullDereference
      else if line.Rejected? || |fields| < 2 then Returns(Assert, None)
      else
        var file := StringFieldAsWritten(fields[1], "file");
        if file.Crashed? then NullDereference
        else if file.Rejected? then Returns(Assert, None)
        else if |fields| == 2 then Returns(Ok, Some(SourceFileCommand(Atoi(line.value), file.value, None, None)))
        else
          var fullname := StringFieldAsWritten(fields[2], "fullname");
          if fullname.Crashed? then NullDereference
          else if fullname.Rejected? then Returns(Assert, None)
          else if |fields| == 3 then
            Returns(Ok, Some(SourceFileCommand(Atoi(line.value), file.value, Some(fullname.value), None)))
          else
            var macroInfo := StringFieldAsWritten(fields[3], "macro-info");
            if macroInfo.Crashed? then NullDereference
            else if macroInfo.Rejected? || |macroInfo.value| != 1
              || (macroInfo.value[0] != '0' && macroInfo.value[0] != '1') then Returns(Assert, None)
            else if |fields| > 4 then Returns(Assert, None)
            else Returns(Ok, Some(SourceFileCommand(Atoi(line.value), file.value, Some(fullname.value),
                                                    Some(macroInfo.value[0] == '1'))))
  }

  /** Where the code as written returns, it returns what the handler with NULL checks returns; it crashes only on records that handler rejects. */
  lemma ExecSourceFileAsWrittenAgrees(rr: ResultRecord)
    ensures ParseExecSourceFileAsWritten(rr).Returns? ==>
      ParseExecSourceFileAsWritten(rr) == Returns(ParseExecSourceFile(rr).0, ParseExecSourceFile(rr).1)
    ensures ParseExecSourceFileAsWritten(rr).NullDereference? ==>
      ParseExecSourceFile(rr) == (Assert, None) && exists i :: 0 <= i < |rr.results| && rr.results[i].variable.None?
  {
  }

  /** `^done,"12"`: a key-less string where `line` is expected is dereferenced as written. */
  lemma ExecSourceFileKeylessCrashes()
    ensures ParseExecSourceFileAsWritten(ResultRecord(None, Done, [MiResult(None, CStringValue("12"))])) == NullDereference
    ensures ParseExecSourceFile(ResultRecord(None, Done, [MiResult(None, CStringValue("12"))])) == (Assert, None)
  {
  }

  /** One element of the files list as written: an empty tuple is read through its NULL member pointer. */
  function SourceFileAsWritten(r: MiResult): (f: Scan<SourceFile>)
    ensures f.Scanned? <==> SourceFileTuple(r)
    ensures f.Scanned? ==> f.value == ToSourceFile(r)
  {
    if !r.value.Tuple? then Rejected
    else if r.value.members == [] then Crashed
    else
      var tuple := r.value.members;
      var file := StringFieldAsWritten(tuple[0], "file");
      if file.Crashed? then Crashed
      else if file.Rejected? then Rejected
      else if |tuple| == 1 then Scanned(SourceFile(file.value, None))
      else
        var fullname := StringFieldAsWritten(tuple[1], "fullname");
        if fullname.Crashed? then Crashed
        else if fullname.Rejected? || |tuple| > 2 then Rejected
        else Scanned(SourceFile(file.value, Some(fullname.value)))
  }

  /** The while loop as written, front to back: the first failing element decides. */
  function SourceFilesAsWritten(items: seq<MiResult>): (r: Scan<seq<SourceFile>>)
    ensures r.Scanned? <==> forall i :: 0 <= i < |items| ==> SourceFileTuple(items[i])
    ensures r.Scanned? ==> |r.value| == |items| && forall i :: 0 <= i < |items| ==> r.value[i] == ToSourceFile(items[i])
  {
    if items == [] then Scanned([])
    else
      var head := SourceFileAsWritten(items[0]);
      if head.Crashed? then Crashed
      else if head.Rejected? then Rejected
      else
        var rest := SourceFilesAsWritten(items[1..]);
        if rest.Crashed? then Crashed
        else if rest.Rejected? then Rejected
        else Scanned([head.value] + rest.value)
  }

  /** file_list_exec_source_files as written. */
  function ParseExecSourceFilesAsWritten(rr: ResultRecord): (o: Outcome)
    ensures o.Returns? ==> (o.result == Ok <==> o.command.Some?)
    ensures o.NullDereference? ==>
      rr.resultClass == Done && rr.results != [] && rr.results[0].value.List? &&
      (rr.results[0].variable.None? || SourceFiles(rr.results[0].value.elements).None?)
  {
    if rr.resultClass != Done || rr.results == [] then Returns(Assert, None)
    else if !rr.results[0].value.List? then Returns(Assert, None)
    else if rr.results[0].variable.None? then NullDereference
    else if rr.results[0].variable.value != "files" || |rr.results| > 1 then Returns(Assert, None)
    else
      var files := SourceFilesAsWritten(rr.results[0].value.elements);
      if files.Crashed? then NullDereference
      else if files.Rejected? then Returns(Assert, None)
      else Returns(Ok, Some(SourceFilesCommand(files.value)))
  }

  /**
   * file_list_exec_source_files as written: the while loop walks the list,
   * one source file per tuple, reading each element without the NULL checks.
   */
  method ParseExecSourceFiles(rr: ResultRecord) returns (outcome: Outcome)
    ensures outcome == ParseExecSourceFilesAsWritten(rr)
  {
    if rr.resultClass != Done || rr.results == [] {
      return Returns(Assert, None);
    }
    var miResult := rr.results[0];
    if !miResult.value.List? {
      return Returns(Assert, None);
    }
    if miResult.variable.None? {
      return NullDereference;
    }
    if miResult.variable.value != "files" || |rr.results| > 1 {
      return Returns(Assert, None);
    }
    var items := miResult.value.elements;
    var files: seq<SourceFile> := [];
    var i := 0;
    while i < |items|
      invariant i <= |items|
      invariant SourceFilesAsWritten(items[..i]) == Scanned(files)
    {
      ScanStep(items, i, files);
      if !items[i].value.Tuple? {
        return Returns(Assert, None);
      }
      if items[i].value.members == [] {
        return NullDereference;
      }
      var tuple := items[i].value.members;
      if !tuple[0].value.CStringValue? {
        return Returns(Assert, None);
      }
      if tuple[0].variable.None? {
        return NullDereference;
      }
      if tuple[0].variable.value != "file" {
        return Returns(Assert, None);
      }
      var file := tuple[0].value.cstring;
      var fullname: Option<CString> := None;
      if |tuple| > 1 {
        if !tuple[1].value.CStringValue? {
          return Returns(Assert, None);
        }
        if tuple[1].variable.None? {
          return NullDereference;
        }
        if tuple[1].variable.value != "fullname" {
          return Returns(Assert, None);
        }
        fullname := Some(tuple[1].value.cstring);
      }
      if |tuple| > 2 {
        return Returns(Assert, None);
      }
      files := files + [SourceFile(file, fullname)];
      i := i + 1;
    }
    assert items[..i] == items;
    outcome := Returns(Ok, Some(SourceFilesCommand(files)));
  }

  /** One more element of the walk: it extends the files, or its failure is the whole list's. */
  lemma ScanStep(items: seq<MiResult>, i: nat, files: seq<SourceFile>)
    requires i < |items| && SourceFilesAsWritten(items[..i]) == Scanned(files)
    ensures var h := SourceFileAsWritten(items[i]);
      (h.Scanned? ==> SourceFilesAsWritten(items[..i + 1]) == Scanned(files + [h.value]))
      && (h.Crashed? ==> SourceFilesAsWritten(items) == Crashed)
      && (h.Rejected? ==> SourceFilesAsWritten(items) == Rejected)
  {
    var h := SourceFileAsWritten(items[i]);
    if h.Scanned? {
      ScanOne(items[i]);
      ScanPrefix(items[..i], [items[i]], files);
      assert items[..i] + [items[i]] == items[..i + 1];
    } else {
      var tail := items[i..];
      assert SourceFilesAsWritten(tail) == (if h.Crashed? then Crashed else Rejected) by {
        assert tail[0] == items[i];
      }
      ScanPrefix(items[..i], tail, files);
      assert items[..i] + tail == items;
    }
  }

  /** The walk over a single well-formed element. */
  lemma ScanOne(x: MiResult)
    requires SourceFileAsWritten(x).Scanned?
    ensures SourceFilesAsWritten([x]) == Scanned([SourceFileAsWritten(x).value])
  {
    var xs := [x];
    assert xs[0] == x && xs[1..] == [];
    assert SourceFilesAsWritten(xs[1..]) == Scanned([]);
    var h := SourceFileAsWritten(x).value;
    assert SourceFilesAsWritten(xs) == Scanned([h] + []);
    assert [h] + [] == [h];
  }

  /** Consing onto a concatenation. */
  lemma ConsAppend<T>(x: T, a: seq<T>, b: seq<T>)
    ensures [x] + (a + b) == ([x] + a) + b
  {
  }

  /** The walk over two stretches: a scanned first stretch leaves the outcome to the second. */
  lemma {:induction false} ScanPrefix(p: seq<MiResult>, q: seq<MiResult>, files: seq<SourceFile>)
    requires SourceFilesAsWritten(p) == Scanned(files)
    ensures SourceFilesAsWritten(p + q) ==
      match SourceFilesAsWritten(q)
      case Scanned(more) => Scanned(files + more)
      case Rejected => Rejected
      case Crashed => Crashed
    decreases |p|
  {
    if p == [] {
      assert p + q == q && files == [];
      assert forall more: seq<SourceFile> :: files + more == more;
    } else {
      var head := SourceFileAsWritten(p[0]);
      var rest := SourceFilesAsWritten(p[1..]);
      assert head.Scanned? && rest.Scanned? && files == [head.value] + rest.value;
      assert SourceFilesAsWritten(p + q) ==
        match SourceFilesAsWritten(p[1..] + q)
        case Scanned(tail) => Scanned([head.value] + tail)
        case Rejected => Rejected
        case Crashed => Crashed
      by {
        assert (p + q)[0] == p[0] && (p + q)[1..] == p[1..] + q;
      }
      ScanPrefix(p[1..], q, rest.value);
      match SourceFilesAsWritten(q)
      case Scanned(more) =>
        ConsAppend(head.value, rest.value, more);
      case Rejected =>
      case Crashed =>
    }
  }

  /** Where the loop as written returns, it returns what the checked loop returns; it crashes only on records that loop rejects. */
  lemma ExecSourceFilesAsWrittenAgrees(rr: ResultRecord)
    ensures ParseExecSourceFilesAsWritten(rr).Returns? ==>
      ParseExecSourceFilesAsWritten(rr) == Returns(SourceFilesResult(rr).0, SourceFilesResult(rr).1)
    ensures ParseExecSourceFilesAsWritten(rr).NullDereference? ==> SourceFilesResult(rr) == (Assert, None)
  {
    if rr.resultClass == Done && rr.results != [] && rr.results[0].value.List?
      && rr.results[0].variable == Some("files") && |rr.results| == 1 {
      var items := rr.results[0].value.elements;
      var w := SourceFilesAsWritten(items);
      var c := SourceFiles(items);
      if w.Scanned? {
        assert w.value == c.value;
      }
    }
  }

  /** `^done,files=[{}]`: the empty tuple is dereferenced as written; with the NULL check it is a GDBWIRE_ASSERT. */
  lemma ExecSourceFilesEmptyTupleCrashes()
    ensures ParseExecSourceFilesAsWritten(
      ResultRecord(None, Done, [MiResult(Some("files"), List([MiResult(None, Tuple([]))]))])) == NullDereference
    ensures SourceFilesResult(
      ResultRecord(None, Done, [MiResult(Some("files"), List([MiResult(None, Tuple([]))]))])) == (Assert, None)
  {
    var items := [MiResult(None, Tuple([]))];
    assert SourceFileAsWritten(items[0]) == Crashed;
    assert !SourceFileTuple(items[0]);
  }

  /** `^done,files=[{"a.c"}]`: a key-less tuple member reaches strcmp(NULL, "file") as written. */
  lemma ExecSourceFilesKeylessCrashes()
    ensures ParseExecSourceFilesAsWritten(
      ResultRecord(None, Done, [MiResult(Some("files"), List([MiResult(None, Tuple([MiResult(None, CStringValue("a.c"))]))]))]))
      == NullDereference
  {
    var items := [MiResult(None, Tuple([MiResult(None, CStringValue("a.c"))]))];
    assert SourceFileAsWritten(items[0]) == Crashed;
  }

  // ---------------------------------------------------------------------
  // gdbwire_get_mi_command

  /**
   * gdbwire_get_mi_command as written: GDBWIRE_ASSERT on a null record or a
   * null `out`; otherwise `*out` is cleared and the handler for `kind` runs,
   * the handlers as written, so a record with a key-less field or an empty
   * tuple where they expect one dereferences NULL. Kinds without a handler
   * succeed with no command.
   */
  method GetMiCommand(kind: CommandKind, resultRecord: Option<ResultRecord>, hasOut: bool)
    returns (outcome: Outcome)
    ensures resultRecord.None? || !hasOut ==> outcome == Returns(Assert, None)
    ensures resultRecord.Some? && hasOut ==>
      match kind
      case FileListExecSourceFile => outcome == ParseExecSourceFileAsWritten(resultRecord.value)
      case FileListExecSourceFiles => outcome == ParseExecSourceFilesAsWritten(resultRecord.value)
      case _ => outcome == Returns(Ok, None)
    ensures outcome.Returns? ==> (outcome.result == Ok || outcome.command == None)
    ensures outcome.Returns? && outcome.command.Some? ==>
      (kind == FileListExecSourceFile && outcome.command.value.SourceFileCommand?)
      || (kind == FileListExecSourceFiles && outcome.command.value.SourceFilesCommand?)
    // Where it returns, it returns what the handlers with NULL checks return;
    // where it dereferences NULL, those handlers fail the record.
    ensures resultRecord.Some? && hasOut && kind == FileListExecSourceFile ==>
      if outcome.Returns? then (outcome.result, outcome.command) == ParseExecSourceFile(resultRecord.value)
      else ParseExecSourceFile(resultRecord.value) == (Assert, None)
    ensures resultRecord.Some? && hasOut && kind == FileListExecSourceFiles ==>
      if outcome.Returns? then (outcome.result, outcome.command) == SourceFilesResult(resultRecord.value)
      else SourceFilesResult(resultRecord.value) == (Assert, None)
  {
    if resultRecord.None? || !hasOut {
      return Returns(Assert, None);
    }
    var rr := resultRecord.value;
    match kind
    case FileListExecSourceFile =>
      outcome := ParseExecSourceFileAsWritten(rr);
      ExecSourceFileAsWrittenAgrees(rr);
    case FileListExecSourceFiles =>
      outcome := ParseExecSourceFiles(rr);
      ExecSourceFilesAsWrittenAgrees(rr);
    case _ =>
      outcome := Returns(Ok, None);
  }
}

=== FILE: mi_parser.dfy ===
/**
 * The GDB/MI line framer (gdbwire_mi_parser.c).
 *
 * Bytes pushed into the parser are appended to a buffer; every complete
 * line -- ended by `\n`, `\r` or `\r\n` -- is cut from the front of the
 * buffer and handed, as a C string, to the flex/bison GDB/MI grammar, and
 * the output the grammar builds is delivered to the client's callback with
 * a copy of the line.
 *
 * The grammar itself (the lexer and the push parser) is generated code and
 * is a parameter here: `Grammar` maps the text of a line to the output it
 * builds, or to None when the parse does not end in a state gdbwire accepts.
 * The callback is modelled by the sequence of outputs it receives.
 */
module MiParser {
  import opened CStr
  import opened Results
  import opened GdbwireString
  import opened MiTree

  /** The generated GDB/MI lexer and push parser, applied to one line. */
  type Grammar = seq<char> -> Option<MiOutputVariant>

  /** The characters that end a line. */
  const LINE_ENDINGS: seq<char> := "\r\n"

  predicate HasLineEnding(s: seq<char>) {
    IndexOfAny(s, LINE_ENDINGS) < |s|
  }

  /** One line: a single line ending (`\n`, `\r` or `\r\n`) at its end and none before. */
  predicate IsLine(l: seq<char>) {
    |l| > 0 && l[|l| - 1] in LINE_ENDINGS
    && (forall j :: 0 <= j < |l| - 2 ==> l[j] !in LINE_ENDINGS)
    && (|l| >= 2 && l[|l| - 2] in LINE_ENDINGS ==> l[|l| - 2] == '\r' && l[|l| - 1] == '\n')
  }

  /**
   * The length of the first line of `buf`, its line ending included, or 0
   * when `buf` holds no line ending. A `\r` that ends the buffer is a line
   * ending by itself: the `\n` that may follow it has not arrived.
   */
  function LineLength(buf: seq<char>): (n: nat)
    ensures n <= |buf|
    ensures n == 0 <==> !HasLineEnding(buf)
    ensures n > 0 ==> IsLine(buf[..n])
    ensures n > 0 && buf[n - 1] == '\r' ==> n == |buf| || buf[n] != '\n'
  {
    var pos := IndexOfAny(buf, LINE_ENDINGS);
    if pos == |buf| then 0
    else if buf[pos] == '\r' && pos + 1 < |buf| && buf[pos + 1] == '\n' then pos + 2
    else pos + 1
  }

  /**
   * The push loop on a buffer: cut the lines off one at a time and parse
   * each; the first line the grammar rejects stops the loop with `Assert`
   * (that line is already gone from the buffer). Gives the result, the
   * outputs delivered to the callback and what is left in the buffer.
   */
  function Drain(g: Grammar, buf: seq<char>): (r: (GdbwireResult, seq<MiOutput>, seq<char>))
    ensures r.0 == Ok || r.0 == Assert
    ensures r.0 == Ok ==> !HasLineEnding(r.2)
    ensures |r.2| <= |buf| && r.2 == buf[|buf| - |r.2|..]
    ensures forall o :: o in r.1 ==> g(o.line) == Some(o.variant)
    decreases |buf|
  {
    var n := LineLength(buf);
    if n == 0 then (Ok, [], buf)
    else
      var line := CPrefix(buf[..n]);
      match g(line)
      case None => (Assert, [], buf[n..])
      case Some(v) =>
        var rest := Drain(g, buf[n..]);
        (rest.0, [MiOutput(v, line)] + rest.1, rest.2)
  }

  /**
   * One push of `data` onto a parser whose buffer holds `buf`: the lines are
   * looked for only when `data` itself holds a line ending.
   */
  function Receive(g: Grammar, buf: seq<char>, data: seq<char>): (r: (GdbwireResult, seq<MiOutput>, seq<char>))
    ensures r.0 == Ok || r.0 == Assert
    ensures HasLineEnding(data) && r.0 == Ok ==> !HasLineEnding(r.2)
    ensures !HasLineEnding(data) ==> r == (Ok, [], buf + data)
  {
    if HasLineEnding(data) then Drain(g, buf + data) else (Ok, [], buf + data)
  }

  /** The lines of the outputs, end to end. */
  function Joined(outputs: seq<MiOutput>): seq<char> {
    if outputs == [] then [] else outputs[0].line + Joined(outputs[1..])
  }

  class MiParser {
    /** The bytes pushed and not yet consumed as lines. */
    const buffer: GdbString
    const grammar: Grammar

    ghost predicate Valid()
      reads this, buffer
    {
      buffer.Valid()
    }

    ghost function Repr(): set<object>
      reads this, buffer
    {
      {buffer, buffer.data}
    }

    ghost function Pending(): seq<char>
      reads this, buffer, buffer.data
      requires Valid()
    {
      buffer.Contents()
    }

    /** The parser state of gdbwire_mi_parser_create: an empty buffer. */
    constructor Init(g: Grammar)
      ensures Valid() && fresh(buffer) && fresh(buffer.data)
      ensures grammar == g && Pending() == []
    {
      buffer := new GdbString.Create();
      grammar := g;
    }

    /**
     * gdbwire_mi_parser_parse_line: run the grammar over the C string in
     * `line` and, when it yields an output, deliver it with a copy of the
     * line (strdup). A null line, or a parse that ends without an output,
     * is a GDBWIRE_ASSERT.
     */
    method ParseLine(line: Option<seq<char>>) returns (result: GdbwireResult, output: Option<MiOutput>)
      ensures result == Ok || result == Assert
      ensures result == Ok <==> line.Some? && grammar(CPrefix(line.value)).Some?
      ensures result == Ok ==> output.Some? && output.value.line == CPrefix(line.value)
                               && grammar(output.value.line) == Some(output.value.variant)
      ensures result != Ok ==> output.None?
    {
      if line.None? {
        return Assert, None;
      }
      var text := CPrefix(line.value);
      var parsed := grammar(text);
      if parsed.None? {
        return Assert, None;
      }
      return Ok, Some(MiOutput(parsed.value, text));
    }
  }

  /**
   * gdbwire_mi_parser_get_next_line: when the buffer holds a line ending,
   * copy the first line (with its ending and a NUL) into a new string and
   * erase it from the buffer; otherwise leave the buffer alone and give no
   * line.
   */
  method GetNextLine(buffer: GdbString?) returns (result: GdbwireResult, line: GdbString?)
    requires buffer != null ==> buffer.Valid()
    modifies Frame(buffer)
    ensures buffer == null ==> result == Assert && line == null
    ensures buffer != null ==> result == Ok && buffer.Valid() && buffer.data == old(buffer.data)
    ensures buffer != null && LineLength(old(buffer.Contents())) == 0 ==>
      line == null && buffer.Contents() == old(buffer.Contents())
    ensures buffer != null && LineLength(old(buffer.Contents())) > 0 ==>
      var n := LineLength(old(buffer.Contents()));
      line != null && fresh(line) && fresh(line.data) && line.Valid()
      && line.Contents() == old(buffer.Contents())[..n] + [NUL]
      && buffer.Contents() == old(buffer.Contents())[n..]
  {
    if buffer == null {
      return Assert, null;
    }
    result, line := Ok, null;
    var data := buffer.data[..buffer.size];
    var size := buffer.size;
    CPrefixOfNoNul(LINE_ENDINGS);
    var pos := FindFirstOf(buffer, Some(LINE_ENDINGS));
    if pos != size {
      var lineLength := if data[pos] == '\r' && pos + 1 < size && data[pos + 1] == '\n' then pos + 2 else pos + 1;
      assert lineLength == LineLength(data);
      var status;
      status, line := CutLine(buffer, lineLength);
    }
  }

  /**
   * The `if (pos != size)` block of get_next_line: copy the first `n` bytes
   * out, then erase them. The erase status both framers check is always 0
   * here, since the erase starts at position 0 of a non-empty buffer.
   */
  method CutLine(buffer: GdbString, n: nat) returns (status: int, line: GdbString)
    requires buffer.Valid() && 0 < n <= buffer.size
    modifies buffer, buffer.data
    ensures status == 0
    ensures buffer.Valid() && buffer.data == old(buffer.data)
    ensures fresh(line) && fresh(line.data) && line.Valid()
    ensures line.Contents() == old(buffer.Contents())[..n] + [NUL]
    ensures buffer.Contents() == old(buffer.Contents())[n..]
  {
    line := CopyLine(buffer.data[..buffer.size], n);
    status := Erase(buffer, 0, n);
  }

  /** The copy get_next_line makes: a new string holding the line and a NUL. */
  method CopyLine(data: seq<char>, n: nat) returns (line: GdbString)
    requires n <= |data|
    ensures fresh(line) && fresh(line.data) && line.Valid()
    ensures line.Contents() == data[..n] + [NUL]
  {
    line := new GdbString.Create();
    var status := AppendData(line, Some(data), n);
    status := AppendData(line, Some([NUL]), 1);
  }

  /** gdbwire_mi_parser_create: no parser without an output callback. */
  method Create(g: Grammar, hasOutputCallback: bool) returns (parser: MiParser?)
    ensures parser == null <==> !hasOutputCallback
    ensures parser != null ==> fresh(parser) && fresh(parser.Repr()) && parser.Valid()
                               && parser.grammar == g && parser.Pending() == []
  {
    if !hasOutputCallback {
      return null;
    }
    parser := new MiParser.Init(g);
  }

  /** The backward scan of push_data for a line ending among the `size` new bytes. */
  method ScanForLineEnding(d: seq<char>, size: nat) returns (hasNewline: bool)
    requires size <= |d|
    ensures hasNewline == HasLineEnding(d[..size])
  {
    hasNewline := false;
    var index: nat := size;
    while index > 0
      invariant index <= size
      invariant forall j :: index <= j < size ==> d[..size][j] !in LINE_ENDINGS
      decreases index
    {
      if d[index - 1] == '\n' || d[index - 1] == '\r' {
        assert d[..size][index - 1] in LINE_ENDINGS;
        return true;
      }
      index := index - 1;
    }
  }

  /** The outputs already delivered, followed by what draining the rest of the buffer gives. */
  function After(outputs: seq<MiOutput>, d: (GdbwireResult, seq<MiOutput>, seq<char>)): (GdbwireResult, seq<MiOutput>, seq<char>) {
    (d.0, outputs + d.1, d.2)
  }

  lemma AfterAfter(a: seq<MiOutput>, b: seq<MiOutput>, d: (GdbwireResult, seq<MiOutput>, seq<char>))
    ensures After(a, After(b, d)) == After(a + b, d)
  {
    assert a + (b + d.1) == (a + b) + d.1;
  }

  /** Draining a buffer that holds a line, in terms of the copy get_next_line makes of that line. */
  lemma DrainFirstLine(g: Grammar, buf: seq<char>, copy: seq<char>)
    requires LineLength(buf) > 0 && copy == buf[..LineLength(buf)] + [NUL]
    ensures g(CPrefix(copy)).None? ==> Drain(g, buf) == (Assert, [], buf[LineLength(buf)..])
    ensures g(CPrefix(copy)).Some? ==>
      Drain(g, buf) == After([MiOutput(g(CPrefix(copy)).value, CPrefix(copy))], Drain(g, buf[LineLength(buf)..]))
  {
    CPrefixTerminated(buf[..LineLength(buf)]);
  }

  /** The `for (;;)` loop of push_data: get and parse lines until none is left or one fails. */
  method ParseLines(parser: MiParser) returns (result: GdbwireResult, outputs: seq<MiOutput>)
    requires parser.Valid()
    modifies parser.Repr()
    ensures parser.Valid()
    ensures (result, outputs, parser.Pending()) == Drain(parser.grammar, old(parser.Pending()))
  {
    result, outputs := Ok, [];
    ghost var g := parser.grammar;
    ghost var start := parser.Pending();
    assert [] + Drain(g, start).1 == Drain(g, start).1;
    assert After([], Drain(g, start)) == Drain(g, start);
    while true
      invariant parser.Valid() && parser.buffer.data == old(parser.buffer.data)
      invariant Drain(g, start) == After(outputs, Drain(g, parser.Pending()))
      decreases |parser.Pending()|
    {
      ghost var before := parser.Pending();
      var line;
      result, line := GetNextLine(parser.buffer);
      if line == null {
        assert Drain(g, before) == (Ok, [], before);
        assert outputs + [] == outputs;
        return;
      }
      ghost var rest := parser.Pending();
      var copy := line.data[..line.size];
      DrainFirstLine(g, before, copy);
      var output;
      result, output := parser.ParseLine(Some(copy));
      if result != Ok {
        assert outputs + [] == outputs;
        return;
      }
      ghost var d := Drain(g, rest);
      AfterAfter(outputs, [output.value], d);
      outputs := outputs + [output.value];
    }
  }

  /**
   * gdbwire_mi_parser_push_data: GDBWIRE_ASSERT on a null parser or null
   * data; otherwise append the first `size` bytes and, when they hold a line
   * ending, parse every complete line in the buffer.
   */
  method PushData(parser: MiParser?, data: Option<seq<char>>, size: nat)
    returns (result: GdbwireResult, outputs: seq<MiOutput>)
    requires parser != null ==> parser.Valid()
    requires data.Some? ==> size <= |data.value|
    modifies if parser == null then {} else parser.Repr()
    ensures parser == null || data.None? ==> result == Assert && outputs == []
    ensures parser != null ==> parser.Valid()
    ensures parser != null && data.Some? ==>
      (result, outputs, parser.Pending()) == Receive(parser.grammar, old(parser.Pending()), data.value[..size])
  {
    if parser == null || data.None? {
      return Assert, [];
    }
    var hasNewline := ScanForLineEnding(data.value, size);
    var r := AppendData(parser.buffer, data, size);
    result, outputs := Ok, [];
    if hasNewline {
      result, outputs := ParseLines(parser);
    }
  }

  /** gdbwire_mi_parser_push: push_data with the bytes before the first NUL (strlen). */
  method Push(parser: MiParser?, data: seq<char>) returns (result: GdbwireResult, outputs: seq<MiOutput>)
    requires parser != null ==> parser.Valid()
    modifies if parser == null then {} else parser.Repr()
    ensures parser == null ==> result == Assert && outputs == []
    ensures parser != null ==> parser.Valid()
    ensures parser != null ==>
      (result, outputs, parser.Pending()) == Receive(parser.grammar, old(parser.Pending()), CPrefix(data))
  {
    result, outputs := PushData(parser, Some(data), |CPrefix(data)|);
  }
}

=== FILE: mi_parser_properties.dfy ===
/**
 * What the GDB/MI line framer guarantees across pushes: every output is made
 * from exactly one line, the lines put back together are the bytes pushed,
 * and how the bytes are cut into pushes does not matter unless a cut falls
 * between the `\r` and the `\n` of a `\r\n`.
 */
module MiParserProperties {
  import opened CStr
  import opened Results
  import opened MiTree
  import opened GdbwireString
  import opened MiParser

  /** A buffer holds a line ending exactly when one of its bytes is `\n` or `\r`. */
  lemma HasLineEndingIff(s: seq<char>)
    ensures HasLineEnding(s) <==> exists i :: 0 <= i < |s| && s[i] in LINE_ENDINGS
  {
    if !HasLineEnding(s) {
      NoLineEnding(s);
    }
  }

  lemma LineEndingAt(s: seq<char>, i: nat)
    requires i < |s| && s[i] in LINE_ENDINGS
    ensures HasLineEnding(s)
  {
  }

  lemma NoLineEnding(s: seq<char>)
    requires !HasLineEnding(s)
    ensures forall i :: 0 <= i < |s| ==> s[i] !in LINE_ENDINGS
  {
  }

  lemma HasLineEndingConcat(a: seq<char>, b: seq<char>)
    ensures HasLineEnding(a + b) <==> HasLineEnding(a) || HasLineEnding(b)
  {
    if HasLineEnding(a + b) {
      var i := IndexOfAny(a + b, LINE_ENDINGS);
      if i < |a| {
        assert a[i] == (a + b)[i];
        LineEndingAt(a, i);
      } else {
        assert b[i - |a|] == (a + b)[i];
        LineEndingAt(b, i - |a|);
      }
    }
    if HasLineEnding(a) {
      var i := IndexOfAny(a, LINE_ENDINGS);
      assert (a + b)[i] == a[i];
      LineEndingAt(a + b, i);
    }
    if HasLineEnding(b) {
      var i := IndexOfAny(b, LINE_ENDINGS);
      assert (a + b)[|a| + i] == b[i];
      LineEndingAt(a + b, |a| + i);
    }
  }

  /**
   * For NUL-free input every output's line is exactly one line of the
   * buffer, and when the push loop ends normally the lines followed by what
   * stays buffered are the buffer.
   */
  lemma {:induction false} DrainLines(g: Grammar, buf: seq<char>)
    requires NoNul(buf)
    ensures forall o :: o in Drain(g, buf).1 ==> IsLine(o.line)
    ensures Drain(g, buf).0 == Ok ==> Joined(Drain(g, buf).1) + Drain(g, buf).2 == buf
    decreases |buf|
  {
    var n := LineLength(buf);
    if n > 0 {
      var line := buf[..n];
      assert CPrefix(line) == line && IsLine(line) by {
        CPrefixOfNoNul(line);
      }
      if g(line).Some? {
        DrainParsedLine(g, buf, n, line);
        var rest := Drain(g, buf[n..]);
        var o := MiOutput(g(line).value, line);
        assert Drain(g, buf) == (rest.0, [o] + rest.1, rest.2);
        assert NoNul(buf[n..]) by {
          assert forall k :: 0 <= k < |buf[n..]| ==> buf[n..][k] == buf[n + k];
        }
        DrainLines(g, buf[n..]);
        JoinedCons(o, rest.1);
        if rest.0 == Ok {
          Associate(line, Joined(rest.1), rest.2);
          SplitAt(buf, n);
        }
      }
    }
  }

  /** The lines of one output followed by more outputs. */
  lemma JoinedCons(o: MiOutput, outs: seq<MiOutput>)
    ensures Joined([o] + outs) == o.line + Joined(outs)
  {
    assert ([o] + outs)[1..] == outs;
  }

  lemma LastOfSuffix(s: seq<char>, n: nat)
    requires n <= |s|
    ensures s[n..] == [] || s[n..][|s[n..]| - 1] == s[|s| - 1]
  {
  }

  lemma SplitAt(s: seq<char>, n: nat)
    requires n <= |s|
    ensures s[..n] + s[n..] == s
  {
  }

  lemma Associate(a: seq<char>, b: seq<char>, c: seq<char>)
    ensures a + (b + c) == (a + b) + c
  {
  }

  /** A push onto a buffer without a line ending is the push loop run on the whole buffer. */
  lemma ReceiveIsDrain(g: Grammar, buf: seq<char>, data: seq<char>)
    requires !HasLineEnding(buf)
    ensures Receive(g, buf, data) == Drain(g, buf + data)
  {
    HasLineEndingConcat(buf, data);
  }

  /** A cut into two buffers that does not fall right after a `\r` does not change the first line. */
  lemma LineLengthConcat(b: seq<char>, c: seq<char>)
    requires LineLength(b) > 0 && b[|b| - 1] != '\r'
    ensures LineLength(b + c) == LineLength(b)
    ensures (b + c)[..LineLength(b)] == b[..LineLength(b)]
    ensures (b + c)[LineLength(b)..] == b[LineLength(b)..] + c
  {
    IndexOfAnyPrefix(b, c);
  }

  lemma {:induction false} IndexOfAnyPrefix(b: seq<char>, c: seq<char>)
    requires IndexOfAny(b, LINE_ENDINGS) < |b|
    ensures IndexOfAny(b + c, LINE_ENDINGS) == IndexOfAny(b, LINE_ENDINGS)
  {
    if b[0] !in LINE_ENDINGS {
      assert (b + c)[1..] == b[1..] + c;
      IndexOfAnyPrefix(b[1..], c);
    }
  }

  /**
   * Draining `b + c` is draining `b`, then draining what `b` left followed
   * by `c` -- as long as `b` does not end with a `\r`.
   */
  lemma {:induction false} DrainAppend(g: Grammar, b: seq<char>, c: seq<char>)
    requires b == [] || b[|b| - 1] != '\r'
    requires Drain(g, b).0 == Ok
    ensures Drain(g, b + c) == After(Drain(g, b).1, Drain(g, Drain(g, b).2 + c))
    decreases |b|
  {
    var n := LineLength(b);
    if n == 0 {
      assert Drain(g, b) == (Ok, [], b);
      assert [] + Drain(g, b + c).1 == Drain(g, b + c).1;
    } else {
      var line := CPrefix(b[..n]);
      var v := g(line).value;
      var rest := b[n..];
      var head := [MiOutput(v, line)];
      var d := Drain(g, rest);
      var e := Drain(g, d.2 + c);
      assert Drain(g, b) == After(head, d) by {
        DrainParsedLine(g, b, n, line);
      }
      calc {
        Drain(g, b + c);
        { LineLengthConcat(b, c); DrainParsedLine(g, b + c, n, line); }
        After(head, Drain(g, rest + c));
        { LastOfSuffix(b, n); DrainAppend(g, rest, c); }
        After(head, After(d.1, e));
        { AfterAfter(head, d.1, e); }
        After(head + d.1, e);
      }
    }
  }

  /**
   * Pushing `a` and then `c` delivers the same outputs, gives the same result
   * and leaves the same bytes buffered as pushing `a + c` at once, provided
   * the first push succeeded and `a` does not end with a `\r`.
   */
  lemma ReceiveChunks(g: Grammar, buf: seq<char>, a: seq<char>, c: seq<char>)
    requires !HasLineEnding(buf)
    requires a == [] || a[|a| - 1] != '\r'
    requires Receive(g, buf, a).0 == Ok
    ensures Receive(g, buf, a + c) == After(Receive(g, buf, a).1, Receive(g, Receive(g, buf, a).2, c))
  {
    var first := Receive(g, buf, a);
    var whole := Drain(g, (buf + a) + c);
    assert Receive(g, buf, a + c) == whole by {
      ReceiveIsDrain(g, buf, a + c);
      Associate(buf, a, c);
    }
    assert whole == After(first.1, Drain(g, first.2 + c)) by {
      ReceiveIsDrain(g, buf, a);
      NotEndingInCr(buf, a);
      DrainAppend(g, buf + a, c);
    }
    assert Drain(g, first.2 + c) == Receive(g, first.2, c) by {
      ReceiveLeavesNoLine(g, buf, a);
      ReceiveIsDrain(g, first.2, c);
    }
  }

  /** After a successful push onto a buffer without a line ending, none is left. */
  lemma ReceiveLeavesNoLine(g: Grammar, buf: seq<char>, a: seq<char>)
    requires !HasLineEnding(buf)
    requires Receive(g, buf, a).0 == Ok
    ensures !HasLineEnding(Receive(g, buf, a).2)
  {
    if !HasLineEnding(a) {
      HasLineEndingConcat(buf, a);
    }
  }

  lemma NotEndingInCr(buf: seq<char>, a: seq<char>)
    requires !HasLineEnding(buf)
    requires a == [] || a[|a| - 1] != '\r'
    ensures buf + a == [] || (buf + a)[|buf + a| - 1] != '\r'
  {
    if a == [] {
      NoLineEnding(buf);
      assert buf + a == buf;
      assert buf == [] || buf[|buf| - 1] !in LINE_ENDINGS;
    }
  }

  /** A push of exactly one line onto an empty buffer delivers that line's output and leaves nothing. */
  lemma ReceiveOneLine(g: Grammar, l: seq<char>)
    requires IsLine(l) && NoNul(l) && g(l).Some?
    ensures Receive(g, [], l) == (Ok, [MiOutput(g(l).value, l)], [])
  {
    LineEndingAt(l, |l| - 1);
    ReceiveWithLine(g, [], l);
    assert [] + l == l;
    WholeLine(l);
    DrainSingleLine(g, l);
  }

  lemma ReceiveWithLine(g: Grammar, buf: seq<char>, data: seq<char>)
    requires HasLineEnding(data)
    ensures Receive(g, buf, data) == Drain(g, buf + data)
  {
  }

  /** A NUL-free line is its own first line and its own C string. */
  lemma WholeLine(l: seq<char>)
    requires IsLine(l) && NoNul(l)
    ensures LineLength(l) == |l| && CPrefix(l) == l
  {
    OwnFirstLine(l);
    CPrefixOfNoNul(l);
  }

  /** A line is its own first line. */
  lemma OwnFirstLine(l: seq<char>)
    requires IsLine(l)
    ensures LineLength(l) == |l|
  {
    var p := IndexOfAny(l, LINE_ENDINGS);
    assert p < |l| by {
      assert l[|l| - 1] in LINE_ENDINGS;
    }
    assert p == |l| - 1 || p == |l| - 2 by {
      assert forall j :: 0 <= j < |l| - 2 ==> l[j] !in LINE_ENDINGS;
    }
    if p == |l| - 2 {
      assert l[p] == '\r' && l[p + 1] == '\n';
    }
  }

  /** Draining a buffer that is exactly one line which parses. */
  lemma DrainSingleLine(g: Grammar, l: seq<char>)
    requires |l| > 0 && NoNul(l) && LineLength(l) == |l| && CPrefix(l) == l && g(l).Some?
    ensures Drain(g, l) == (Ok, [MiOutput(g(l).value, l)], [])
  {
    assert l[..|l|] == l;
    DrainParsedLine(g, l, |l|, l);
    assert l[|l|..] == [];
    DrainEmpty(g);
    assert [MiOutput(g(l).value, l)] + [] == [MiOutput(g(l).value, l)];
  }

  lemma DrainEmpty(g: Grammar)
    ensures Drain(g, []) == (Ok, [], [])
  {
  }

  /**
   * Why DrainLines asks for NUL-free input: the line is handed to the
   * grammar, and copied into the output with strdup, as a C string, which
   * ends at the first NUL, so the line `a`, NUL, `b` comes out as `a` alone.
   */
  lemma NulTruncatesLine(g: Grammar, buf: seq<char>)
    requires buf == "a\0b\n" && g("a").Some?
    ensures Drain(g, buf) == (Ok, [MiOutput(g("a").value, "a")], [])
  {
    NulLineLength(buf);
    NulLinePrefix(buf);
    assert buf[..4] == buf && buf[4..] == [];
    DrainParsedLine(g, buf, 4, "a");
    DrainEmpty(g);
    assert [MiOutput(g("a").value, "a")] + [] == [MiOutput(g("a").value, "a")];
  }

  /** The example buffer is one line of four bytes. */
  lemma NulLineLength(buf: seq<char>)
    requires buf == "a\0b\n"
    ensures LineLength(buf) == 4
  {
    assert buf[0] !in LINE_ENDINGS && buf[1] !in LINE_ENDINGS && buf[2] !in LINE_ENDINGS;
    assert buf[3] in LINE_ENDINGS;
    assert IndexOfAny(buf, LINE_ENDINGS) == 3;
  }

  /** C sees only the `a` of it. */
  lemma NulLinePrefix(buf: seq<char>)
    requires buf == "a\0b\n"
    ensures CPrefix(buf) == "a"
  {
    var r := CPrefix(buf);
    assert buf[0] != NUL && buf[1] == NUL;
    assert |r| == 1;
  }

  /** A buffer whose first line parses: that line's output, then the rest drained. */
  lemma DrainParsedLine(g: Grammar, buf: seq<char>, n: nat, line: seq<char>)
    requires n == LineLength(buf) > 0 && line == CPrefix(buf[..n]) && g(line).Some?
    ensures Drain(g, buf) == After([MiOutput(g(line).value, line)], Drain(g, buf[n..]))
  {
  }

  /**
   * The proviso is needed: a line `t\r\n` pushed at once is one line ...
   */
  lemma CrLfInOnePush(g: Grammar, t: seq<char>)
    requires NoNul(t) && !HasLineEnding(t) && g(t + "\r\n").Some?
    ensures var l := t + "\r\n"; var outs := Receive(g, [], l).1;
      |outs| == 1 && outs[0].variant == g(l).value && outs[0].line == l
  {
    TerminatedLine(t, "\r\n");
    ReceiveOneLine(g, t + "\r\n");
  }

  /** ... but `t\r` and then `\n` are two lines, `t\r` and `\n`. */
  lemma CrLfAcrossPushes(g: Grammar, t: seq<char>)
    requires NoNul(t) && !HasLineEnding(t)
    requires g(t + "\r").Some? && g("\n").Some?
    ensures var l1, l2 := t + "\r", "\n";
      var first := Receive(g, [], l1);
      var outs := first.1 + Receive(g, first.2, l2).1;
      |outs| == 2 && outs[0].variant == g(l1).value && outs[0].line == l1
      && outs[1].variant == g(l2).value && outs[1].line == l2
  {
    TerminatedLine(t, "\r");
    ReceiveOneLine(g, t + "\r");
    TerminatedLine([], "\n");
    assert [] + "\n" == "\n";
    ReceiveOneLine(g, "\n");
  }

  /** A text without line endings or NUL, followed by one line ending, is a line. */
  lemma TerminatedLine(t: seq<char>, ending: seq<char>)
    requires NoNul(t) && !HasLineEnding(t)
    requires ending == "\r" || ending == "\n" || ending == "\r\n"
    ensures IsLine(t + ending) && NoNul(t + ending)
  {
    NoLineEnding(t);
    var l := t + ending;
    assert forall j :: 0 <= j < |t| ==> l[j] == t[j];
  }
}

=== FILE: mi_tree.dfy ===
/**
 * The GDB/MI parse tree (gdbwire_mi_pt.h) as values.
 *
 * The C structures are linked lists (`next` pointers) of heap records; here
 * a list is a sequence, and an empty tuple or list (a NULL `result` pointer
 * in C) is the empty sequence.
 */
module MiTree {
  import opened CStr

  /** The strings of the tree are NUL-terminated copies made by the lexer. */
  type CString = s: seq<char> | NoNul(s)

  /** A key/value pair; the key is absent in lists and in gdbwire's relaxed tuples. */
  datatype MiResult = MiResult(variable: Option<CString>, value: MiValue)

  datatype MiValue =
    | CStringValue(cstring: CString)
    | Tuple(members: seq<MiResult>)
    | List(elements: seq<MiResult>)

  datatype ResultClass = Done | Running | Connected | Error | Exit | Unsupported

  /** A result record: its token, its class and its (possibly empty) result list. */
  datatype ResultRecord = ResultRecord(token: Option<CString>, resultClass: ResultClass, results: seq<MiResult>)

  datatype AsyncRecordKind = Status | Exec | Notify

  datatype StreamRecordKind = Console | Target | Log

  datatype OobRecord =
    | AsyncRecord(asyncToken: Option<CString>, asyncKind: AsyncRecordKind, asyncResults: seq<MiResult>)
    | StreamRecord(streamKind: StreamRecordKind, text: CString)

  datatype Position = Position(startColumn: int, endColumn: int)

  datatype MiOutputVariant =
    | Oob(oob: OobRecord)
    | Result(record: ResultRecord)
    | Prompt
    | ParseError(token: CString, pos: Position)

  /** One output per line of GDB/MI text; `line` is the line it was made from. */
  datatype MiOutput = MiOutput(variant: MiOutputVariant, line: CString)
}
